=== FILE: README.md ===
# ETL data-validation comparison, modelled in Dafny

This project models the comparison core of the ETL_Test_Automation repository. The repository
validates an ETL load by comparing a source data frame with a target data frame. The comparison
works on a primary key and reports:

- rows present on only one side;
- cell-by-cell differences in the rows both sides share;
- a one-row overview that ends in the status `Passed` or `Failed`.

Three parts of the repository are modelled:

- **`udfs/multiple_functions.py`** (`compare.dfy`):
  - `standardize_dataframe`, which sorts columns, drops duplicate rows, casts cells to text, and strips and lower-cases labels;
  - primary-key cleaning and primary-key de-duplication;
  - `find_extra_rows`, `find_common_rows` and `compare_common_rows`;
  - `build_overview`;
  - the pure pipeline of `compare_dataframes`.
- **`compare/databricks/compare.py`** (`databricks.dfy`): the notebook version of the same comparison. It differs in three ways:
  - the index is never reset after de-duplication;
  - the shared rows are compared without re-labelling;
  - only the first 100 sorted rows of each result are sampled.
- **`Test/test_employee_etl_csv_sql.py`** (`employee_etl.dfy`): the source-side transformation rules for the employee load:
  - the department map;
  - the current-employee flag;
  - promotion eligibility;
  - salary digits and salary currency;
  - action items.

Supporting modules:

- `results.dfy`: the `Option` and `Result` types, and the errors pandas would raise.
- `text.dfy`: Python string semantics for `str.strip`, `str.lower`, code-point ordering, decimal rendering and `", ".join`.
- `order.dfy`: stable sort by key, first-occurrence de-duplication, filtering and subsequences.
- `frames.dfy`: the data frame itself, with two layers:
  - `Table` is a value: a header and rows, each row carrying its index label.
  - `Frame` is a class whose methods update it in place, like pandas' `inplace=True` calls.

Each in-place pipeline is a method proved equal to a pure specification function. The
properties are proved as lemmas about those functions.

## Model

| member | source | states |
|---|---|---|
| Compare.StandardizeFails | udfs/multiple_functions.py:40-45 | standardising fails exactly when two column labels collide after strip and lower-case, and the error is a duplicate-column error |
| Compare.StandardizeColumns | udfs/multiple_functions.py:41-44 | the new header has one distinct, already-normalised label per input column, covers every input label, and is ordered by the original labels |
| Compare.StandardizeRows | udfs/multiple_functions.py:41-43 | the result is rectangular; with at least one label it has no two identical rows and every kept row is the first occurrence of its content; a frame without labels keeps all its rows, as pandas returns an empty frame unchanged; every input row is shown by some kept row; index labels are a subsequence of the input's |
| Compare.StandardizeCanonical | udfs/multiple_functions.py:40-45 | a frame whose header is sorted and normalised and whose rows are distinct comes back unchanged |
| Compare.StandardizeIdempotent | udfs/multiple_functions.py:40-45 | standardising twice equals standardising once whenever the first result's header is sorted |
| Compare.StandardizeNotIdempotent | udfs/multiple_functions.py:41-44 | for header `["B", "a"]`, the result's header is `["b", "a"]`, and standardising again changes the frame |
| Compare.StandardizeDataframe | udfs/multiple_functions.py:40-45 | the in-place steps produce a fresh frame equal to the specification, or the same error |
| Compare.CleanPrimaryKeySpec | udfs/multiple_functions.py:51-55 | it fails iff a key column is missing, naming a missing key; otherwise exactly the key columns' cells are stripped and nothing else changes |
| Compare.CleanPrimaryKeyIdempotent | udfs/multiple_functions.py:51-55 | cleaning the key columns twice equals cleaning once |
| Compare.CleanPrimaryKeyColumns | udfs/multiple_functions.py:51-55 | the loop over the keys leaves the frame equal to the specification, or reports the first missing key |
| Compare.DropKeyDuplicatesSpec | udfs/multiple_functions.py:58-62 | a frame without rows comes back unchanged; a frame with rows fails iff a key column is missing (that key's error) or the key is empty (the empty-key error); otherwise the header is kept, the index is 0..n-1, keys are distinct, the key set is unchanged, and each kept row is the first with its key |
| Compare.DropKeyDuplicatesOfDistinct | udfs/multiple_functions.py:58-62 | on rows whose keys are already distinct, only the index is reset |
| Compare.RemovePkDuplicates | udfs/multiple_functions.py:58-62 | the caller's frame is de-duplicated in place; the returned fresh frame is that, with a reset index |
| Compare.ExtraRowsSpec | udfs/multiple_functions.py:69-75 | it fails iff a key column is missing from either frame; otherwise the result is the subsequence of the main rows whose key is absent from the other frame, and its keys are the set difference |
| Compare.ExtraRowsCount | udfs/multiple_functions.py:69-75 | with distinct keys, the number of extra rows is the size of the key-set difference |
| Compare.NoExtraRowsAgainstItself | udfs/multiple_functions.py:69-75 | a frame has no extra rows against itself |
| Compare.CommonColumnsSpec | udfs/multiple_functions.py:105 | the common header is sorted, distinct and holds exactly the labels in both headers |
| Compare.CommonRowsAligned | udfs/multiple_functions.py:90-109 | both sides have the common header and the same number of rows, the same keys in the same strictly increasing order, and exactly the keys found in both frames |
| Compare.MatchedKeyPartition | udfs/multiple_functions.py:69-99 | every key tuple of either prepared side is reported in exactly one place: extra in the source, extra in the target, or among the common rows |
| Compare.RowDifferenceSpec | udfs/multiple_functions.py:111-113 | a row's difference lists only cells that differ, lists every differing cell, and is empty iff the rows agree |
| Compare.CompareCommonRowsSpec | udfs/multiple_functions.py:111-113 | the differences come in increasing row order; each names a differing row and carries its cell differences; every differing row is listed |
| Compare.CompareEmptyIff | udfs/multiple_functions.py:111-113 | there are no differences iff the header is empty or the rows are equal |
| Compare.ShapeStringInjective | udfs/multiple_functions.py:205-206 | the text "R rows and C columns" determines R and C |
| Compare.BuildOverviewSpec | udfs/multiple_functions.py:121-136 | status is Passed iff all three counts are zero and Failed otherwise; counts and shapes are copied; the joined key splits back into the key list |
| Compare.PreparedSpec | udfs/multiple_functions.py:209-218 | preparing one frame fails iff labels collide, a lower-cased key is not a normalised label, or the key is empty and the frame has rows; the error says which; on success the result is rectangular, range-indexed and has distinct keys |
| Compare.ComparisonPrepares | udfs/multiple_functions.py:193-225 | the comparison succeeds iff both frames can be prepared |
| Compare.ComparisonReport | udfs/multiple_functions.py:193-236 | the overview holds both shapes and the sizes of the two key-set differences; status is Passed iff the key sets are equal and the common rows agree |
| Compare.IdenticalInputsPass | udfs/multiple_functions.py:193-236 | comparing a frame with itself passes |
| Compare.CompareDataframes | udfs/multiple_functions.py:193-242 | the in-place pipeline over two frames returns exactly the specified report or error |
| Compare.RunKeyStages | udfs/multiple_functions.py:213-218 | key cleaning and key de-duplication of both frames match the specification stage by stage |
| Frames.Frame.DropDuplicates | udfs/multiple_functions.py:42 | in-place drop of duplicate rows keeps the first occurrence of each row; a frame without rows or without columns is left as it is |
| Frames.Frame.DropDuplicatesOn | compare/databricks/compare.py:37-38 | in-place de-duplication on a key leaves a frame without rows as it is; on a frame with rows it fails on a missing key column, then on an empty key, leaving the frame untouched; otherwise it keeps the first row per key |
| Frames.KeyDeduplicationSpec | udfs/multiple_functions.py:60 | de-duplication on a key fails iff the frame has rows and the key is empty or names a missing column, the missing column's error first; on success the header is kept, the rows are a subsequence of the input's, keys are distinct and the key set is unchanged |
| Frames.Frame.StripColumn | udfs/multiple_functions.py:54 | stripping one column fails iff it is missing; otherwise only that column's cells are stripped |
| Frames.Frame.SetColumns | udfs/multiple_functions.py:44 | assigning new labels keeps the rows |
| Databricks.StripKeysBothSpec | compare/databricks/compare.py:32-34 | the key loop fails iff a key is missing from either frame, naming the first such key; otherwise exactly the key columns are stripped in both frames |
| Databricks.StripKeyColumns | compare/databricks/compare.py:32-34 | the interleaved in-place loop over both frames matches the specification |
| Databricks.DbPreparedSpec | compare/databricks/compare.py:10-38 | preparation fails iff labels collide, a key is absent from either normalised header, or the key is empty and either frame has rows; the error says which; on success both frames are rectangular, keep their normalised labels, and have distinct keys |
| Databricks.DbKeyStagesSpec | compare/databricks/compare.py:32-38 | the key loop and the two key de-duplications on canonical frames fail iff a key is absent from a header or the key is empty while a frame has rows; on success both keep their headers and have distinct keys |
| Databricks.DeduplicateBothSpec | compare/databricks/compare.py:37-38 | with every key column present, de-duplicating both frames fails iff the key is empty and a frame has rows, with the empty-key error; otherwise both keep their headers and have distinct keys |
| Databricks.LabelledDifferencesSpec | compare/databricks/compare.py:56 | the labelled comparison lists exactly the differing rows, in input order |
| Databricks.LabelledDifferencesOfRangeIndex | compare/databricks/compare.py:56 | on range-indexed frames of equal length, the labelled comparison equals the positional comparison |
| Databricks.TakeOfSorted | compare/databricks/compare.py:60-67 | the first n of a sorted sequence are sorted, come from the input, and no omitted element sorts before a kept one |
| Databricks.ExtraSharedPartition | compare/databricks/compare.py:42-51 | the extra rows and the shared rows of one side are together exactly that side's rows, as a multiset; no key tuple is on both sides, and together they carry all the side's key tuples |
| Databricks.SummarySpec | compare/databricks/compare.py:60-88 | counts are taken before sampling; each sample holds min(n, 100) rows drawn from its result, sorted (differences by row label, extra rows by key), with no omitted row sorting before a kept one; status is Passed iff nothing is extra or different |
| Databricks.DatabricksReport | compare/databricks/compare.py:10-88 | a successful run's overview holds both shapes and the sizes of the key-set differences; status is Passed iff the key sets are equal and no shared row differs |
| Databricks.DatabricksRunLabelError | compare/databricks/compare.py:50-56 | the run raises the identically-labelled error iff the sorted shared rows differ in header or index labels |
| Databricks.CompareDataframes | compare/databricks/compare.py:4-88 | the in-place notebook steps return exactly the specified report or error |
| Databricks.ShiftedLabelsRaise | compare/databricks/compare.py:50-56 | source `[id=1]` against target `[id=0, id=1]` raises, though the inputs are well formed |
| Databricks.DatabricksRunAlignedSpec | compare/databricks/compare.py:50-88 | with shared rows re-indexed, the run fails only on a header mismatch; the counts are the key-set differences; status is Passed iff key sets are equal and the shared rows agree |
| Databricks.ShiftedLabelsReported | compare/databricks/compare.py:50-88 | the corrected run reports the shifted example as Failed, with one extra target row and no mismatches |
| Databricks.AlignedReportOnEqualShared | compare/databricks/compare.py:70-88 | when the shared rows agree, the corrected run passes iff the key sets are equal |
| EmployeeEtl.DeptMapShape | Test/test_employee_etl_csv_sql.py:22-39 | the department map has 16 spellings onto exactly 5 department names |
| EmployeeEtl.NormaliseDepartmentExact | Test/test_employee_etl_csv_sql.py:41 | a department maps to a value iff its spelling is a key; a missing value and any unlisted spelling (e.g. `hr`, `Finance `) map to missing |
| EmployeeEtl.NormaliseDepartmentIdempotent | Test/test_employee_etl_csv_sql.py:22-41 | mapping twice equals mapping once; every canonical name maps to itself |
| EmployeeEtl.CurrentEmployeeFlagSpec | Test/test_employee_etl_csv_sql.py:72-74 | the flag agrees with the Action_Items rules (lines 109-121): "1" iff the record is flagged as left-but-active, or is unflagged with no leave date; "0" iff it is flagged as inactive-without-leave, or has a leave date and is not flagged as left-but-active |
| EmployeeEtl.PromotionEligibilitySpec | Test/test_employee_etl_csv_sql.py:79-85 | Eligible iff active with score at least 80 and at least 3 years; eligible implies flag "1"; monotone in score and years; missing values are Not Eligible |
| EmployeeEtl.SalaryNumericSpec | Test/test_employee_etl_csv_sql.py:91 | the result holds only digits, each digit as often as in the text, and is no longer than the text; applying it again changes nothing; a missing salary gives "" |
| EmployeeEtl.DigitsOnlyAppend | Test/test_employee_etl_csv_sql.py:91 | extracting digits distributes over concatenation |
| EmployeeEtl.SalaryCurrencySpec | Test/test_employee_etl_csv_sql.py:96-104 | USD iff the salary text holds `$` or, letter case folded, `usd`; INR iff it holds neither but holds `₹` or, case folded, `â‚¹` or `inr`; UNKNOWN iff it holds none of these; a missing salary is UNKNOWN |
| EmployeeEtl.ContainsAsPiece | Test/test_employee_etl_csv_sql.py:97 | a case-insensitive search finds a pattern iff the case-folded pattern is a contiguous piece of the case-folded text |
| EmployeeEtl.SalaryCurrencyOfLower | Test/test_employee_etl_csv_sql.py:97-100 | detection ignores case: lower-casing the salary text does not change the currency |
| EmployeeEtl.SalaryCurrencyExamples | Test/test_employee_etl_csv_sql.py:96-104 | "usd 5000" is USD, "₹50000" is INR, "50000" is UNKNOWN |
| EmployeeEtl.ActionItemsSpec | Test/test_employee_etl_csv_sql.py:109-121 | the three messages follow the first-matching-branch order; each message agrees with the current-employee flag; an active employee with no leave date gets none |
| EmployeeEtl.EmployeeFrame.MapDepartment | Test/test_employee_etl_csv_sql.py:41 | every record's department is replaced by its mapped value; nothing else changes |
| EmployeeEtl.EmployeeFrame.AssignCurrentEmployeeFlag | Test/test_employee_etl_csv_sql.py:72-74 | the flag column holds the flag of every record; other columns unchanged |
| EmployeeEtl.EmployeeFrame.AssignPromotionEligibility | Test/test_employee_etl_csv_sql.py:79-85 | the eligibility column holds every record's eligibility; other columns unchanged |
| EmployeeEtl.EmployeeFrame.AssignSalaryNumeric | Test/test_employee_etl_csv_sql.py:91 | the salary-digits column holds every record's digits; other columns unchanged |
| EmployeeEtl.EmployeeFrame.AssignSalaryCurrency | Test/test_employee_etl_csv_sql.py:96-104 | the currency column holds every record's currency; other columns unchanged |
| EmployeeEtl.EmployeeFrame.AssignActionItems | Test/test_employee_etl_csv_sql.py:109-121 | the action column holds every record's action item; other columns unchanged |
| EmployeeEtl.TestEmployeeEtl | Test/test_employee_etl_csv_sql.py:10-127 | every derived column is computed from the source record; eligible rows are flagged "1"; "Wrong Entry Flag" rows are flagged "0"; the key is `["employee_id"]` |

## Left out

- Loading (`load_csv`, `load_sql`, Spark CSV reads) is not modelled. The frames are parameters of the model.
- Excel writing, `generate_output_file`, `dbutils` copies, Azure storage, logging `print`s and the `try`/`except` printing are left out. A raised error is modelled as the `Err` value it would print.
- `Compare.CompareDataframes`: the product name is a parameter. In the source it comes from `generate_output_file`, which reads the clock.
- The `isinstance` type checks of `compare_dataframes` are not modelled, because both arguments are always frames here.
- `Working_Days` is not modelled, because it depends on today's date. The database connection and the target query of the employee test are not modelled either.
- Cells are the rendered strings of `astype(str)`, and pandas dtypes and type inference are not modelled. A missing value renders by its kind: `nan` for a missing number, `None` for a missing object (the action items the test leaves unset, Test/test_employee_etl_csv_sql.py:118, and a NULL text from `read_sql` or `toPandas`), `NaT` for a missing date (Test/test_employee_etl_csv_sql.py:49-50). The model takes each of these as ordinary cell text. `Frames.NullMarker` (`nan`) is only what `Frames.Cell` gives for a column a row does not have. Performance scores and experience years are integers; join and leave dates are day numbers.
- Compare.StandardizeFails: the model rejects some headers the source accepts. When two different labels become equal after strip and lower-case, the source's relabelling never raises and pandas keeps both columns under one label. The source then fails only if that label is a key column, because selecting it yields a frame rather than a column (udfs/multiple_functions.py:54, compare/databricks/compare.py:33-34); a collision on a non-key label, such as the header `A`, `a`, `id` keyed on `id`, goes on to a report. The model returns a duplicate-column error for every such collision. The same holds for a header that repeats a label exactly and is already in sorted order, such as `a`, `a`, `id`, which a query can return: pandas' reindex finds the sorted header equal to the current one and returns the frame unchanged instead of raising (udfs/multiple_functions.py:41, compare/databricks/compare.py:10 and 16), so the source goes on to a report with key `id`, while the model returns a duplicate-column error for every repeated label. Compare.PreparedSpec, Compare.ComparisonPrepares and Databricks.DbPreparedSpec inherit both gaps.
- Frames.KeyDeduplicationSpec: on a frame with rows but no columns, pandas' `drop_duplicates(subset=…)` returns the frame unchanged because the frame counts as empty, while the model raises the missing-key or empty-key error. Such a frame cannot come from a query or from a CSV with a header, and with a non-empty key the key-cleaning steps before it already raise on it. Frames.Frame.DropDuplicatesOn, Compare.DropKeyDuplicatesSpec, Compare.PreparedSpec, Compare.ComparisonPrepares, Databricks.DbKeyStagesSpec and Databricks.DbPreparedSpec inherit this gap: an empty key on such a frame is an error in the model, not a pass-through.
- `Lower` covers ASCII and Latin-1 only, and `\D` is modelled as "not an ASCII digit". Other Unicode cases and digits are not modelled.
- Compare.CleanPrimaryKeyColumns: when the frame is missing a later key, the keys before it have already been stripped in place. The model specifies the frame only on success.
- Databricks.StripKeyColumns: on error, the model specifies only which key was missing, not the partly stripped frames.
- `compare_common_rows` is modelled only on what `find_common_rows` hands it: equal headers and a range index. `align`'s padding is modelled as missing cells. The multi-level columns of `DataFrame.compare` are modelled as a list of (column, self, other) triples per row.
- The corrected Databricks run (`Databricks.DatabricksRunAligned`) still raises when the two normalised headers differ, just as `DataFrame.compare` does.
- Standardising is not idempotent in general. The header is ordered by the original labels, so `["B", "a"]` becomes `["b", "a"]` (Compare.StandardizeNotIdempotent). Idempotence holds when the first result's header is sorted (Compare.StandardizeIdempotent).

## Findings

| source | as written | input that shows it | evidently intended | confidence | as-written member | corrected member |
|---|---|---|---|---|---|---|
| compare/databricks/compare.py:53-56 | the shared rows are sorted but keep their old index labels, and `DataFrame.compare` raises unless both frames are identically labelled | source with one row `id=1`; target with rows `id=0`, `id=1` (labels 0 and 1) | a Failed report with one extra row in the target and no mismatched records, as the `reset_index` in `udfs/multiple_functions.py:101-102` gives | not executed | Databricks.ShiftedLabelsRaise | Databricks.ShiftedLabelsReported |

=== FILE: compare.dfy ===
/**
 * The pandas comparison pipeline of udfs/multiple_functions.py: canonical
 * tables (`standardize_dataframe`), key cleaning and key deduplication, the
 * partition into source-only, target-only and common rows, the cell-wise
 * comparison of the common rows and the one-row overview.
 */
module Compare {
  import opened Results
  import opened Order
  import opened Text
  import opened Frames

  // ------------------------------------------------------------------
  // standardize_dataframe
  // ------------------------------------------------------------------

  /** `str.strip().str.lower()` on a column label. */
  function NormaliseName(c: string): string {
    Lower(Strip(c))
  }

  function NormaliseNames(cs: seq<string>): (r: seq<string>)
    ensures |r| == |cs| && forall i :: 0 <= i < |cs| ==> r[i] == NormaliseName(cs[i])
  {
    seq(|cs|, i requires 0 <= i < |cs| => NormaliseName(cs[i]))
  }

  /** `sorted(df.columns)`: the labels in code-point order. */
  function SortedColumns(cs: seq<string>): seq<string> {
    SortBy(cs, (c: string) => c, StrLt)
  }

  /**
   * The canonical table: columns reordered by their original labels, identical
   * rows dropped (first occurrence kept), cells rendered as text and labels
   * stripped and lower-cased. Reindexing on a repeated label raises unless
   * the header is already in sorted order, in which case pandas returns it
   * unchanged; where two different labels become equal once normalised,
   * pandas keeps both columns under one label and goes on. This model reports
   * a duplicate-column error for every repeated label and every such collision.
   */
  function Standardize(t: Table): Result<Table> {
    if !Distinct(t.columns) then Err(DuplicateColumns)
    else
      var sorted := SortedColumns(t.columns);
      var names := NormaliseNames(sorted);
      if !Distinct(names) then Err(DuplicateColumns)
      else Ok(Table(names, Deduplicated(Reindexed(t, sorted)).rows))
  }

  /** A normalised label is its own normalisation. */
  lemma {:induction false} NormaliseNameIdempotent(c: string)
    ensures NormaliseName(NormaliseName(c)) == NormaliseName(c)
  {
    LowerOfStripped(c);
    LowerIdempotent(Strip(c));
  }

  /** The sorted header is a strictly increasing rearrangement of a header without repeats. */
  lemma {:induction false} SortedColumnsFacts(cs: seq<string>)
    requires Distinct(cs)
    ensures multiset(SortedColumns(cs)) == multiset(cs) && |SortedColumns(cs)| == |cs|
    ensures Distinct(SortedColumns(cs)) && Increasing(SortedColumns(cs), StrLt)
  {
    var id := (c: string) => c;
    var o := SortedColumns(cs);
    StrLtIsStrictTotalOrder();
    assert DistinctKeys(cs, id);
    DistinctKeysPermutation(o, cs, id);
    SortedDistinctIncreasing(o, id, StrLt);
    assert KeySeq(o, id) == o;
  }

  /** In a header without repeats, a label's position is where it is. */
  lemma {:induction false} ColumnIndexOfMember(cs: seq<string>, k: nat)
    requires Distinct(cs) && k < |cs|
    ensures ColumnIndex(cs, cs[k]) == k
  {
  }

  /**
   * Looking a label up in the renamed, reordered header finds the cell that
   * the reordering put there.
   */
  lemma {:induction false} RenamedCell(o: seq<string>, v: seq<string>, c: string)
    requires Distinct(NormaliseNames(o)) && c in o && |v| == |o|
    ensures Cell(NormaliseNames(o), v, NormaliseName(c)) == Cell(o, v, c)
  {
    var names := NormaliseNames(o);
    var p := ColumnIndex(o, c);
    var q := ColumnIndex(names, NormaliseName(c));
    assert names[p] == NormaliseName(c);
    assert q == p;
  }

  /** Two column labels coincide once stripped and lower-cased. */
  ghost predicate LabelsCollide(cs: seq<string>) {
    exists i, j :: 0 <= i < j < |cs| && NormaliseName(cs[i]) == NormaliseName(cs[j])
  }

  /** Two input labels that normalise alike make two canonical labels alike. */
  lemma {:induction false} CollisionBreaksNames(cs: seq<string>, i: nat, j: nat)
    requires Distinct(cs) && i < j < |cs| && NormaliseName(cs[i]) == NormaliseName(cs[j])
    ensures !Distinct(NormaliseNames(SortedColumns(cs)))
  {
    var o := SortedColumns(cs);
    SortedColumnsFacts(cs);
    assert cs[i] in multiset(o) && cs[j] in multiset(o);
    CollidingImagesRepeat(o, NormaliseNames(o), NormaliseName, cs[i], cs[j]);
  }

  /** Two different elements with one image make the mapped sequence repeat. */
  lemma {:induction false} CollidingImagesRepeat<T>(o: seq<T>, names: seq<T>, f: T -> T, a: T, b: T)
    requires a != b && a in o && b in o && f(a) == f(b)
    requires |names| == |o| && forall k :: 0 <= k < |o| ==> names[k] == f(o[k])
    ensures !Distinct(names)
  {
    var p :| 0 <= p < |o| && o[p] == a;
    var q :| 0 <= q < |o| && o[q] == b;
    assert names[p] == names[q] && p != q;
    var lo, hi := if p < q then p else q, if p < q then q else p;
    assert names[lo] == names[hi];
  }

  /** Two canonical labels alike come from two input labels that normalise alike. */
  lemma {:induction false} NamesCollisionFromInput(cs: seq<string>, p: nat, q: nat)
    requires Distinct(cs) && p < q < |cs|
    requires NormaliseNames(SortedColumns(cs))[p] == NormaliseNames(SortedColumns(cs))[q]
    ensures LabelsCollide(cs)
  {
    var o := SortedColumns(cs);
    SortedColumnsFacts(cs);
    assert o[p] in multiset(cs) && o[q] in multiset(cs);
    var i :| 0 <= i < |cs| && cs[i] == o[p];
    var j :| 0 <= j < |cs| && cs[j] == o[q];
    assert o[p] != o[q];
    var lo, hi := if i < j then i else j, if i < j then j else i;
    assert NormaliseName(cs[lo]) == NormaliseName(cs[hi]);
  }

  /**
   * `Standardize` fails exactly when two column labels coincide once stripped
   * and lower-cased (a repeated label included), always with a duplicate-column
   * error; pandas accepts some of these headers, as the comment on `Standardize`
   * says.
   */
  lemma {:induction false} StandardizeFails(t: Table)
    ensures Standardize(t).Err? <==> LabelsCollide(t.columns)
    ensures Standardize(t).Err? ==> Standardize(t).error == DuplicateColumns
  {
    var cs := t.columns;
    if !Distinct(cs) {
      var i, j :| 0 <= i < j < |cs| && cs[i] == cs[j];
      assert NormaliseName(cs[i]) == NormaliseName(cs[j]);
    } else {
      if LabelsCollide(cs) {
        var i, j :| 0 <= i < j < |cs| && NormaliseName(cs[i]) == NormaliseName(cs[j]);
        CollisionBreaksNames(cs, i, j);
      }
      var names := NormaliseNames(SortedColumns(cs));
      if !Distinct(names) {
        var p, q :| 0 <= p < q < |names| && names[p] == names[q];
        NamesCollisionFromInput(cs, p, q);
      }
    }
  }

  /** Header `cols` lists the normalised forms of `cs` in the order of the labels of `cs`. */
  ghost predicate OrderedByOriginal(cols: seq<string>, cs: seq<string>) {
    forall i, j, a, b ::
      (0 <= i < j < |cols| && a in cs && b in cs
       && cols[i] == NormaliseName(a) && cols[j] == NormaliseName(b)) ==> StrLt(a, b)
  }

  lemma {:induction false} SortedNamesOrder(cs: seq<string>, i: nat, j: nat, a: string, b: string)
    requires Distinct(cs) && Distinct(NormaliseNames(SortedColumns(cs)))
    requires i < j < |cs| && a in cs && b in cs
    requires NormaliseNames(SortedColumns(cs))[i] == NormaliseName(a)
    requires NormaliseNames(SortedColumns(cs))[j] == NormaliseName(b)
    ensures StrLt(a, b)
  {
    var o := SortedColumns(cs);
    var cols := NormaliseNames(o);
    SortedColumnsFacts(cs);
    assert a in multiset(o) && b in multiset(o);
    var p :| 0 <= p < |o| && o[p] == a;
    var q :| 0 <= q < |o| && o[q] == b;
    assert cols[p] == cols[i] && cols[q] == cols[j];
    assert p == i && q == j;
  }

  lemma {:induction false} SortedNamesCover(cs: seq<string>, c: string)
    requires Distinct(cs) && c in cs
    ensures NormaliseName(c) in NormaliseNames(SortedColumns(cs))
  {
    var o := SortedColumns(cs);
    SortedColumnsFacts(cs);
    assert c in multiset(o);
    var p :| 0 <= p < |o| && o[p] == c;
    assert NormaliseNames(o)[p] == NormaliseName(c);
  }

  /**
   * The canonical header has as many labels as the input, none repeated, each
   * already stripped and lower-cased; every input label appears in its
   * normalised form, ordered by the code points of the ORIGINAL labels.
   */
  lemma {:induction false} StandardizeColumns(t: Table)
    requires Standardize(t).Ok?
    ensures var cols := Standardize(t).value.columns;
      && |cols| == |t.columns| && Distinct(cols)
      && (forall i :: 0 <= i < |cols| ==> NormaliseName(cols[i]) == cols[i])
      && (forall c :: c in t.columns ==> NormaliseName(c) in cols)
      && OrderedByOriginal(cols, t.columns)
  {
    var o := SortedColumns(t.columns);
    var cols := NormaliseNames(o);
    SortedColumnsFacts(t.columns);
    forall i | 0 <= i < |cols| ensures NormaliseName(cols[i]) == cols[i] {
      NormaliseNameIdempotent(o[i]);
    }
    forall c | c in t.columns ensures NormaliseName(c) in cols {
      SortedNamesCover(t.columns, c);
    }
    forall i, j, a, b | 0 <= i < j < |cols| && a in t.columns && b in t.columns
      && cols[i] == NormaliseName(a) && cols[j] == NormaliseName(b)
      ensures StrLt(a, b)
    {
      SortedNamesOrder(t.columns, i, j, a, b);
    }
  }

  /** Under its normalised label, canonical row `y` holds what input row `x` holds under the original label. */
  ghost predicate Shows(r: Table, y: seq<string>, t: Table, x: seq<string>) {
    forall k :: 0 <= k < |t.columns| && k < |x| ==>
      Cell(r.columns, y, NormaliseName(t.columns[k])) == x[k]
  }

  /**
   * Canonical row `j` carries the label of an input row, shows that row's
   * cells, and no earlier input row has the same content.
   */
  ghost predicate FirstShown(r: Table, j: nat, t: Table)
    requires j < |r.rows|
  {
    exists i :: 0 <= i < |t.rows|
      && r.rows[j].index == t.rows[i].index && Shows(r, r.rows[j].cells, t, t.rows[i].cells)
      && forall i' :: 0 <= i' < i ==> t.rows[i'].cells != t.rows[i].cells
  }

  /** Reordering and renaming the header keeps every cell under its (renamed) label. */
  lemma {:induction false} StandardizedCells(t: Table, x: Row)
    requires Standardize(t).Ok? && |x.cells| == |t.columns|
    ensures var o := SortedColumns(t.columns);
      Shows(Standardize(t).value, KeyOf(t.columns, x.cells, o), t, x.cells)
  {
    var o := SortedColumns(t.columns);
    var v := KeyOf(t.columns, x.cells, o);
    SortedColumnsFacts(t.columns);
    forall k | 0 <= k < |t.columns|
      ensures Cell(NormaliseNames(o), v, NormaliseName(t.columns[k])) == x.cells[k]
    {
      var c := t.columns[k];
      assert c in multiset(o);
      RenamedCell(o, v, c);
      var p := ColumnIndex(o, c);
      assert v[p] == Cell(t.columns, x.cells, c);
      ColumnIndexOfMember(t.columns, k);
    }
  }

  lemma {:induction false} StandardizedRowFirst(t: Table, j: nat)
    requires WellFormed(t) && !IsEmpty(t) && Standardize(t).Ok? && j < |Standardize(t).value.rows|
    ensures FirstShown(Standardize(t).value, j, t)
  {
    var o := SortedColumns(t.columns);
    var big := Reindexed(t, o);
    var r := Standardize(t).value;
    assert r.rows == DistinctBy(big.rows, Cells);
    DistinctByKeepsFirst(big.rows, Cells);
    assert r.rows[j].cells in KeySet(big.rows, Cells);
    var i := FirstIndexOfKey(big.rows, Cells, r.rows[j].cells);
    assert r.rows[j] == big.rows[i];
    StandardizedCells(t, t.rows[i]);
    forall i' | 0 <= i' < i ensures t.rows[i'].cells != t.rows[i].cells {
      assert big.rows[i'].cells != big.rows[i].cells;
    }
  }

  lemma {:induction false} StandardizedRowCovers(t: Table, i: nat) returns (j: nat)
    requires WellFormed(t) && !IsEmpty(t) && Standardize(t).Ok? && i < |t.rows|
    ensures j < |Standardize(t).value.rows|
    ensures Shows(Standardize(t).value, Standardize(t).value.rows[j].cells, t, t.rows[i].cells)
  {
    var o := SortedColumns(t.columns);
    var big := Reindexed(t, o);
    var r := Standardize(t).value;
    assert r.rows == DistinctBy(big.rows, Cells);
    assert big.rows[i] in big.rows;
    assert Cells(big.rows[i]) in KeySet(r.rows, Cells);
    var y :| y in r.rows && y.cells == big.rows[i].cells;
    j :| 0 <= j < |r.rows| && r.rows[j] == y;
    StandardizedCells(t, t.rows[i]);
    assert r.rows[j].cells == KeyOf(t.columns, t.rows[i].cells, o);
  }

  /**
   * The canonical rows: on a header with labels, no two identical and each the
   * first input row with its content, keeping that row's label and showing its
   * cells under the normalised labels; on an empty header, the input rows as
   * they are (pandas treats such a frame as empty). Every input row is shown
   * by some canonical row, and the labels keep their relative order.
   */
  lemma {:induction false} StandardizeRows(t: Table)
    requires WellFormed(t) && Standardize(t).Ok?
    ensures var r := Standardize(t).value;
      && WellFormed(r)
      && (|t.columns| > 0 ==> DistinctKeys(r.rows, Cells))
      && (|t.columns| > 0 ==> forall j :: 0 <= j < |r.rows| ==> FirstShown(r, j, t))
      && (|t.columns| == 0 ==> r.rows == t.rows)
      && (forall i :: 0 <= i < |t.rows| ==> exists j :: 0 <= j < |r.rows| && Shows(r, r.rows[j].cells, t, t.rows[i].cells))
      && IsSubsequence(Labels(r), Labels(t))
  {
    var o := SortedColumns(t.columns);
    var big := Reindexed(t, o);
    var r := Standardize(t).value;
    if IsEmpty(t) {
      EmptyStandardized(t);
    } else {
      assert r.rows == DistinctBy(big.rows, Cells);
      KeptRowsWellFormed(big, r.rows);
      forall j | 0 <= j < |r.rows| ensures FirstShown(r, j, t) {
        StandardizedRowFirst(t, j);
      }
      forall i | 0 <= i < |t.rows| ensures exists j :: 0 <= j < |r.rows| && Shows(r, r.rows[j].cells, t, t.rows[i].cells) {
        var j := StandardizedRowCovers(t, i);
      }
      KeptLabels(big, r);
      assert Labels(big) == Labels(t);
    }
  }

  /** On a frame without rows or without columns, the canonical rows are the input rows. */
  lemma {:induction false} EmptyStandardized(t: Table)
    requires WellFormed(t) && IsEmpty(t) && Standardize(t).Ok?
    ensures var r := Standardize(t).value;
      && r.rows == t.rows && WellFormed(r) && IsSubsequence(Labels(r), Labels(t))
      && forall i :: 0 <= i < |t.rows| ==> Shows(r, r.rows[i].cells, t, t.rows[i].cells)
  {
    var o := SortedColumns(t.columns);
    var big := Reindexed(t, o);
    var r := Standardize(t).value;
    if |t.columns| == 0 {
      SortedColumnsFacts(t.columns);
      assert |o| == 0;
      forall i | 0 <= i < |t.rows| ensures big.rows[i] == t.rows[i] {
        assert big.rows[i].cells == [] == t.rows[i].cells;
      }
    }
    assert r.rows == big.rows == t.rows;
    SubsequenceOfItself(Labels(t));
  }

  /** Rows kept in order from a table carry a subsequence of its index labels. */
  lemma {:induction false} KeptLabels(big: Table, r: Table)
    requires IsSubsequence(r.rows, big.rows)
    ensures IsSubsequence(Labels(r), Labels(big))
  {
    var ix := (x: Row) => x.index;
    SubsequenceKeys(r.rows, big.rows, ix);
    assert KeySeq(r.rows, ix) == Labels(r);
    assert KeySeq(big.rows, ix) == Labels(big);
  }

  /** A header of distinct, strictly increasing labels is its own sorted order. */
  lemma {:induction false} SortedColumnsOfIncreasing(cs: seq<string>)
    requires Increasing(cs, StrLt)
    ensures SortedColumns(cs) == cs
  {
    var id := (c: string) => c;
    StrLtIsStrictTotalOrder();
    forall i, j | 0 <= i < j < |cs| ensures cs[i] != cs[j] {
      StrLtIrreflexive(cs[i]);
    }
    SortedColumnsFacts(cs);
    forall x ensures x in SortedColumns(cs) <==> x in cs {
      assert x in SortedColumns(cs) <==> x in multiset(cs);
    }
    IncreasingUnique(SortedColumns(cs), cs, StrLt);
  }

  /** Selecting a table's own header, in its own order, changes nothing. */
  lemma {:induction false} ReindexedOnOwnHeader(t: Table)
    requires WellFormed(t) && Distinct(t.columns)
    ensures Reindexed(t, t.columns) == t
  {
    var r := Reindexed(t, t.columns);
    forall i | 0 <= i < |t.rows| ensures r.rows[i] == t.rows[i] {
      forall k | 0 <= k < |t.columns| ensures r.rows[i].cells[k] == t.rows[i].cells[k] {
        ColumnIndexOfMember(t.columns, k);
      }
    }
  }

  /**
   * Canonicalising a canonical table is a no-op when its normalised labels are
   * already in code-point order (for instance, when the input labels were
   * already stripped and lower-cased).
   */
  lemma {:induction false} StandardizeIdempotent(t: Table)
    requires WellFormed(t) && Standardize(t).Ok?
    requires Increasing(Standardize(t).value.columns, StrLt)
    ensures Standardize(Standardize(t).value) == Standardize(t)
  {
    var s := Standardize(t).value;
    StandardizeColumns(t);
    StandardizeRows(t);
    if |s.columns| == 0 {
      NoColumnsStandard(s);
    } else {
      StandardizeCanonical(s);
    }
  }

  /** A frame without columns is its own canonical form: pandas keeps all of its rows. */
  lemma {:induction false} NoColumnsStandard(t: Table)
    requires WellFormed(t) && |t.columns| == 0
    ensures Standardize(t) == Ok(t)
  {
    assert Distinct(t.columns);
    SortedColumnsFacts(t.columns);
    assert NormaliseNames(SortedColumns(t.columns)) == [];
    EmptyStandardized(t);
  }

  /**
   * A table that is already canonical (labels normalised and in code-point
   * order, no repeated row) is its own canonical form.
   */
  lemma {:induction false} StandardizeCanonical(t: Table)
    requires WellFormed(t) && Increasing(t.columns, StrLt)
    requires forall i :: 0 <= i < |t.columns| ==> NormaliseName(t.columns[i]) == t.columns[i]
    requires DistinctKeys(t.rows, Cells)
    ensures Standardize(t) == Ok(t)
  {
    IncreasingLabelsDistinct(t.columns);
    SortedColumnsOfIncreasing(t.columns);
    NormalisedNamesFixed(t.columns, t.columns);
    ReindexedOnOwnHeader(t);
    DistinctByOfDistinct(t.rows, Cells);
  }

  /** Labels in strictly increasing code-point order are distinct. */
  lemma {:induction false} IncreasingLabelsDistinct(cs: seq<string>)
    requires Increasing(cs, StrLt)
    ensures Distinct(cs)
  {
    forall i, j | 0 <= i < j < |cs| ensures cs[i] != cs[j] {
      StrLtIrreflexive(cs[i]);
    }
  }

  /** Renaming labels drawn from a normalised header leaves them as they are. */
  lemma {:induction false} NormalisedNamesFixed(cs: seq<string>, o: seq<string>)
    requires forall i :: 0 <= i < |cs| ==> NormaliseName(cs[i]) == cs[i]
    requires forall c :: c in o ==> c in cs
    ensures NormaliseNames(o) == o
  {
    MapOfFixedPoints(NormaliseName, cs, o, NormaliseNames(o));
  }

  /** Mapping `f` over elements drawn from its fixed points changes nothing. */
  lemma {:induction false} MapOfFixedPoints<T>(f: T -> T, cs: seq<T>, o: seq<T>, r: seq<T>)
    requires forall i :: 0 <= i < |cs| ==> f(cs[i]) == cs[i]
    requires forall c :: c in o ==> c in cs
    requires |r| == |o| && forall k :: 0 <= k < |o| ==> r[k] == f(o[k])
    ensures r == o
  {
    forall k | 0 <= k < |o| ensures r[k] == o[k] {
      assert o[k] in o;
      var i :| 0 <= i < |cs| && cs[i] == o[k];
    }
  }

  /** The header of a successful standardisation, and what that success requires. */
  lemma {:induction false} StandardizeHeader(t: Table)
    requires Standardize(t).Ok?
    ensures Distinct(t.columns)
    ensures Standardize(t).value.columns == NormaliseNames(SortedColumns(t.columns))
  {
  }

  /** Labels that are already normalised come out in code-point order. */
  lemma {:induction false} StandardizeOrdersNormalised(t: Table)
    requires Standardize(t).Ok?
    requires forall i :: 0 <= i < |t.columns| ==> NormaliseName(t.columns[i]) == t.columns[i]
    ensures Increasing(Standardize(t).value.columns, StrLt)
  {
    StandardizeHeader(t);
    var o := SortedColumns(t.columns);
    SortedColumnsFacts(t.columns);
    forall c | c in o ensures c in t.columns {
      assert c in multiset(t.columns);
    }
    NormalisedNamesFixed(t.columns, o);
  }

  lemma NormalisedBa()
    ensures NormaliseName("B") == "b" && NormaliseName("a") == "a"
  {
    assert LeadingSpaces("B") == 0 && TrailingSpaces("B") == 0;
    assert LeadingSpaces("a") == 0 && TrailingSpaces("a") == 0;
  }

  /** A header already in code-point order keeps its order, renamed. */
  lemma {:induction false} StandardizeSortedHeader(t: Table)
    requires Increasing(t.columns, StrLt) && Distinct(NormaliseNames(t.columns))
    ensures Standardize(t).Ok? && Standardize(t).value.columns == NormaliseNames(t.columns)
  {
    IncreasingLabelsDistinct(t.columns);
    SortedColumnsOfIncreasing(t.columns);
  }

  lemma {:induction false} HeaderBa(t: Table)
    requires t.columns == ["B", "a"]
    ensures Standardize(t).Ok? && Standardize(t).value.columns == ["b", "a"]
  {
    var cs := t.columns;
    NormalisedBa();
    assert StrLt(cs[0], cs[1]);
    var names := NormaliseNames(cs);
    assert names == ["b", "a"];
    StandardizeSortedHeader(t);
  }

  /** Distinct labels that are already normalised cannot collide. */
  lemma NormalisedLabelsDoNotCollide(cs: seq<string>)
    requires Distinct(cs) && forall i :: 0 <= i < |cs| ==> NormaliseName(cs[i]) == cs[i]
    ensures !LabelsCollide(cs)
  {
  }

  /**
   * Canonicalising is not idempotent in general: the header `["B", "a"]`
   * becomes `["b", "a"]` (ordered by the original labels, and `"B" < "a"`),
   * which a second pass reorders.
   */
  lemma {:induction false} StandardizeNotIdempotent(t: Table)
    requires t.columns == ["B", "a"]
    ensures Standardize(t).Ok? && Standardize(Standardize(t).value).Ok?
    ensures Standardize(Standardize(t).value) != Standardize(t)
  {
    HeaderBa(t);
    var s := Standardize(t).value;
    StandardizeColumns(t);
    NormalisedLabelsDoNotCollide(s.columns);
    StandardizeFails(s);
    StandardizeOrdersNormalised(s);
    var c := Standardize(s).value.columns;
    assert Increasing(c, StrLt);
    assert !StrLt(s.columns[0], s.columns[1]);
    assert c != s.columns;
  }

  /**
   * `standardize_dataframe(df)`: reindexing builds a new frame, so `df` itself
   * is left as it was; the new frame loses its repeated rows in place and is
   * then relabelled.
   */
  method StandardizeDataframe(df: Frame) returns (r: Result<Frame>)
    requires df.Valid()
    ensures r.Err? ==> Standardize(df.Value()) == Err(r.error)
    ensures r.Ok? ==> fresh(r.value) && r.value.Valid() && Standardize(df.Value()) == Ok(r.value.Value())
  {
    var t := df.Value();
    if !Distinct(t.columns) {
      return Err(DuplicateColumns);
    }
    var sorted := SortedColumns(t.columns);
    var out := new Frame(Reindexed(t, sorted));
    out.DropDuplicates();
    // astype(str) leaves the cells as they are: they are already text.
    var names := NormaliseNames(out.columns);
    if !Distinct(names) {
      return Err(DuplicateColumns);
    }
    out.SetColumns(names);
    return Ok(out);
  }

  // ------------------------------------------------------------------
  // clean_primary_key_columns
  // ------------------------------------------------------------------

  /** Trims every key column; a key column that is absent raises `KeyError`. */
  function CleanPrimaryKey(t: Table, pk: seq<string>): Result<Table> {
    match FirstMissing(t.columns, pk)
    case Some(c) => Err(MissingKeyColumn(c))
    case None => Ok(WithColumnsStripped(t, pk))
  }

  /**
   * Key cleaning fails exactly when a key column is absent, naming such a key;
   * otherwise it trims the key columns' cells and leaves everything else.
   */
  lemma {:induction false} CleanPrimaryKeySpec(t: Table, pk: seq<string>)
    requires WellFormed(t) && Distinct(t.columns)
    ensures CleanPrimaryKey(t, pk).Err? <==> exists i :: 0 <= i < |pk| && pk[i] !in t.columns
    ensures CleanPrimaryKey(t, pk).Err? ==>
      (CleanPrimaryKey(t, pk).error.MissingKeyColumn? && CleanPrimaryKey(t, pk).error.name in pk
       && CleanPrimaryKey(t, pk).error.name !in t.columns)
    ensures CleanPrimaryKey(t, pk).Ok? ==>
      WellFormed(CleanPrimaryKey(t, pk).value) && StrippedColumns(t, CleanPrimaryKey(t, pk).value, pk)
  {
    if FirstMissing(t.columns, pk).None? {
      WithColumnsStrippedCells(t, pk);
    }
  }

  /** Cleaning the keys of a table whose keys were just cleaned changes nothing. */
  lemma {:induction false} CleanPrimaryKeyIdempotent(t: Table, pk: seq<string>)
    requires WellFormed(t) && Distinct(t.columns) && CleanPrimaryKey(t, pk).Ok?
    ensures CleanPrimaryKey(CleanPrimaryKey(t, pk).value, pk) == CleanPrimaryKey(t, pk)
  {
    var r := WithColumnsStripped(t, pk);
    WithColumnsStrippedCells(t, pk);
    WithColumnsStrippedCells(r, pk);
    StrippedColumnsTwice(t, r, WithColumnsStripped(r, pk), pk);
  }

  /** `clean_primary_key_columns(df, primary_key)`: rewrites the key columns of `df` one by one. */
  method CleanPrimaryKeyColumns(df: Frame, pk: seq<string>) returns (r: Result<()>)
    requires df.Valid()
    modifies df
    ensures df.Valid()
    ensures r.Ok? <==> CleanPrimaryKey(old(df.Value()), pk).Ok?
    ensures r.Ok? ==> CleanPrimaryKey(old(df.Value()), pk) == Ok(df.Value())
    ensures r.Err? ==> CleanPrimaryKey(old(df.Value()), pk) == Err(r.error)
  {
    var t := df.Value();
    var i := 0;
    while i < |pk|
      invariant 0 <= i <= |pk|
      invariant df.Valid()
      invariant df.Value() == WithColumnsStripped(t, pk[..i])
      invariant forall j :: 0 <= j < i ==> pk[j] in t.columns
    {
      var res := df.StripColumn(pk[i]);
      if res.Err? {
        assert FirstMissing(t.columns, pk) == Some(pk[i]);
        return Err(res.error);
      }
      WithColumnsStrippedSnoc(t, pk[..i], pk[i]);
      assert pk[..i + 1] == pk[..i] + [pk[i]];
      i := i + 1;
    }
    assert pk[..i] == pk;
    return Ok(());
  }

  // ------------------------------------------------------------------
  // remove_pk_duplicates
  // ------------------------------------------------------------------

  /**
   * Keeps the first row of each key tuple and relabels the survivors 0..n-1;
   * on a table with rows, an absent key column raises `KeyError` and an empty
   * key `ValueError`.
   */
  function DropKeyDuplicates(t: Table, pk: seq<string>): Result<Table> {
    var d :- KeyDeduplication(t, pk);
    Ok(WithIndexReset(d))
  }

  /** Row `j` of `r` holds the cells of the earliest row of `t` with its key tuple. */
  ghost predicate FirstWithKey(r: Table, j: nat, t: Table, pk: seq<string>)
    requires j < |r.rows|
  {
    exists i :: 0 <= i < |t.rows| && r.rows[j].cells == t.rows[i].cells
      && forall i' :: 0 <= i' < i ==> KeyOf(t.columns, t.rows[i'].cells, pk) != KeyOf(t.columns, t.rows[i].cells, pk)
  }

  lemma {:induction false} DropKeyDuplicatesFirst(t: Table, pk: seq<string>, j: nat)
    requires DropKeyDuplicates(t, pk).Ok? && j < |DropKeyDuplicates(t, pk).value.rows|
    ensures FirstWithKey(DropKeyDuplicates(t, pk).value, j, t, pk)
  {
    var key := RowKey(t.columns, pk);
    var d := DeduplicatedOn(t, pk);
    var r := DropKeyDuplicates(t, pk).value;
    KeyDeduplicationKeepsFirst(t, pk);
    DistinctByKeepsFirst(t.rows, key);
    assert d.rows[j] in d.rows;
    assert key(d.rows[j]) in KeySet(t.rows, key);
    var i := FirstIndexOfKey(t.rows, key, key(d.rows[j]));
    assert r.rows[j].cells == d.rows[j].cells == t.rows[i].cells;
  }

  /**
   * Key deduplication fails exactly when the table has rows and a key column
   * is absent (`KeyError`, checked first) or the key is empty (`ValueError`);
   * a table without rows comes back as it is. Otherwise the result has the
   * same header, labels 0..n-1, no two rows with one key tuple and every key
   * tuple of the input; its rows are input rows in their input order, each the
   * first input row with its key.
   */
  lemma {:induction false} DropKeyDuplicatesSpec(t: Table, pk: seq<string>)
    requires WellFormed(t)
    ensures DropKeyDuplicates(t, pk).Err? <==>
      |t.rows| > 0 && (pk == [] || exists i :: 0 <= i < |pk| && pk[i] !in t.columns)
    ensures DropKeyDuplicates(t, pk).Err? ==>
      DropKeyDuplicates(t, pk).error ==
        if FirstMissing(t.columns, pk).Some? then MissingKeyColumn(FirstMissing(t.columns, pk).value) else EmptyKey
    ensures |t.rows| == 0 ==> DropKeyDuplicates(t, pk) == Ok(t)
    ensures DropKeyDuplicates(t, pk).Ok? ==>
      var r := DropKeyDuplicates(t, pk).value;
      && WellFormed(r) && r.columns == t.columns && HasRangeIndex(r)
      && DistinctKeys(r.rows, RowKey(r.columns, pk))
      && KeyTuples(r, pk) == KeyTuples(t, pk)
      && IsSubsequence(KeySeq(r.rows, Cells), KeySeq(t.rows, Cells))
      && forall j :: 0 <= j < |r.rows| ==> FirstWithKey(r, j, t, pk)
  {
    if DropKeyDuplicates(t, pk).Ok? {
      var key := RowKey(t.columns, pk);
      var d := DeduplicatedOn(t, pk);
      var r := DropKeyDuplicates(t, pk).value;
      KeyDeduplicationKeepsFirst(t, pk);
      KeptRowsWellFormed(t, d.rows);
      ResetKeepsCells(d, pk);
      SubsequenceKeys(d.rows, t.rows, Cells);
      forall a, b | 0 <= a < b < |r.rows| ensures key(r.rows[a]) != key(r.rows[b]) {
        assert key(r.rows[a]) == key(d.rows[a]) && key(r.rows[b]) == key(d.rows[b]);
      }
      forall j | 0 <= j < |r.rows| ensures FirstWithKey(r, j, t, pk) {
        DropKeyDuplicatesFirst(t, pk, j);
      }
    }
  }

  /** Deduplicating a table whose key tuples are already distinct only relabels its rows. */
  lemma {:induction false} DropKeyDuplicatesOfDistinct(t: Table, pk: seq<string>)
    requires DropKeyDuplicates(t, pk).Ok? && DistinctKeys(t.rows, RowKey(t.columns, pk))
    ensures DropKeyDuplicates(t, pk).value == WithIndexReset(t)
  {
    KeyDeduplicationKeepsFirst(t, pk);
    DistinctByOfDistinct(t.rows, RowKey(t.columns, pk));
  }

  /**
   * `remove_pk_duplicates(df, primary_key)`: drops the later rows of each key
   * tuple from `df` itself and returns a relabelled copy.
   */
  method RemovePkDuplicates(df: Frame, pk: seq<string>) returns (r: Result<Frame>)
    requires df.Valid()
    modifies df
    ensures df.Valid()
    ensures r.Err? ==> DropKeyDuplicates(old(df.Value()), pk) == Err(r.error) && df.Value() == old(df.Value())
    ensures r.Ok? ==>
      && fresh(r.value) && r.value.Valid()
      && DropKeyDuplicates(old(df.Value()), pk) == Ok(r.value.Value())
      && df.Value() == DeduplicatedOn(old(df.Value()), pk)
  {
    var res := df.DropDuplicatesOn(pk);
    if res.Err? {
      return Err(res.error);
    }
    KeyDeduplicationKeepsFirst(old(df.Value()), pk);
    var out := new Frame(WithIndexReset(df.Value()));
    return Ok(out);
  }

  // ------------------------------------------------------------------
  // find_extra_rows
  // ------------------------------------------------------------------

  /** The row's key tuple is one of `keys`. */
  function KeyedIn(columns: seq<string>, pk: seq<string>, keys: set<seq<string>>): Row -> bool {
    (x: Row) => KeyOf(columns, x.cells, pk) in keys
  }

  function NotKeyedIn(columns: seq<string>, pk: seq<string>, keys: set<seq<string>>): Row -> bool {
    (x: Row) => KeyOf(columns, x.cells, pk) !in keys
  }

  /**
   * The rows of `main` whose key tuple does not occur in `other`, labels kept;
   * selecting the key columns raises on `main` first, then on `other`.
   */
  function ExtraRows(main: Table, other: Table, pk: seq<string>): Result<Table> {
    match FirstMissing(main.columns, pk)
    case Some(c) => Err(MissingKeyColumn(c))
    case None =>
      match FirstMissing(other.columns, pk)
      case Some(c) => Err(MissingKeyColumn(c))
      case None => Ok(Table(main.columns, Filter(main.rows, NotKeyedIn(main.columns, pk, KeyTuples(other, pk)))))
  }

  /**
   * Extra-row detection fails exactly when a key column is absent from either
   * table. Otherwise it keeps, in order and with their labels, exactly the rows
   * of `main` whose key tuple `other` lacks, so its key tuples are those of
   * `main` less those of `other`.
   */
  lemma {:induction false} ExtraRowsSpec(main: Table, other: Table, pk: seq<string>)
    ensures ExtraRows(main, other, pk).Err? <==>
      exists i :: 0 <= i < |pk| && (pk[i] !in main.columns || pk[i] !in other.columns)
    ensures ExtraRows(main, other, pk).Err? ==>
      var e := ExtraRows(main, other, pk).error;
      e.MissingKeyColumn? && e.name in pk && (e.name !in main.columns || e.name !in other.columns)
    ensures ExtraRows(main, other, pk).Ok? ==>
      var r := ExtraRows(main, other, pk).value;
      && r.columns == main.columns && IsSubsequence(r.rows, main.rows)
      && (forall i :: 0 <= i < |main.rows| ==>
            (main.rows[i] in r.rows <==> KeyOf(main.columns, main.rows[i].cells, pk) !in KeyTuples(other, pk)))
      && KeyTuples(r, pk) == KeyTuples(main, pk) - KeyTuples(other, pk)
  {
    if ExtraRows(main, other, pk).Ok? {
      ExtraRowsMembers(main, other, pk);
      ExtraRowsKeys(main, other, pk);
    }
  }

  lemma {:induction false} ExtraRowsMembers(main: Table, other: Table, pk: seq<string>)
    requires ExtraRows(main, other, pk).Ok?
    ensures var r := ExtraRows(main, other, pk).value;
      forall i :: 0 <= i < |main.rows| ==>
        (main.rows[i] in r.rows <==> KeyOf(main.columns, main.rows[i].cells, pk) !in KeyTuples(other, pk))
  {
    var r := ExtraRows(main, other, pk).value;
    var p := NotKeyedIn(main.columns, pk, KeyTuples(other, pk));
    forall i | 0 <= i < |main.rows| && main.rows[i] in r.rows
      ensures p(main.rows[i])
    {
      var j :| 0 <= j < |r.rows| && r.rows[j] == main.rows[i];
      assert p(r.rows[j]);
    }
  }

  lemma {:induction false} ExtraRowsKeys(main: Table, other: Table, pk: seq<string>)
    requires ExtraRows(main, other, pk).Ok?
    ensures KeyTuples(ExtraRows(main, other, pk).value, pk) == KeyTuples(main, pk) - KeyTuples(other, pk)
  {
    FilterOutKeys(main.rows, NotKeyedIn(main.columns, pk, KeyTuples(other, pk)),
                  RowKey(main.columns, pk), KeyTuples(other, pk));
  }

  /** A table has no extra rows against itself. */
  lemma {:induction false} NoExtraRowsAgainstItself(t: Table, pk: seq<string>)
    requires ExtraRows(t, t, pk).Ok?
    ensures ExtraRows(t, t, pk).value.rows == []
  {
  }

  // ------------------------------------------------------------------
  // find_common_rows
  // ------------------------------------------------------------------

  /** `sorted(set(cols1).intersection(set(cols2)))`. */
  function CommonColumns(a: seq<string>, b: seq<string>): seq<string> {
    SortedColumns(DistinctBy(Filter(a, (c: string) => c in b), (c: string) => c))
  }

  /** The shared labels, each once, in increasing order. */
  lemma {:induction false} CommonColumnsSpec(a: seq<string>, b: seq<string>)
    ensures Increasing(CommonColumns(a, b), StrLt) && Distinct(CommonColumns(a, b))
    ensures forall c :: c in CommonColumns(a, b) <==> c in a && c in b
  {
    var id := (c: string) => c;
    var f := Filter(a, (c: string) => c in b);
    var d := DistinctBy(f, id);
    assert Distinct(d) by {
      forall i, j | 0 <= i < j < |d| ensures d[i] != d[j] {
        assert id(d[i]) != id(d[j]);
      }
    }
    SortedColumnsFacts(d);
    var o := CommonColumns(a, b);
    forall c ensures c in o <==> c in a && c in b {
      assert c in o <==> c in multiset(d);
      assert c in d <==> id(c) in KeySet(d, id);
      assert c in f <==> id(c) in KeySet(f, id);
      if c in a && c in b {
        var i :| 0 <= i < |a| && a[i] == c;
      }
    }
  }

  /**
   * One side of `find_common_rows`: the rows whose key tuple is in `keys`,
   * sorted by key, relabelled 0..n-1 and cut down to the columns `cols`.
   */
  function CommonSide(t: Table, keys: set<seq<string>>, pk: seq<string>, cols: seq<string>): (r: Table)
    ensures WellFormed(r) && r.columns == cols && HasRangeIndex(r)
  {
    var kept := Table(t.columns, Filter(t.rows, KeyedIn(t.columns, pk, keys)));
    Reindexed(WithIndexReset(SortedOn(kept, pk)), cols)
  }

  /**
   * `find_common_rows(df1, df2, primary_key)`: both tables restricted to the
   * key tuples they share, sorted by key, relabelled and given the shared
   * columns; selecting the key columns raises on `df1` first, then on `df2`.
   */
  function CommonRows(t1: Table, t2: Table, pk: seq<string>): (r: Result<(Table, Table)>)
    ensures r.Ok? ==> r.value.0.columns == r.value.1.columns
    ensures r.Ok? ==> WellFormed(r.value.0) && HasRangeIndex(r.value.0)
    ensures r.Ok? ==> WellFormed(r.value.1) && HasRangeIndex(r.value.1)
  {
    match FirstMissing(t1.columns, pk)
    case Some(c) => Err(MissingKeyColumn(c))
    case None =>
      match FirstMissing(t2.columns, pk)
      case Some(c) => Err(MissingKeyColumn(c))
      case None =>
        var keys := KeyTuples(t1, pk) * KeyTuples(t2, pk);
        var cols := CommonColumns(t1.columns, t2.columns);
        Ok((CommonSide(t1, keys, pk, cols), CommonSide(t2, keys, pk, cols)))
  }

  /** The filtered rows, sorted on distinct keys, have strictly increasing keys drawn from `keys`. */
  lemma {:induction false} SortedFilteredKeys(t: Table, keys: set<seq<string>>, pk: seq<string>)
    requires DistinctKeys(t.rows, RowKey(t.columns, pk))
    ensures var s := SortedOn(Table(t.columns, Filter(t.rows, KeyedIn(t.columns, pk, keys))), pk);
      && Increasing(KeySeq(s.rows, RowKey(t.columns, pk)), TupleLt)
      && forall k :: k in KeySeq(s.rows, RowKey(t.columns, pk)) <==> k in keys && k in KeyTuples(t, pk)
  {
    var key := RowKey(t.columns, pk);
    var p := KeyedIn(t.columns, pk, keys);
    var f := Filter(t.rows, p);
    var s := SortedOn(Table(t.columns, f), pk);
    FilterDistinctKeys(t.rows, p, key);
    DistinctKeysPermutation(s.rows, f, key);
    TupleLtIsStrictTotalOrder();
    SortedDistinctIncreasing(s.rows, key, TupleLt);
    forall k ensures k in KeySeq(s.rows, key) <==> k in keys && k in KeyTuples(t, pk) {
      if k in KeySeq(s.rows, key) {
        SortedFilteredKeyFrom(t, keys, pk, k);
      }
      if k in keys && k in KeyTuples(t, pk) {
        SortedFilteredKeyTo(t, keys, pk, k);
      }
    }
  }

  lemma {:induction false} SortedFilteredKeyFrom(t: Table, keys: set<seq<string>>, pk: seq<string>, k: seq<string>)
    requires k in KeySeq(SortedOn(Table(t.columns, Filter(t.rows, KeyedIn(t.columns, pk, keys))), pk).rows, RowKey(t.columns, pk))
    ensures k in keys && k in KeyTuples(t, pk)
  {
    var key := RowKey(t.columns, pk);
    var p := KeyedIn(t.columns, pk, keys);
    var f := Filter(t.rows, p);
    var s := SortedOn(Table(t.columns, f), pk);
    var i :| 0 <= i < |s.rows| && key(s.rows[i]) == k;
    assert s.rows[i] in multiset(f);
    var j :| 0 <= j < |f| && f[j] == s.rows[i];
    assert p(f[j]) && f[j] in t.rows;
  }

  lemma {:induction false} SortedFilteredKeyTo(t: Table, keys: set<seq<string>>, pk: seq<string>, k: seq<string>)
    requires k in keys && k in KeyTuples(t, pk)
    ensures k in KeySeq(SortedOn(Table(t.columns, Filter(t.rows, KeyedIn(t.columns, pk, keys))), pk).rows, RowKey(t.columns, pk))
  {
    var key := RowKey(t.columns, pk);
    var p := KeyedIn(t.columns, pk, keys);
    var f := Filter(t.rows, p);
    var s := SortedOn(Table(t.columns, f), pk);
    var x :| x in t.rows && key(x) == k;
    var i :| 0 <= i < |t.rows| && t.rows[i] == x;
    assert p(t.rows[i]);
    assert x in f;
    assert x in multiset(s.rows);
    var j :| 0 <= j < |s.rows| && s.rows[j] == x;
    assert KeySeq(s.rows, key)[j] == k;
  }

  /**
   * On distinct keys, one side of the common rows lists the key tuples it was
   * given that the table has, each once, in increasing order.
   */
  lemma {:induction false} CommonSideKeys(t: Table, keys: set<seq<string>>, pk: seq<string>, cols: seq<string>)
    requires DistinctKeys(t.rows, RowKey(t.columns, pk))
    requires forall m :: 0 <= m < |pk| ==> pk[m] in cols
    ensures var ks := KeySeq(CommonSide(t, keys, pk, cols).rows, RowKey(cols, pk));
      && Increasing(ks, TupleLt)
      && forall k :: k in ks <==> k in keys && k in KeyTuples(t, pk)
  {
    var s := SortedOn(Table(t.columns, Filter(t.rows, KeyedIn(t.columns, pk, keys))), pk);
    SortedFilteredKeys(t, keys, pk);
    ResetKeepsCells(s, pk);
    ReindexedKeySeq(WithIndexReset(s), cols, pk);
  }

  /**
   * With each table's key tuples distinct, the common rows of the two tables
   * line up: same columns, same number of rows and, row for row, the same key
   * tuple; the key tuples increase and are exactly those the tables share.
   */
  lemma {:induction false} CommonRowsAligned(t1: Table, t2: Table, pk: seq<string>)
    requires DistinctKeys(t1.rows, RowKey(t1.columns, pk)) && DistinctKeys(t2.rows, RowKey(t2.columns, pk))
    requires CommonRows(t1, t2, pk).Ok?
    ensures var (c1, c2) := CommonRows(t1, t2, pk).value;
      && c1.columns == CommonColumns(t1.columns, t2.columns)
      && |c1.rows| == |c2.rows|
      && KeySeq(c1.rows, RowKey(c1.columns, pk)) == KeySeq(c2.rows, RowKey(c2.columns, pk))
      && Increasing(KeySeq(c1.rows, RowKey(c1.columns, pk)), TupleLt)
      && forall k :: k in KeySeq(c1.rows, RowKey(c1.columns, pk)) <==> k in KeyTuples(t1, pk) && k in KeyTuples(t2, pk)
  {
    var keys := KeyTuples(t1, pk) * KeyTuples(t2, pk);
    var cols := CommonColumns(t1.columns, t2.columns);
    CommonColumnsSpec(t1.columns, t2.columns);
    CommonSideKeys(t1, keys, pk, cols);
    CommonSideKeys(t2, keys, pk, cols);
    var (c1, c2) := CommonRows(t1, t2, pk).value;
    TupleLtIsStrictTotalOrder();
    IncreasingUnique(KeySeq(c1.rows, RowKey(cols, pk)), KeySeq(c2.rows, RowKey(cols, pk)), TupleLt);
  }

  // ------------------------------------------------------------------
  // compare_common_rows
  // ------------------------------------------------------------------

  /** One differing cell of `DataFrame.compare`: its column and the `self` and `other` values. */
  datatype CellDiff = CellDiff(column: string, self: Option<string>, other: Option<string>)

  /** One row of `DataFrame.compare`: its label and its differing cells, in column order. */
  datatype DiffRow = DiffRow(index: nat, cells: seq<CellDiff>)

  /** The cell at row `i`, column `k` after `align`; rows that one frame lacks hold NaN. */
  function AlignedCell(t: Table, i: nat, k: nat): Option<string> {
    if i < |t.rows| && k < |t.rows[i].cells| then Some(t.rows[i].cells[k]) else None
  }

  /** Row `i` of the aligned frames differs in some column. */
  predicate RowsDiffer(a: Table, b: Table, i: nat) {
    exists k :: 0 <= k < |a.columns| && AlignedCell(a, i, k) != AlignedCell(b, i, k)
  }

  /** Row `i` of the two aligned frames, cell by cell. */
  function CellPairs(a: Table, b: Table, i: nat): (r: seq<CellDiff>)
    ensures |r| == |a.columns|
    ensures forall k :: 0 <= k < |a.columns| ==> r[k] == CellDiff(a.columns[k], AlignedCell(a, i, k), AlignedCell(b, i, k))
  {
    seq(|a.columns|, k requires 0 <= k < |a.columns| =>
      CellDiff(a.columns[k], AlignedCell(a, i, k), AlignedCell(b, i, k)))
  }

  predicate Differs(d: CellDiff) {
    d.self != d.other
  }

  /** The differing cells of row `i`, in column order. */
  function RowDifference(a: Table, b: Table, i: nat): seq<CellDiff> {
    Filter(CellPairs(a, b, i), Differs)
  }

  predicate HasDifferences(d: DiffRow) {
    d.cells != []
  }

  /** Every row label of the aligned frames with its differing cells. */
  function AllRowDifferences(a: Table, b: Table): (r: seq<DiffRow>)
    ensures |r| == Max(|a.rows|, |b.rows|)
    ensures forall i :: 0 <= i < |r| ==> r[i] == DiffRow(i, RowDifference(a, b, i))
  {
    seq(Max(|a.rows|, |b.rows|), i requires 0 <= i => DiffRow(i, RowDifference(a, b, i)))
  }

  function Max(m: nat, n: nat): nat {
    if m < n then n else m
  }

  /**
   * `df1.align(df2)` then `df1.compare(df2, keep_equal=False)` for frames with
   * one header and labels 0..n-1: the rows that differ somewhere, in label
   * order, each with its differing cells.
   */
  function CompareCommonRows(a: Table, b: Table): seq<DiffRow>
    requires a.columns == b.columns && HasRangeIndex(a) && HasRangeIndex(b)
  {
    Filter(AllRowDifferences(a, b), HasDifferences)
  }

  /** The differing cells of a row are exactly the columns whose two values differ. */
  lemma {:induction false} RowDifferenceSpec(a: Table, b: Table, i: nat)
    ensures forall d :: d in RowDifference(a, b, i) ==> d.column in a.columns && d.self != d.other
    ensures forall k :: 0 <= k < |a.columns| && AlignedCell(a, i, k) != AlignedCell(b, i, k) ==>
      CellDiff(a.columns[k], AlignedCell(a, i, k), AlignedCell(b, i, k)) in RowDifference(a, b, i)
    ensures RowDifference(a, b, i) != [] <==> RowsDiffer(a, b, i)
  {
    var all := CellPairs(a, b, i);
    var r := RowDifference(a, b, i);
    forall d | d in r ensures d.column in a.columns && d.self != d.other {
      var k :| 0 <= k < |all| && all[k] == d;
    }
    if r != [] {
      assert r[0] in all;
      var k :| 0 <= k < |all| && all[k] == r[0];
      assert AlignedCell(a, i, k) != AlignedCell(b, i, k);
    }
    if RowsDiffer(a, b, i) {
      var k :| 0 <= k < |a.columns| && AlignedCell(a, i, k) != AlignedCell(b, i, k);
      assert Differs(all[k]);
    }
  }

  /**
   * The comparison lists, in increasing label order, exactly the rows that
   * differ somewhere, each with its differing cells; so its length is the
   * number of differing rows.
   */
  lemma {:induction false} CompareCommonRowsSpec(a: Table, b: Table)
    requires a.columns == b.columns && HasRangeIndex(a) && HasRangeIndex(b)
    ensures var r := CompareCommonRows(a, b);
      && (forall p, q :: 0 <= p < q < |r| ==> r[p].index < r[q].index)
      && (forall j :: 0 <= j < |r| ==>
            (r[j].index < Max(|a.rows|, |b.rows|) && RowsDiffer(a, b, r[j].index)
             && r[j].cells == RowDifference(a, b, r[j].index)))
      && forall i :: 0 <= i < Max(|a.rows|, |b.rows|) && RowsDiffer(a, b, i) ==>
            exists j :: 0 <= j < |r| && r[j].index == i
  {
    CompareListsDifferingRows(a, b);
    CompareIndicesIncrease(a, b);
  }

  lemma {:induction false} CompareListsDifferingRows(a: Table, b: Table)
    requires a.columns == b.columns && HasRangeIndex(a) && HasRangeIndex(b)
    ensures var r := CompareCommonRows(a, b);
      && (forall j :: 0 <= j < |r| ==>
            (r[j].index < Max(|a.rows|, |b.rows|) && RowsDiffer(a, b, r[j].index)
             && r[j].cells == RowDifference(a, b, r[j].index)))
      && forall i :: 0 <= i < Max(|a.rows|, |b.rows|) && RowsDiffer(a, b, i) ==>
            exists j :: 0 <= j < |r| && r[j].index == i
  {
    var all := AllRowDifferences(a, b);
    var r := Filter(all, HasDifferences);
    forall j | 0 <= j < |r|
      ensures r[j].index < |all| && RowsDiffer(a, b, r[j].index) && r[j].cells == RowDifference(a, b, r[j].index)
    {
      ListedRowDiffers(a, b, all, r[j]);
    }
    forall i | 0 <= i < |all| && RowsDiffer(a, b, i) ensures exists j :: 0 <= j < |r| && r[j].index == i {
      DifferingRowListed(a, b, all, r, i);
    }
  }

  /** An entry kept by the comparison names a differing row and carries that row's differences. */
  lemma {:induction false} ListedRowDiffers(a: Table, b: Table, all: seq<DiffRow>, d: DiffRow)
    requires all == AllRowDifferences(a, b)
    requires d in all && HasDifferences(d)
    ensures d.index < |all| && RowsDiffer(a, b, d.index) && d.cells == RowDifference(a, b, d.index)
  {
    var i :| 0 <= i < |all| && all[i] == d;
    RowDifferenceSpec(a, b, i);
  }

  /** Every differing row has an entry in the comparison. */
  lemma {:induction false} DifferingRowListed(a: Table, b: Table, all: seq<DiffRow>, r: seq<DiffRow>, i: nat)
    requires all == AllRowDifferences(a, b) && i < |all| && RowsDiffer(a, b, i)
    requires forall k :: 0 <= k < |all| && HasDifferences(all[k]) ==> all[k] in r
    ensures exists j :: 0 <= j < |r| && r[j].index == i
  {
    RowDifferenceSpec(a, b, i);
    assert HasDifferences(all[i]);
    assert all[i] in r;
    var j :| 0 <= j < |r| && r[j] == all[i];
  }

  lemma {:induction false} CompareIndicesIncrease(a: Table, b: Table)
    requires a.columns == b.columns && HasRangeIndex(a) && HasRangeIndex(b)
    ensures var r := CompareCommonRows(a, b);
      forall p, q :: 0 <= p < q < |r| ==> r[p].index < r[q].index
  {
    var all := AllRowDifferences(a, b);
    SelectedLabelsIncrease(all, Filter(all, HasDifferences));
  }

  /** Entries picked, in order, from a sequence labelled 0..n-1 have increasing labels. */
  lemma {:induction false} SelectedLabelsIncrease(all: seq<DiffRow>, r: seq<DiffRow>)
    requires forall i :: 0 <= i < |all| ==> all[i].index == i
    requires IsSubsequence(r, all)
    ensures forall p, q :: 0 <= p < q < |r| ==> r[p].index < r[q].index
  {
    var ix := (d: DiffRow) => d.index;
    var lt := (m: nat, n: nat) => m < n;
    SubsequenceKeys(r, all, ix);
    assert Increasing(KeySeq(all, ix), lt);
    IncreasingSubsequence(KeySeq(r, ix), KeySeq(all, ix), lt);
    assert forall p :: 0 <= p < |r| ==> KeySeq(r, ix)[p] == r[p].index;
  }

  /**
   * The comparison is empty exactly when the two frames hold the same rows, or
   * have no column in which to differ.
   */
  lemma {:induction false} CompareEmptyIff(a: Table, b: Table)
    requires a.columns == b.columns && HasRangeIndex(a) && HasRangeIndex(b)
    requires WellFormed(a) && WellFormed(b)
    ensures CompareCommonRows(a, b) == [] <==> (|a.columns| == 0 || a.rows == b.rows)
  {
    CompareListsDifferingRows(a, b);
    if |a.columns| > 0 && CompareCommonRows(a, b) == [] {
      SameRowsWhenNoneDiffer(a, b);
    }
  }

  lemma {:induction false} SameRowsWhenNoneDiffer(a: Table, b: Table)
    requires a.columns == b.columns && HasRangeIndex(a) && HasRangeIndex(b)
    requires WellFormed(a) && WellFormed(b) && |a.columns| > 0
    requires forall i :: 0 <= i < Max(|a.rows|, |b.rows|) ==> !RowsDiffer(a, b, i)
    ensures a.rows == b.rows
  {
    var n := Max(|a.rows|, |b.rows|);
    if |a.rows| != |b.rows| {
      var i := if |a.rows| < |b.rows| then |a.rows| else |b.rows|;
      NoDifferenceAt(a, b, i, 0);
      assert false;
    }
    forall i | 0 <= i < |a.rows| ensures a.rows[i] == b.rows[i] {
      forall k | 0 <= k < |a.columns| ensures a.rows[i].cells[k] == b.rows[i].cells[k] {
        NoDifferenceAt(a, b, i, k);
      }
    }
  }

  lemma {:induction false} NoDifferenceAt(a: Table, b: Table, i: nat, k: nat)
    requires !RowsDiffer(a, b, i) && k < |a.columns|
    ensures AlignedCell(a, i, k) == AlignedCell(b, i, k)
  {
  }

  // ------------------------------------------------------------------
  // build_overview
  // ------------------------------------------------------------------

  /** `f"{rows} rows and {cols} columns"`. */
  function ShapeString(rows: nat, cols: nat): string {
    NatToString(rows) + RowsAnd(cols)
  }

  function RowsAnd(cols: nat): (s: string)
    ensures s != [] && s[0] == ' '
  {
    " rows and " + ColumnsText(cols)
  }

  function ColumnsText(cols: nat): (s: string)
    ensures s != [] && IsDigit(s[0])
  {
    NatToString(cols) + " columns"
  }

  /** A shape text names exactly one shape: it can be read back. */
  lemma {:induction false} ShapeStringInjective(r1: nat, c1: nat, r2: nat, c2: nat)
    requires ShapeString(r1, c1) == ShapeString(r2, c2)
    ensures r1 == r2 && c1 == c2
  {
    NumberThenText(r1, r2, RowsAnd(c1), RowsAnd(c2));
    assert ColumnsText(c1) == RowsAnd(c1)[10..];
    assert ColumnsText(c2) == RowsAnd(c2)[10..];
    NumberThenText(c1, c2, " columns", " columns");
  }

  /** A number rendered in decimal and followed by text that starts with a non-digit can be read back. */
  lemma {:induction false} NumberThenText(m: nat, n: nat, x: string, y: string)
    requires x != [] && y != [] && !IsDigit(x[0]) && !IsDigit(y[0])
    requires NatToString(m) + x == NatToString(n) + y
    ensures m == n && x == y
  {
    DigitPrefixDetermined(NatToString(m), NatToString(n), x, y);
    NatToStringInjective(m, n);
  }

  /** The one row of the "Compare Overview" sheet. */
  datatype Overview = Overview(
    productTested: string,
    sourceShape: string,
    targetShape: string,
    primaryKey: string,
    extraRowsInSource: nat,
    extraRowsInTarget: nat,
    mismatchedRecords: nat,
    status: string)

  /** `build_overview`: the counts are the lengths of the three result frames. */
  function BuildOverview(product: string, sourceShape: string, targetShape: string, pk: seq<string>,
                         extraSrc: nat, extraTgt: nat, mismatched: nat): Overview
  {
    var status := if extraSrc == 0 && extraTgt == 0 && mismatched == 0 then "Passed" else "Failed";
    Overview(product, sourceShape, targetShape, Join(pk, ", "), extraSrc, extraTgt, mismatched, status)
  }

  /**
   * The overview passes exactly when all three counts are zero and fails
   * otherwise; it reports the counts it was given, and its key cell lists the
   * key columns so that they can be read back.
   */
  lemma {:induction false} BuildOverviewSpec(product: string, sourceShape: string, targetShape: string,
                                             pk: seq<string>, extraSrc: nat, extraTgt: nat, mismatched: nat)
    ensures var o := BuildOverview(product, sourceShape, targetShape, pk, extraSrc, extraTgt, mismatched);
      && (o.status == "Passed" <==> extraSrc == 0 && extraTgt == 0 && mismatched == 0)
      && (o.status == "Failed" <==> !(extraSrc == 0 && extraTgt == 0 && mismatched == 0))
      && o.extraRowsInSource == extraSrc && o.extraRowsInTarget == extraTgt && o.mismatchedRecords == mismatched
      && o.productTested == product && o.sourceShape == sourceShape && o.targetShape == targetShape
      && (|pk| > 0 && (forall i :: 0 <= i < |pk| ==> ',' !in pk[i]) ==> SplitList(o.primaryKey) == pk)
  {
    if |pk| > 0 && forall i :: 0 <= i < |pk| ==> ',' !in pk[i] {
      JoinSplitRoundTrip(pk);
    }
  }

  // ------------------------------------------------------------------
  // compare_dataframes (without the Excel output)
  // ------------------------------------------------------------------

  /** What `compare_dataframes` writes: the overview and the three result frames. */
  datatype Report = Report(overview: Overview, differences: seq<DiffRow>, extraInSource: Table, extraInTarget: Table)

  /** `[key.lower() for key in primary_key]`. */
  function LowerKeys(pk: seq<string>): (r: seq<string>)
    ensures |r| == |pk| && forall i :: 0 <= i < |pk| ==> r[i] == Lower(pk[i])
  {
    seq(|pk|, i requires 0 <= i < |pk| => Lower(pk[i]))
  }

  /**
   * The comparison of `src` and `tgt` on `primaryKey`, stage by stage as
   * `compare_dataframes` runs them; the first stage that raises ends it with
   * no report. `product` is the name of the calling test script.
   */
  function Comparison(product: string, src: Table, tgt: Table, primaryKey: seq<string>): Result<Report> {
    var sourceShape := ShapeString(|src.rows|, |src.columns|);
    var targetShape := ShapeString(|tgt.rows|, |tgt.columns|);
    var d1 :- Standardize(src);
    var d2 :- Standardize(tgt);
    var pk := LowerKeys(primaryKey);
    var prepared :- KeyStages(pk, d1, d2);
    Matched(product, sourceShape, targetShape, pk, prepared.0, prepared.1)
  }

  /** Key cleaning of both canonical tables, then key deduplication of both. */
  function KeyStages(pk: seq<string>, d1: Table, d2: Table): Result<(Table, Table)> {
    var c1 :- CleanPrimaryKey(d1, pk);
    var c2 :- CleanPrimaryKey(d2, pk);
    var u1 :- DropKeyDuplicates(c1, pk);
    var u2 :- DropKeyDuplicates(c2, pk);
    Ok((u1, u2))
  }

  /** The comparison steps and the overview, on the two prepared sides. */
  function Matched(product: string, sourceShape: string, targetShape: string, pk: seq<string>,
                   u1: Table, u2: Table): Result<Report>
  {
    var extraSrc :- ExtraRows(u1, u2, pk);
    var extraTgt :- ExtraRows(u2, u1, pk);
    var common :- CommonRows(u1, u2, pk);
    var differences := CompareCommonRows(common.0, common.1);
    var overview := BuildOverview(product, sourceShape, targetShape, pk,
                                  |extraSrc.rows|, |extraTgt.rows|, |differences|);
    Ok(Report(overview, differences, extraSrc, extraTgt))
  }

  /** One side made ready for matching: canonical, key cells trimmed, one row per key tuple. */
  function Prepared(t: Table, pk: seq<string>): Result<Table> {
    var d :- Standardize(t);
    var c :- CleanPrimaryKey(d, pk);
    DropKeyDuplicates(c, pk)
  }

  /** The canonical header holds exactly the normalised input labels. */
  lemma {:induction false} StandardizedLabels(t: Table)
    requires Standardize(t).Ok?
    ensures forall c :: c in Standardize(t).value.columns <==> c in NormaliseNames(t.columns)
  {
    assert Standardize(t).value.columns == NormaliseNames(SortedColumns(t.columns));
    forall c ensures c in NormaliseNames(SortedColumns(t.columns)) <==> c in NormaliseNames(t.columns) {
      SortedColumnsFacts(t.columns);
      if c in NormaliseNames(SortedColumns(t.columns)) {
        NormalisedMember(SortedColumns(t.columns), t.columns, c);
      }
      if c in NormaliseNames(t.columns) {
        NormalisedMember(t.columns, SortedColumns(t.columns), c);
      }
    }
  }

  lemma {:induction false} NormalisedMember(a: seq<string>, b: seq<string>, c: string)
    requires multiset(a) == multiset(b) && c in NormaliseNames(a)
    ensures c in NormaliseNames(b)
  {
    var i :| 0 <= i < |a| && NormaliseNames(a)[i] == c;
    assert a[i] in multiset(b);
    var j :| 0 <= j < |b| && b[j] == a[i];
    assert NormaliseNames(b)[j] == c;
  }

  /**
   * Preparing a side fails exactly when its normalised labels collide, a key
   * is not among them, or the key is empty and the side has rows; the
   * prepared table has the canonical header and one row per key tuple,
   * labelled 0..n-1.
   */
  lemma {:induction false} PreparedSpec(t: Table, pk: seq<string>)
    requires WellFormed(t)
    ensures Prepared(t, pk).Err? <==>
      || LabelsCollide(t.columns) || (exists i :: 0 <= i < |pk| && pk[i] !in NormaliseNames(t.columns))
      || (pk == [] && |t.rows| > 0)
    ensures Prepared(t, pk).Err? ==>
      || Prepared(t, pk).error == DuplicateColumns
      || (Prepared(t, pk).error.MissingKeyColumn? && Prepared(t, pk).error.name in pk)
      || (Prepared(t, pk).error == EmptyKey && pk == [])
    ensures Prepared(t, pk).Ok? ==>
      var u := Prepared(t, pk).value;
      && u.columns == Standardize(t).value.columns && WellFormed(u) && HasRangeIndex(u)
      && DistinctKeys(u.rows, RowKey(u.columns, pk))
  {
    StandardizeFails(t);
    if Standardize(t).Ok? {
      var d := Standardize(t).value;
      StandardizeRows(t);
      StandardizeColumns(t);
      StandardizedLabels(t);
      CleanPrimaryKeySpec(d, pk);
      StandardizedRowCount(t);
      if CleanPrimaryKey(d, pk).Ok? {
        DropKeyDuplicatesSpec(CleanPrimaryKey(d, pk).value, pk);
      }
    }
  }

  /** Canonicalising keeps at least one row exactly when the input has one. */
  lemma {:induction false} StandardizedRowCount(t: Table)
    requires WellFormed(t) && Standardize(t).Ok?
    ensures |Standardize(t).value.rows| > 0 <==> |t.rows| > 0
  {
    var r := Standardize(t).value;
    StandardizeRows(t);
    SubsequenceMembers(Labels(r), Labels(t));
    if |t.rows| > 0 {
      var j :| 0 <= j < |r.rows| && Shows(r, r.rows[j].cells, t, t.rows[0].cells);
    }
  }

  /** The pipeline fails only where the preparation of one of the sides does. */
  lemma {:induction false} ComparisonPrepares(product: string, src: Table, tgt: Table, primaryKey: seq<string>)
    ensures var pk := LowerKeys(primaryKey);
      Comparison(product, src, tgt, primaryKey).Ok? <==> Prepared(src, pk).Ok? && Prepared(tgt, pk).Ok?
  {
    var pk := LowerKeys(primaryKey);
    if Comparison(product, src, tgt, primaryKey).Ok? {
      ComparisonParts(product, src, tgt, primaryKey);
    } else if Prepared(src, pk).Ok? && Prepared(tgt, pk).Ok? {
      ComparisonOfPrepared(product, src, tgt, primaryKey);
      PreparedHasKeys(src, pk);
      PreparedHasKeys(tgt, pk);
      MatchedSucceeds(product, ShapeString(|src.rows|, |src.columns|), ShapeString(|tgt.rows|, |tgt.columns|),
                      pk, Prepared(src, pk).value, Prepared(tgt, pk).value);
      assert false;
    }
  }

  lemma {:induction false} PreparedHasKeys(t: Table, pk: seq<string>)
    requires Prepared(t, pk).Ok?
    ensures forall i :: 0 <= i < |pk| ==> pk[i] in Prepared(t, pk).value.columns
  {
  }

  lemma {:induction false} ComparisonOfPrepared(product: string, src: Table, tgt: Table, primaryKey: seq<string>)
    requires Prepared(src, LowerKeys(primaryKey)).Ok? && Prepared(tgt, LowerKeys(primaryKey)).Ok?
    ensures var pk := LowerKeys(primaryKey);
      Comparison(product, src, tgt, primaryKey) ==
        Matched(product, ShapeString(|src.rows|, |src.columns|), ShapeString(|tgt.rows|, |tgt.columns|),
                pk, Prepared(src, pk).value, Prepared(tgt, pk).value)
  {
    var pk := LowerKeys(primaryKey);
    var d1, d2 := Standardize(src).value, Standardize(tgt).value;
    var c1, c2 := CleanPrimaryKey(d1, pk).value, CleanPrimaryKey(d2, pk).value;
    assert Prepared(src, pk) == DropKeyDuplicates(c1, pk);
    assert Prepared(tgt, pk) == DropKeyDuplicates(c2, pk);
  }

  /** Once every key column is present on both sides, the comparison steps cannot fail. */
  lemma {:induction false} MatchedSucceeds(product: string, sourceShape: string, targetShape: string,
                                           pk: seq<string>, u1: Table, u2: Table)
    requires forall i :: 0 <= i < |pk| ==> pk[i] in u1.columns && pk[i] in u2.columns
    ensures Matched(product, sourceShape, targetShape, pk, u1, u2).Ok?
  {
    ExtraRowsSpec(u1, u2, pk);
    ExtraRowsSpec(u2, u1, pk);
  }

  /** A successful comparison is the comparison steps applied to the two prepared sides. */
  lemma {:induction false} ComparisonParts(product: string, src: Table, tgt: Table, primaryKey: seq<string>)
    requires Comparison(product, src, tgt, primaryKey).Ok?
    ensures var pk := LowerKeys(primaryKey);
      && Prepared(src, pk).Ok? && Prepared(tgt, pk).Ok?
      && Comparison(product, src, tgt, primaryKey) ==
           Matched(product, ShapeString(|src.rows|, |src.columns|), ShapeString(|tgt.rows|, |tgt.columns|),
                   pk, Prepared(src, pk).value, Prepared(tgt, pk).value)
  {
    var pk := LowerKeys(primaryKey);
    var d1, d2 := Standardize(src).value, Standardize(tgt).value;
    var c1, c2 := CleanPrimaryKey(d1, pk).value, CleanPrimaryKey(d2, pk).value;
    assert Prepared(src, pk) == DropKeyDuplicates(c1, pk);
    assert Prepared(tgt, pk) == DropKeyDuplicates(c2, pk);
  }

  /** Rows kept by a filter of a table with distinct key tuples count their own key tuples. */
  lemma {:induction false} ExtraRowsCount(main: Table, other: Table, pk: seq<string>)
    requires ExtraRows(main, other, pk).Ok? && DistinctKeys(main.rows, RowKey(main.columns, pk))
    ensures |ExtraRows(main, other, pk).value.rows| == |KeyTuples(main, pk) - KeyTuples(other, pk)|
  {
    var r := ExtraRows(main, other, pk).value;
    FilterDistinctKeys(main.rows, NotKeyedIn(main.columns, pk, KeyTuples(other, pk)), RowKey(main.columns, pk));
    DistinctKeysCount(r.rows, RowKey(main.columns, pk));
    ExtraRowsKeys(main, other, pk);
  }

  /**
   * What the comparison steps report on two prepared sides `u1` and `u2`: the
   * extra rows in each are the rows whose key tuple the other lacks, one per
   * key tuple, so their counts are the sizes of the two key-set differences;
   * and the status is "Passed" exactly when both sides have the same key
   * tuples and their aligned common rows agree cell for cell.
   */
  lemma {:induction false} MatchedReport(product: string, sourceShape: string, targetShape: string,
                                         pk: seq<string>, u1: Table, u2: Table)
    requires DistinctKeys(u1.rows, RowKey(u1.columns, pk)) && DistinctKeys(u2.rows, RowKey(u2.columns, pk))
    requires Matched(product, sourceShape, targetShape, pk, u1, u2).Ok?
    ensures var r := Matched(product, sourceShape, targetShape, pk, u1, u2).value;
      && r.overview.sourceShape == sourceShape && r.overview.targetShape == targetShape
      && KeyTuples(r.extraInSource, pk) == KeyTuples(u1, pk) - KeyTuples(u2, pk)
      && KeyTuples(r.extraInTarget, pk) == KeyTuples(u2, pk) - KeyTuples(u1, pk)
      && r.overview.extraRowsInSource == |KeyTuples(u1, pk) - KeyTuples(u2, pk)|
      && r.overview.extraRowsInTarget == |KeyTuples(u2, pk) - KeyTuples(u1, pk)|
      && r.overview.mismatchedRecords == |r.differences|
      && CommonRows(u1, u2, pk).Ok?
      && var (c1, c2) := CommonRows(u1, u2, pk).value;
      && (r.overview.status == "Passed" <==>
            KeyTuples(u1, pk) == KeyTuples(u2, pk) && (|c1.columns| == 0 || c1.rows == c2.rows))
  {
    MatchedParts(product, sourceShape, targetShape, pk, u1, u2);
    var r := Matched(product, sourceShape, targetShape, pk, u1, u2).value;
    var (c1, c2) := CommonRows(u1, u2, pk).value;
    ExtraRowsKeys(u1, u2, pk);
    ExtraRowsKeys(u2, u1, pk);
    ExtraRowsCount(u1, u2, pk);
    ExtraRowsCount(u2, u1, pk);
    CompareEmptyIff(c1, c2);
    BuildOverviewSpec(product, sourceShape, targetShape, pk,
                      |r.extraInSource.rows|, |r.extraInTarget.rows|, |r.differences|);
    SetDifferencesEmpty(KeyTuples(u1, pk), KeyTuples(u2, pk));
  }

  /**
   * Every key tuple of the two prepared sides is reported in exactly one
   * place: among the extra rows in the source, among the extra rows in the
   * target, or among the common rows.
   */
  lemma {:induction false} MatchedKeyPartition(product: string, sourceShape: string, targetShape: string,
                                               pk: seq<string>, u1: Table, u2: Table)
    requires DistinctKeys(u1.rows, RowKey(u1.columns, pk)) && DistinctKeys(u2.rows, RowKey(u2.columns, pk))
    requires Matched(product, sourceShape, targetShape, pk, u1, u2).Ok?
    ensures CommonRows(u1, u2, pk).Ok?
    ensures var r := Matched(product, sourceShape, targetShape, pk, u1, u2).value;
      var common := KeyTuples(CommonRows(u1, u2, pk).value.0, pk);
      && KeyTuples(r.extraInSource, pk) !! KeyTuples(r.extraInTarget, pk)
      && KeyTuples(r.extraInSource, pk) !! common
      && KeyTuples(r.extraInTarget, pk) !! common
      && KeyTuples(r.extraInSource, pk) + KeyTuples(r.extraInTarget, pk) + common
         == KeyTuples(u1, pk) + KeyTuples(u2, pk)
  {
    MatchedParts(product, sourceShape, targetShape, pk, u1, u2);
    ExtraRowsKeys(u1, u2, pk);
    ExtraRowsKeys(u2, u1, pk);
    CommonRowsAligned(u1, u2, pk);
    var c1 := CommonRows(u1, u2, pk).value.0;
    KeySetOfKeySeq(c1.rows, RowKey(c1.columns, pk));
    ThreeWaySplit(KeyTuples(u1, pk), KeyTuples(u2, pk), KeyTuples(c1, pk));
  }

  /** The two set differences and the intersection of `a` and `b` are disjoint and cover `a + b`. */
  lemma {:induction false} ThreeWaySplit<T>(a: set<T>, b: set<T>, both: set<T>)
    requires forall k :: k in both <==> k in a && k in b
    ensures (a - b) !! (b - a) && (a - b) !! both && (b - a) !! both
    ensures (a - b) + (b - a) + both == a + b
  {
  }

  lemma {:induction false} SetDifferencesEmpty<T>(a: set<T>, b: set<T>)
    ensures |a - b| == 0 && |b - a| == 0 <==> a == b
  {
    if |a - b| == 0 && |b - a| == 0 {
      assert a - b == {} && b - a == {};
    }
  }

  /** A successful run of the comparison steps is made of its stages. */
  lemma {:induction false} MatchedParts(product: string, sourceShape: string, targetShape: string,
                                        pk: seq<string>, u1: Table, u2: Table)
    requires Matched(product, sourceShape, targetShape, pk, u1, u2).Ok?
    ensures && ExtraRows(u1, u2, pk).Ok? && ExtraRows(u2, u1, pk).Ok? && CommonRows(u1, u2, pk).Ok?
      && var r := Matched(product, sourceShape, targetShape, pk, u1, u2).value;
      && var (c1, c2) := CommonRows(u1, u2, pk).value;
      && r.extraInSource == ExtraRows(u1, u2, pk).value
      && r.extraInTarget == ExtraRows(u2, u1, pk).value
      && r.differences == CompareCommonRows(c1, c2)
      && r.overview == BuildOverview(product, sourceShape, targetShape, pk,
                                     |r.extraInSource.rows|, |r.extraInTarget.rows|, |r.differences|)
      && WellFormed(c1) && WellFormed(c2) && HasRangeIndex(c1) && HasRangeIndex(c2) && c1.columns == c2.columns
  {
  }

  /**
   * A successful comparison reports the input shapes, measured before any
   * cleaning, and the findings of the comparison steps on the prepared sides.
   */
  lemma {:induction false} ComparisonReport(product: string, src: Table, tgt: Table, primaryKey: seq<string>)
    requires WellFormed(src) && WellFormed(tgt)
    requires Comparison(product, src, tgt, primaryKey).Ok?
    ensures var pk := LowerKeys(primaryKey);
      && Prepared(src, pk).Ok? && Prepared(tgt, pk).Ok?
      && var u1 := Prepared(src, pk).value;
      && var u2 := Prepared(tgt, pk).value;
      && var r := Comparison(product, src, tgt, primaryKey).value;
      && r.overview.sourceShape == ShapeString(|src.rows|, |src.columns|)
      && r.overview.targetShape == ShapeString(|tgt.rows|, |tgt.columns|)
      && r.overview.extraRowsInSource == |KeyTuples(u1, pk) - KeyTuples(u2, pk)|
      && r.overview.extraRowsInTarget == |KeyTuples(u2, pk) - KeyTuples(u1, pk)|
      && CommonRows(u1, u2, pk).Ok?
      && var (c1, c2) := CommonRows(u1, u2, pk).value;
      && (r.overview.status == "Passed" <==>
            KeyTuples(u1, pk) == KeyTuples(u2, pk) && (|c1.columns| == 0 || c1.rows == c2.rows))
  {
    var pk := LowerKeys(primaryKey);
    ComparisonParts(product, src, tgt, primaryKey);
    PreparedSpec(src, pk);
    PreparedSpec(tgt, pk);
    MatchedReport(product, ShapeString(|src.rows|, |src.columns|), ShapeString(|tgt.rows|, |tgt.columns|),
                  pk, Prepared(src, pk).value, Prepared(tgt, pk).value);
  }

  /** Comparing a table with itself passes. */
  lemma {:induction false} IdenticalInputsPass(product: string, t: Table, primaryKey: seq<string>)
    requires WellFormed(t) && Comparison(product, t, t, primaryKey).Ok?
    ensures Comparison(product, t, t, primaryKey).value.overview.status == "Passed"
  {
    ComparisonReport(product, t, t, primaryKey);
  }

  /**
   * `compare_dataframes(src_df, tgt_df, primary_key)` without the Excel
   * output: the in-place pandas steps on fresh frames, then the comparison
   * steps. The input frames are left as they were.
   */
  method CompareDataframes(product: string, src: Frame, tgt: Frame, primaryKey: seq<string>)
    returns (r: Result<Report>)
    requires src.Valid() && tgt.Valid()
    ensures r == Comparison(product, src.Value(), tgt.Value(), primaryKey)
  {
    var sourceShape := ShapeString(|src.rows|, |src.columns|);
    var targetShape := ShapeString(|tgt.rows|, |tgt.columns|);
    var df1 :- StandardizeDataframe(src);
    var df2 :- StandardizeDataframe(tgt);
    var pk := LowerKeys(primaryKey);
    var prepared :- RunKeyStages(df1, df2, pk);
    r := Matched(product, sourceShape, targetShape, pk, prepared.0.Value(), prepared.1.Value());
  }

  /**
   * The key steps of `compare_dataframes`: `clean_primary_key_columns` on each
   * canonical frame, then `remove_pk_duplicates` on each.
   */
  method RunKeyStages(df1: Frame, df2: Frame, pk: seq<string>) returns (r: Result<(Frame, Frame)>)
    requires df1.Valid() && df2.Valid() && df1 != df2
    modifies df1, df2
    ensures r.Err? ==> KeyStages(pk, old(df1.Value()), old(df2.Value())) == Err(r.error)
    ensures r.Ok? ==>
      && r.value.0.Valid() && r.value.1.Valid()
      && KeyStages(pk, old(df1.Value()), old(df2.Value())) == Ok((r.value.0.Value(), r.value.1.Value()))
  {
    ghost var d1, d2 := df1.Value(), df2.Value();
    var cleaned := CleanPrimaryKeyColumns(df1, pk);
    if cleaned.Err? {
      return Err(cleaned.error);
    }
    cleaned := CleanPrimaryKeyColumns(df2, pk);
    if cleaned.Err? {
      return Err(cleaned.error);
    }
    ghost var c1, c2 := df1.Value(), df2.Value();
    assert CleanPrimaryKey(d1, pk) == Ok(c1) && CleanPrimaryKey(d2, pk) == Ok(c2);
    var u1 := RemovePkDuplicates(df1, pk);
    if u1.Err? {
      return Err(u1.error);
    }
    var u2 := RemovePkDuplicates(df2, pk);
    if u2.Err? {
      return Err(u2.error);
    }
    return Ok((u1.value, u2.value));
  }
}

=== FILE: databricks.dfy ===
/**
 * The Databricks notebook variant of the comparison
 * (compare/databricks/compare.py): the cleaning steps written out inline on
 * the two frames, extra and shared rows selected by key tuple,
 * `DataFrame.compare` on the shared rows as they are labelled, and samples of
 * at most 100 rows of each result beside uncapped counts.
 */
module Databricks {
  import opened Results
  import opened Order
  import opened Text
  import opened Frames
  import opened Compare

  /** The product name the notebook writes into the overview. */
  const ProductTested: string := "Product Tested Example"

  /** `head(100)`: how many rows of each result are kept. */
  const SampleSize: nat := 100

  /** What the notebook writes: the overview and the first rows of each result. */
  datatype DbReport = DbReport(overview: Overview, differencesSample: seq<DiffRow>,
                               extraInSourceSample: Table, extraInTargetSample: Table)

  // ------------------------------------------------------------------
  // Key cleaning, source and target interleaved
  // ------------------------------------------------------------------

  /** The first of `names` missing from `cols1` or from `cols2`. */
  function FirstMissingFromEither(cols1: seq<string>, cols2: seq<string>, names: seq<string>): (m: Option<string>)
    ensures m.None? <==> forall i :: 0 <= i < |names| ==> names[i] in cols1 && names[i] in cols2
  {
    if names == [] then None
    else if names[0] !in cols1 || names[0] !in cols2 then Some(names[0])
    else FirstMissingFromEither(cols1, cols2, names[1..])
  }

  /** The name reported is the one at the first position missing from either header. */
  lemma {:induction false} FirstMissingFromEitherAt(cols1: seq<string>, cols2: seq<string>, names: seq<string>, i: nat)
    requires i < |names| && (names[i] !in cols1 || names[i] !in cols2)
    requires forall j :: 0 <= j < i ==> names[j] in cols1 && names[j] in cols2
    ensures FirstMissingFromEither(cols1, cols2, names) == Some(names[i])
  {
    if i > 0 {
      assert names[0] in cols1 && names[0] in cols2;
      FirstMissingFromEitherAt(cols1, cols2, names[1..], i - 1);
    }
  }

  /**
   * The key loop of the notebook: for each key, the source column is trimmed
   * and then the target column; the first key missing from either side raises
   * `KeyError`.
   */
  function StripKeysBoth(t1: Table, t2: Table, pk: seq<string>): Result<(Table, Table)> {
    match FirstMissingFromEither(t1.columns, t2.columns, pk)
    case Some(c) => Err(MissingKeyColumn(c))
    case None => Ok((WithColumnsStripped(t1, pk), WithColumnsStripped(t2, pk)))
  }

  /**
   * The key loop fails exactly when some key is absent from one of the
   * headers, naming the first such key; otherwise it trims exactly the key
   * cells of both tables.
   */
  lemma {:induction false} StripKeysBothSpec(t1: Table, t2: Table, pk: seq<string>)
    requires Distinct(t1.columns) && Distinct(t2.columns)
    ensures StripKeysBoth(t1, t2, pk).Err? <==>
      exists i :: 0 <= i < |pk| && (pk[i] !in t1.columns || pk[i] !in t2.columns)
    ensures StripKeysBoth(t1, t2, pk).Err? ==>
      exists i :: 0 <= i < |pk| && StripKeysBoth(t1, t2, pk).error == MissingKeyColumn(pk[i])
        && (pk[i] !in t1.columns || pk[i] !in t2.columns)
        && forall j :: 0 <= j < i ==> pk[j] in t1.columns && pk[j] in t2.columns
    ensures StripKeysBoth(t1, t2, pk).Ok? ==>
      && StrippedColumns(t1, StripKeysBoth(t1, t2, pk).value.0, pk)
      && StrippedColumns(t2, StripKeysBoth(t1, t2, pk).value.1, pk)
  {
    if StripKeysBoth(t1, t2, pk).Err? {
      var i := FirstMissingIndex(t1.columns, t2.columns, pk);
      FirstMissingFromEitherAt(t1.columns, t2.columns, pk, i);
    } else {
      WithColumnsStrippedCells(t1, pk);
      WithColumnsStrippedCells(t2, pk);
    }
  }

  /** The first position of `names` missing from either header. */
  lemma {:induction false} FirstMissingIndex(cols1: seq<string>, cols2: seq<string>, names: seq<string>) returns (i: nat)
    requires exists k :: 0 <= k < |names| && (names[k] !in cols1 || names[k] !in cols2)
    ensures i < |names| && (names[i] !in cols1 || names[i] !in cols2)
    ensures forall j :: 0 <= j < i ==> names[j] in cols1 && names[j] in cols2
  {
    if names[0] !in cols1 || names[0] !in cols2 {
      i := 0;
    } else {
      var k :| 0 <= k < |names| && (names[k] !in cols1 || names[k] !in cols2);
      assert names[1..][k - 1] == names[k];
      var i' := FirstMissingIndex(cols1, cols2, names[1..]);
      i := i' + 1;
      forall j | 0 <= j < i ensures names[j] in cols1 && names[j] in cols2 {
        if j > 0 {
          assert names[j] == names[1..][j - 1];
        }
      }
    }
  }

  /**
   * Both sides up to the comparison: read (rows labelled 0..n-1), made
   * canonical, key cells trimmed and later rows of a key tuple dropped, with
   * the surviving rows keeping their labels.
   */
  function DbPrepared(src: Table, tgt: Table, pk: seq<string>): Result<(Table, Table)> {
    var d1 :- Standardize(WithIndexReset(src));
    var d2 :- Standardize(WithIndexReset(tgt));
    DbKeyStages(d1, d2, pk)
  }

  /** The key loop over both canonical tables, then the key deduplication of each. */
  function DbKeyStages(d1: Table, d2: Table, pk: seq<string>): Result<(Table, Table)> {
    var stripped :- StripKeysBoth(d1, d2, pk);
    DeduplicateBoth(stripped.0, stripped.1, pk)
  }

  /** `df1.drop_duplicates(subset=primary_key, inplace=True)`, then the same on `df2`. */
  function DeduplicateBoth(t1: Table, t2: Table, pk: seq<string>): Result<(Table, Table)> {
    var u1 :- KeyDeduplication(t1, pk);
    var u2 :- KeyDeduplication(t2, pk);
    Ok((u1, u2))
  }

  /**
   * With every key column present, deduplicating both tables fails exactly
   * when the key is empty and one of them has rows; otherwise both keep their
   * headers and are left with one row per key tuple.
   */
  lemma {:induction false} DeduplicateBothSpec(t1: Table, t2: Table, pk: seq<string>)
    requires WellFormed(t1) && WellFormed(t2)
    requires forall i :: 0 <= i < |pk| ==> pk[i] in t1.columns && pk[i] in t2.columns
    ensures DeduplicateBoth(t1, t2, pk).Err? <==> pk == [] && (|t1.rows| > 0 || |t2.rows| > 0)
    ensures DeduplicateBoth(t1, t2, pk).Err? ==> DeduplicateBoth(t1, t2, pk).error == EmptyKey
    ensures DeduplicateBoth(t1, t2, pk).Ok? ==>
      var (u1, u2) := DeduplicateBoth(t1, t2, pk).value;
      && WellFormed(u1) && WellFormed(u2) && u1.columns == t1.columns && u2.columns == t2.columns
      && DistinctKeys(u1.rows, RowKey(u1.columns, pk)) && DistinctKeys(u2.rows, RowKey(u2.columns, pk))
  {
    KeyDeduplicationSpec(t1, pk);
    KeyDeduplicationSpec(t2, pk);
  }
  /**
   * On two canonical tables the key stages fail exactly when a key is absent
   * from one of the headers or the key is empty while one table has rows;
   * on success both keep their headers and one row per key tuple.
   */
  lemma {:induction false} DbKeyStagesSpec(d1: Table, d2: Table, pk: seq<string>)
    requires WellFormed(d1) && WellFormed(d2) && Distinct(d1.columns) && Distinct(d2.columns)
    ensures DbKeyStages(d1, d2, pk).Err? <==>
      || (exists i :: 0 <= i < |pk| && (pk[i] !in d1.columns || pk[i] !in d2.columns))
      || (pk == [] && (|d1.rows| > 0 || |d2.rows| > 0))
    ensures DbKeyStages(d1, d2, pk).Err? ==>
      || (DbKeyStages(d1, d2, pk).error.MissingKeyColumn? && DbKeyStages(d1, d2, pk).error.name in pk)
      || (DbKeyStages(d1, d2, pk).error == EmptyKey && pk == [])
    ensures DbKeyStages(d1, d2, pk).Ok? ==>
      var (u1, u2) := DbKeyStages(d1, d2, pk).value;
      && WellFormed(u1) && WellFormed(u2) && u1.columns == d1.columns && u2.columns == d2.columns
      && DistinctKeys(u1.rows, RowKey(u1.columns, pk)) && DistinctKeys(u2.rows, RowKey(u2.columns, pk))
  {
    StripKeysBothSpec(d1, d2, pk);
    if StripKeysBoth(d1, d2, pk).Ok? {
      var (s1, s2) := StripKeysBoth(d1, d2, pk).value;
      DeduplicateBothSpec(s1, s2, pk);
    }
  }


  // ------------------------------------------------------------------
  // Shared rows and DataFrame.compare on labelled frames
  // ------------------------------------------------------------------

  /** The rows of `t` whose key tuple `other` has, sorted by key, labels kept. */
  function SharedRows(t: Table, other: Table, pk: seq<string>): Table {
    SortedOn(Table(t.columns, Filter(t.rows, KeyedIn(t.columns, pk, KeyTuples(other, pk)))), pk)
  }

  /** Row `i` of `a` with its label and the cells in which it differs from row `i` of `b`. */
  function LabelledRowDifferences(a: Table, b: Table): (r: seq<DiffRow>)
    ensures |r| == |a.rows|
    ensures forall i :: 0 <= i < |a.rows| ==> r[i] == DiffRow(a.rows[i].index, RowDifference(a, b, i))
  {
    seq(|a.rows|, i requires 0 <= i < |a.rows| => DiffRow(a.rows[i].index, RowDifference(a, b, i)))
  }

  function LabelledDifferences(a: Table, b: Table): seq<DiffRow> {
    Filter(LabelledRowDifferences(a, b), HasDifferences)
  }

  /**
   * `a.compare(b)`: pandas raises unless both frames have the same header and
   * the same row labels in the same order; otherwise it lists the rows that
   * differ somewhere, under their labels, with their differing cells.
   */
  function CompareIdenticallyLabelled(a: Table, b: Table): Result<seq<DiffRow>> {
    if a.columns != b.columns || Labels(a) != Labels(b) then Err(NotIdenticallyLabelled)
    else Ok(LabelledDifferences(a, b))
  }

  /**
   * On identically labelled frames, the comparison lists exactly the rows that
   * differ somewhere, in row order, each under its label with its differing
   * cells.
   */
  lemma {:induction false} LabelledDifferencesSpec(a: Table, b: Table)
    ensures var r := LabelledDifferences(a, b);
      && (forall d :: d in r ==>
            exists i :: 0 <= i < |a.rows| && RowsDiffer(a, b, i) && d == DiffRow(a.rows[i].index, RowDifference(a, b, i)))
      && (forall i :: 0 <= i < |a.rows| && RowsDiffer(a, b, i) ==>
            DiffRow(a.rows[i].index, RowDifference(a, b, i)) in r)
      && IsSubsequence(r, LabelledRowDifferences(a, b))
  {
    var all := LabelledRowDifferences(a, b);
    var r := LabelledDifferences(a, b);
    forall d | d in r
      ensures exists i :: 0 <= i < |a.rows| && RowsDiffer(a, b, i) && d == DiffRow(a.rows[i].index, RowDifference(a, b, i))
    {
      var i :| 0 <= i < |all| && all[i] == d;
      RowDifferenceSpec(a, b, i);
    }
    forall i | 0 <= i < |a.rows| && RowsDiffer(a, b, i)
      ensures DiffRow(a.rows[i].index, RowDifference(a, b, i)) in r
    {
      RowDifferenceSpec(a, b, i);
      assert HasDifferences(all[i]);
    }
  }

  /** With labels 0..n-1 on both sides, the labelled comparison is the aligned one. */
  lemma {:induction false} LabelledDifferencesOfRangeIndex(a: Table, b: Table)
    requires a.columns == b.columns && HasRangeIndex(a) && HasRangeIndex(b) && |a.rows| == |b.rows|
    ensures LabelledDifferences(a, b) == CompareCommonRows(a, b)
  {
    assert LabelledRowDifferences(a, b) == AllRowDifferences(a, b);
  }

  // ------------------------------------------------------------------
  // Sorting, samples and the overview
  // ------------------------------------------------------------------

  function DiffLabel(d: DiffRow): nat {
    d.index
  }

  predicate NatLt(m: nat, n: nat) {
    m < n
  }

  lemma NatLtIsStrictTotalOrder()
    ensures StrictTotalOrder(NatLt)
  {
  }

  /** `differences.sort_index()`. */
  function SortedByLabel(ds: seq<DiffRow>): seq<DiffRow> {
    SortBy(ds, DiffLabel, NatLt)
  }

  /** `df.head(100)`. */
  function Sample(t: Table): Table {
    Table(t.columns, Take(t.rows, SampleSize))
  }

  /**
   * The sheets and the overview from the three results: each result sorted
   * (extra rows by key, differences by label) and cut to its first rows, the
   * counts taken from the whole results.
   */
  function Summary(sourceShape: string, targetShape: string, pk: seq<string>,
                   extraSrc: Table, extraTgt: Table, differences: seq<DiffRow>): DbReport
  {
    var overview := BuildOverview(ProductTested, sourceShape, targetShape, pk,
                                  |extraSrc.rows|, |extraTgt.rows|, |differences|);
    DbReport(overview, Take(SortedByLabel(differences), SampleSize),
             Sample(SortedOn(extraSrc, pk)), Sample(SortedOn(extraTgt, pk)))
  }

  /**
   * The first `n` elements after a stable sort: sorted, drawn from `s`, and
   * no element left out is smaller than one kept.
   */
  lemma {:induction false} TakeOfSorted<T, K(!new)>(s: seq<T>, key: T -> K, lt: (K, K) -> bool, n: nat)
    requires StrictTotalOrder(lt)
    ensures var r := Take(SortBy(s, key, lt), n);
      && |r| == (if |s| < n then |s| else n)
      && SortedBy(r, key, lt)
      && (forall y :: y in r ==> y in s)
      && forall x :: x in s ==> x in r || forall y :: y in r ==> !lt(key(x), key(y))
  {
    var sorted := SortBy(s, key, lt);
    var r := Take(sorted, n);
    forall y | y in r ensures y in s {
      var i :| 0 <= i < |r| && r[i] == y;
      assert sorted[i] in multiset(s);
    }
    forall x | x in s ensures x in r || forall y :: y in r ==> !lt(key(x), key(y)) {
      assert x in multiset(sorted);
      var p :| 0 <= p < |sorted| && sorted[p] == x;
      if p >= |r| {
        forall y | y in r ensures !lt(key(x), key(y)) {
          var i :| 0 <= i < |r| && r[i] == y;
          assert sorted[i] == y;
        }
      } else {
        assert r[p] == x;
      }
    }
  }

  /**
   * The overview reports the product name and the whole results' sizes, and
   * passes exactly when all three results are empty; each sample holds the
   * first min(100, n) rows of its result in sorted order, and no row left out
   * sorts before a row kept.
   */
  lemma {:induction false} SummarySpec(sourceShape: string, targetShape: string, pk: seq<string>,
                                       extraSrc: Table, extraTgt: Table, differences: seq<DiffRow>)
    ensures var r := Summary(sourceShape, targetShape, pk, extraSrc, extraTgt, differences);
      && r.overview.productTested == ProductTested
      && r.overview.sourceShape == sourceShape && r.overview.targetShape == targetShape
      && r.overview.extraRowsInSource == |extraSrc.rows|
      && r.overview.extraRowsInTarget == |extraTgt.rows|
      && r.overview.mismatchedRecords == |differences|
      && (r.overview.status == "Passed" <==> extraSrc.rows == [] && extraTgt.rows == [] && differences == [])
      && |r.differencesSample| == (if |differences| < SampleSize then |differences| else SampleSize)
      && |r.extraInSourceSample.rows| == (if |extraSrc.rows| < SampleSize then |extraSrc.rows| else SampleSize)
      && |r.extraInTargetSample.rows| == (if |extraTgt.rows| < SampleSize then |extraTgt.rows| else SampleSize)
      && SortedBy(r.differencesSample, DiffLabel, NatLt)
      && (forall d :: d in differences ==>
            d in r.differencesSample || forall e :: e in r.differencesSample ==> e.index <= d.index)
      && SortedBy(r.extraInSourceSample.rows, RowKey(extraSrc.columns, pk), TupleLt)
      && (forall x :: x in extraSrc.rows ==>
            x in r.extraInSourceSample.rows || forall y :: y in r.extraInSourceSample.rows ==>
              !TupleLt(RowKey(extraSrc.columns, pk)(x), RowKey(extraSrc.columns, pk)(y)))
      && SortedBy(r.extraInTargetSample.rows, RowKey(extraTgt.columns, pk), TupleLt)
      && (forall x :: x in extraTgt.rows ==>
            x in r.extraInTargetSample.rows || forall y :: y in r.extraInTargetSample.rows ==>
              !TupleLt(RowKey(extraTgt.columns, pk)(x), RowKey(extraTgt.columns, pk)(y)))
      && (forall d :: d in r.differencesSample ==> d in differences)
      && (forall y :: y in r.extraInSourceSample.rows ==> y in extraSrc.rows)
      && (forall y :: y in r.extraInTargetSample.rows ==> y in extraTgt.rows)
  {
    BuildOverviewSpec(ProductTested, sourceShape, targetShape, pk,
                      |extraSrc.rows|, |extraTgt.rows|, |differences|);
    NatLtIsStrictTotalOrder();
    TupleLtIsStrictTotalOrder();
    TakeOfSorted(differences, DiffLabel, NatLt, SampleSize);
    TakeOfSorted(extraSrc.rows, RowKey(extraSrc.columns, pk), TupleLt, SampleSize);
    TakeOfSorted(extraTgt.rows, RowKey(extraTgt.columns, pk), TupleLt, SampleSize);
  }

  /**
   * The steps after key deduplication: extra rows both ways, the comparison
   * of the shared rows `shared`, then the sorted samples and the overview.
   */
  function Findings(sourceShape: string, targetShape: string, pk: seq<string>,
                    u1: Table, u2: Table, shared: (Table, Table)): Result<DbReport>
  {
    var extraSrc :- ExtraRows(u1, u2, pk);
    var extraTgt :- ExtraRows(u2, u1, pk);
    var differences :- CompareIdenticallyLabelled(shared.0, shared.1);
    Ok(Summary(sourceShape, targetShape, pk, extraSrc, extraTgt, differences))
  }

  /**
   * `compare_dataframes(src_df, tgt_df, output_file, primary_key)` of the
   * notebook without the reading and writing: the shapes of the read inputs,
   * the cleaning steps, then the findings on the shared rows sorted by key
   * and compared under the labels they kept from the input.
   */
  function DatabricksRun(src: Table, tgt: Table, primaryKey: seq<string>): Result<DbReport> {
    var sourceShape := ShapeString(|src.rows|, |src.columns|);
    var targetShape := ShapeString(|tgt.rows|, |tgt.columns|);
    var pk := LowerKeys(primaryKey);
    var u :- DbPrepared(src, tgt, pk);
    Findings(sourceShape, targetShape, pk, u.0, u.1, (SharedRows(u.0, u.1, pk), SharedRows(u.1, u.0, pk)))
  }

  // ------------------------------------------------------------------
  // The notebook's steps on two mutable frames
  // ------------------------------------------------------------------

  /**
   * The notebook's body on the two read inputs: standardise fresh frames,
   * trim the key columns of both in one loop, drop rows whose key repeats
   * (which raises on an empty key once a frame has rows), then gather the
   * findings. The result is the one `DatabricksRun` defines.
   */
  method CompareDataframes(src: Table, tgt: Table, primaryKey: seq<string>) returns (r: Result<DbReport>)
    requires WellFormed(src) && WellFormed(tgt)
    ensures r == DatabricksRun(src, tgt, primaryKey)
  {
    var read1 := new Frame(WithIndexReset(src));
    var df1 :- StandardizeDataframe(read1);
    var sourceShape := ShapeString(|src.rows|, |src.columns|);
    var read2 := new Frame(WithIndexReset(tgt));
    var df2 :- StandardizeDataframe(read2);
    var targetShape := ShapeString(|tgt.rows|, |tgt.columns|);
    ghost var d1, d2 := df1.Value(), df2.Value();
    var pk := LowerKeys(primaryKey);
    var stripped := StripKeyColumns(df1, df2, pk);
    if stripped.Err? {
      return Err(stripped.error);
    }
    assert StripKeysBoth(d1, d2, pk) == Ok((df1.Value(), df2.Value()));
    ghost var s1, s2 := df1.Value(), df2.Value();
    assert DbPrepared(src, tgt, pk) == DeduplicateBoth(s1, s2, pk);
    var e1 := df1.DropDuplicatesOn(pk);
    if e1.Err? {
      return Err(e1.error);
    }
    var e2 := df2.DropDuplicatesOn(pk);
    if e2.Err? {
      return Err(e2.error);
    }
    var u1, u2 := df1.Value(), df2.Value();
    assert DbPrepared(src, tgt, pk) == Ok((u1, u2));
    r := Findings(sourceShape, targetShape, pk, u1, u2, (SharedRows(u1, u2, pk), SharedRows(u2, u1, pk)));
  }

  /**
   * The notebook's key loop: for each key in turn, trim that column in the
   * source frame and then in the target frame. It stops at the first key
   * missing from either, with the error `StripKeysBoth` reports.
   */
  method StripKeyColumns(df1: Frame, df2: Frame, pk: seq<string>) returns (r: Result<()>)
    requires df1.Valid() && df2.Valid() && df1 != df2
    modifies df1, df2
    ensures df1.Valid() && df2.Valid()
    ensures r.Err? ==> StripKeysBoth(old(df1.Value()), old(df2.Value()), pk) == Err(r.error)
    ensures r.Ok? ==> StripKeysBoth(old(df1.Value()), old(df2.Value()), pk) == Ok((df1.Value(), df2.Value()))
    ensures r.Ok? ==> forall i :: 0 <= i < |pk| ==> pk[i] in df1.columns && pk[i] in df2.columns
  {
    ghost var d1, d2 := df1.Value(), df2.Value();
    var i := 0;
    while i < |pk|
      invariant 0 <= i <= |pk|
      invariant df1.Valid() && df2.Valid()
      invariant df1.Value() == WithColumnsStripped(d1, pk[..i])
      invariant df2.Value() == WithColumnsStripped(d2, pk[..i])
      invariant forall k :: 0 <= k < i ==> pk[k] in d1.columns && pk[k] in d2.columns
    {
      var e := df1.StripColumn(pk[i]);
      if e.Err? {
        FirstMissingFromEitherAt(d1.columns, d2.columns, pk, i);
        return Err(e.error);
      }
      e := df2.StripColumn(pk[i]);
      if e.Err? {
        FirstMissingFromEitherAt(d1.columns, d2.columns, pk, i);
        return Err(e.error);
      }
      WithColumnsStrippedSnoc(d1, pk[..i], pk[i]);
      WithColumnsStrippedSnoc(d2, pk[..i], pk[i]);
      assert pk[..i + 1] == pk[..i] + [pk[i]];
      i := i + 1;
    }
    assert pk[..i] == pk;
    return Ok(());
  }

  // ------------------------------------------------------------------
  // What the notebook computes
  // ------------------------------------------------------------------

  /** Once preparation succeeds, every key column is on both sides. */
  lemma {:induction false} DbPreparedHasKeys(src: Table, tgt: Table, pk: seq<string>)
    requires DbPrepared(src, tgt, pk).Ok?
    ensures forall i :: 0 <= i < |pk| ==>
      pk[i] in DbPrepared(src, tgt, pk).value.0.columns && pk[i] in DbPrepared(src, tgt, pk).value.1.columns
  {
    var s1, s2 := DbPreparedStages(src, tgt, pk);
    KeyDeduplicationKeepsFirst(s1, pk);
    KeyDeduplicationKeepsFirst(s2, pk);
  }

  /** Preparation raises only a label collision, a missing key or an empty key. */
  lemma {:induction false} DbPreparedErrors(src: Table, tgt: Table, pk: seq<string>)
    requires DbPrepared(src, tgt, pk).Err?
    ensures DbPrepared(src, tgt, pk).error in {DuplicateColumns, EmptyKey} || DbPrepared(src, tgt, pk).error.MissingKeyColumn?
  {
    var r1, r2 := WithIndexReset(src), WithIndexReset(tgt);
    StandardizeFails(r1);
    StandardizeFails(r2);
    if Standardize(r1).Ok? && Standardize(r2).Ok? {
      var d1, d2 := Standardize(r1).value, Standardize(r2).value;
      assert DbPrepared(src, tgt, pk) == DbKeyStages(d1, d2, pk);
      DbKeyStagesErrors(d1, d2, pk);
    }
  }

  /** The key stages raise only a missing key or an empty key. */
  lemma {:induction false} DbKeyStagesErrors(d1: Table, d2: Table, pk: seq<string>)
    requires DbKeyStages(d1, d2, pk).Err?
    ensures DbKeyStages(d1, d2, pk).error == EmptyKey || DbKeyStages(d1, d2, pk).error.MissingKeyColumn?
  {
    if StripKeysBoth(d1, d2, pk).Ok? {
      var (s1, s2) := StripKeysBoth(d1, d2, pk).value;
      assert DbKeyStages(d1, d2, pk) == DeduplicateBoth(s1, s2, pk);
    }
  }


  /** A successful preparation is the key deduplication of both key-stripped canonical tables. */
  lemma {:induction false} DbPreparedStages(src: Table, tgt: Table, pk: seq<string>) returns (s1: Table, s2: Table)
    requires DbPrepared(src, tgt, pk).Ok?
    ensures Standardize(WithIndexReset(src)).Ok? && Standardize(WithIndexReset(tgt)).Ok?
    ensures StripKeysBoth(Standardize(WithIndexReset(src)).value, Standardize(WithIndexReset(tgt)).value, pk) == Ok((s1, s2))
    ensures forall i :: 0 <= i < |pk| ==> pk[i] in s1.columns && pk[i] in s2.columns
    ensures KeyDeduplication(s1, pk).Ok? && KeyDeduplication(s2, pk).Ok?
    ensures DbPrepared(src, tgt, pk).value == (KeyDeduplication(s1, pk).value, KeyDeduplication(s2, pk).value)
  {
    var d1, d2 := Standardize(WithIndexReset(src)).value, Standardize(WithIndexReset(tgt)).value;
    s1, s2 := StripKeysBoth(d1, d2, pk).value.0, StripKeysBoth(d1, d2, pk).value.1;
    assert DbPrepared(src, tgt, pk) == DbKeyStages(d1, d2, pk) == DeduplicateBoth(s1, s2, pk);
  }

  /**
   * Preparation fails exactly when the normalised labels of a side collide,
   * a key is missing from the normalised labels of a side, or the key is
   * empty while a side has rows; the prepared sides have the canonical
   * headers and one row per key tuple.
   */
  lemma {:induction false} DbPreparedSpec(src: Table, tgt: Table, pk: seq<string>)
    requires WellFormed(src) && WellFormed(tgt)
    ensures DbPrepared(src, tgt, pk).Err? <==>
      || LabelsCollide(src.columns) || LabelsCollide(tgt.columns)
      || (exists i :: 0 <= i < |pk| && (pk[i] !in NormaliseNames(src.columns) || pk[i] !in NormaliseNames(tgt.columns)))
      || (pk == [] && (|src.rows| > 0 || |tgt.rows| > 0))
    ensures DbPrepared(src, tgt, pk).Err? ==>
      || DbPrepared(src, tgt, pk).error == DuplicateColumns
      || (DbPrepared(src, tgt, pk).error.MissingKeyColumn? && DbPrepared(src, tgt, pk).error.name in pk)
      || (DbPrepared(src, tgt, pk).error == EmptyKey && pk == [])
    ensures DbPrepared(src, tgt, pk).Ok? ==>
      var (u1, u2) := DbPrepared(src, tgt, pk).value;
      && WellFormed(u1) && WellFormed(u2)
      && (forall c :: c in u1.columns <==> c in NormaliseNames(src.columns))
      && (forall c :: c in u2.columns <==> c in NormaliseNames(tgt.columns))
      && DistinctKeys(u1.rows, RowKey(u1.columns, pk)) && DistinctKeys(u2.rows, RowKey(u2.columns, pk))
  {
    if DbPrepared(src, tgt, pk).Err? {
      DbPreparedFails(src, tgt, pk);
    } else {
      DbPreparedFails(src, tgt, pk);
      DbPreparedShape(src, tgt, pk);
    }
  }

  /** The failure half of `DbPreparedSpec`. */
  lemma {:induction false} DbPreparedFails(src: Table, tgt: Table, pk: seq<string>)
    requires WellFormed(src) && WellFormed(tgt)
    ensures DbPrepared(src, tgt, pk).Err? <==>
      || LabelsCollide(src.columns) || LabelsCollide(tgt.columns)
      || (exists i :: 0 <= i < |pk| && (pk[i] !in NormaliseNames(src.columns) || pk[i] !in NormaliseNames(tgt.columns)))
      || (pk == [] && (|src.rows| > 0 || |tgt.rows| > 0))
    ensures DbPrepared(src, tgt, pk).Err? ==>
      || DbPrepared(src, tgt, pk).error == DuplicateColumns
      || (DbPrepared(src, tgt, pk).error.MissingKeyColumn? && DbPrepared(src, tgt, pk).error.name in pk)
      || (DbPrepared(src, tgt, pk).error == EmptyKey && pk == [])
  {
    var r1, r2 := WithIndexReset(src), WithIndexReset(tgt);
    StandardizeFails(r1);
    StandardizeFails(r2);
    if Standardize(r1).Ok? && Standardize(r2).Ok? {
      var d1, d2 := CanonicalStages(src, tgt, pk);
      CanonicalKeyStagesFail(src, tgt, d1, d2, pk);
    }
  }

  /** Both read tables made canonical: what the key stages receive. */
  lemma {:induction false} CanonicalStages(src: Table, tgt: Table, pk: seq<string>) returns (d1: Table, d2: Table)
    requires WellFormed(src) && WellFormed(tgt)
    requires Standardize(WithIndexReset(src)).Ok? && Standardize(WithIndexReset(tgt)).Ok?
    ensures WellFormed(d1) && WellFormed(d2) && Distinct(d1.columns) && Distinct(d2.columns)
    ensures forall c :: c in d1.columns <==> c in NormaliseNames(src.columns)
    ensures forall c :: c in d2.columns <==> c in NormaliseNames(tgt.columns)
    ensures (|d1.rows| > 0 <==> |src.rows| > 0) && (|d2.rows| > 0 <==> |tgt.rows| > 0)
    ensures DbPrepared(src, tgt, pk) == DbKeyStages(d1, d2, pk)
  {
    d1 := CanonicalSide(src);
    d2 := CanonicalSide(tgt);
  }

  /** One read table made canonical. */
  lemma {:induction false} CanonicalSide(t: Table) returns (d: Table)
    requires WellFormed(t) && Standardize(WithIndexReset(t)).Ok?
    ensures d == Standardize(WithIndexReset(t)).value
    ensures WellFormed(d) && Distinct(d.columns)
    ensures forall c :: c in d.columns <==> c in NormaliseNames(t.columns)
    ensures |d.rows| > 0 <==> |t.rows| > 0
  {
    d := Standardize(WithIndexReset(t)).value;
    ReadCanonical(t);
    StandardizedRowCount(WithIndexReset(t));
  }

  /** The key stages on the canonical forms of two read tables, in terms of the tables as read. */
  lemma {:induction false} CanonicalKeyStagesFail(src: Table, tgt: Table, d1: Table, d2: Table, pk: seq<string>)
    requires WellFormed(d1) && WellFormed(d2) && Distinct(d1.columns) && Distinct(d2.columns)
    requires forall c :: c in d1.columns <==> c in NormaliseNames(src.columns)
    requires forall c :: c in d2.columns <==> c in NormaliseNames(tgt.columns)
    requires (|d1.rows| > 0 <==> |src.rows| > 0) && (|d2.rows| > 0 <==> |tgt.rows| > 0)
    ensures DbKeyStages(d1, d2, pk).Err? <==>
      || (exists i :: 0 <= i < |pk| && (pk[i] !in NormaliseNames(src.columns) || pk[i] !in NormaliseNames(tgt.columns)))
      || (pk == [] && (|src.rows| > 0 || |tgt.rows| > 0))
    ensures DbKeyStages(d1, d2, pk).Err? ==>
      || (DbKeyStages(d1, d2, pk).error.MissingKeyColumn? && DbKeyStages(d1, d2, pk).error.name in pk)
      || (DbKeyStages(d1, d2, pk).error == EmptyKey && pk == [])
  {
    DbKeyStagesSpec(d1, d2, pk);
  }

  /** The success half of `DbPreparedSpec`. */
  lemma {:induction false} DbPreparedShape(src: Table, tgt: Table, pk: seq<string>)
    requires WellFormed(src) && WellFormed(tgt) && DbPrepared(src, tgt, pk).Ok?
    ensures var (u1, u2) := DbPrepared(src, tgt, pk).value;
      && WellFormed(u1) && WellFormed(u2)
      && (forall c :: c in u1.columns <==> c in NormaliseNames(src.columns))
      && (forall c :: c in u2.columns <==> c in NormaliseNames(tgt.columns))
      && DistinctKeys(u1.rows, RowKey(u1.columns, pk)) && DistinctKeys(u2.rows, RowKey(u2.columns, pk))
  {
    var d1, d2 := Standardize(WithIndexReset(src)).value, Standardize(WithIndexReset(tgt)).value;
    ReadCanonical(src);
    ReadCanonical(tgt);
    DbKeyStagesSpec(d1, d2, pk);
  }

  /** The canonical form of a read table: well formed, distinct labels, the normalised input labels. */
  lemma {:induction false} ReadCanonical(t: Table)
    requires WellFormed(t) && Standardize(WithIndexReset(t)).Ok?
    ensures var d := Standardize(WithIndexReset(t)).value;
      && WellFormed(d) && Distinct(d.columns)
      && forall c :: c in d.columns <==> c in NormaliseNames(t.columns)
  {
    var r := WithIndexReset(t);
    assert WellFormed(r);
    StandardizeRows(r);
    StandardizeColumns(r);
    StandardizedLabels(r);
  }

  /**
   * A successful run reports the product name and the shapes of the inputs
   * as read; its counts are the numbers of key tuples one side has and the
   * other lacks, and of shared rows that differ; it passes exactly when both
   * sides have the same key tuples and no shared row differs.
   */
  lemma {:induction false} DatabricksReport(src: Table, tgt: Table, primaryKey: seq<string>)
    requires WellFormed(src) && WellFormed(tgt) && DatabricksRun(src, tgt, primaryKey).Ok?
    ensures var pk := LowerKeys(primaryKey);
      && DbPrepared(src, tgt, pk).Ok?
      && var (u1, u2) := DbPrepared(src, tgt, pk).value;
      && var r := DatabricksRun(src, tgt, primaryKey).value;
      && var (s1, s2) := (SharedRows(u1, u2, pk), SharedRows(u2, u1, pk));
      && r.overview.productTested == ProductTested
      && r.overview.sourceShape == ShapeString(|src.rows|, |src.columns|)
      && r.overview.targetShape == ShapeString(|tgt.rows|, |tgt.columns|)
      && r.overview.extraRowsInSource == |KeyTuples(u1, pk) - KeyTuples(u2, pk)|
      && r.overview.extraRowsInTarget == |KeyTuples(u2, pk) - KeyTuples(u1, pk)|
      && s1.columns == s2.columns && Labels(s1) == Labels(s2)
      && r.overview.mismatchedRecords == |LabelledDifferences(s1, s2)|
      && (r.overview.status == "Passed" <==>
            KeyTuples(u1, pk) == KeyTuples(u2, pk) && LabelledDifferences(s1, s2) == [])
  {
    var pk := LowerKeys(primaryKey);
    DbPreparedSpec(src, tgt, pk);
    var (u1, u2) := DbPrepared(src, tgt, pk).value;
    var shared := (SharedRows(u1, u2, pk), SharedRows(u2, u1, pk));
    assert DatabricksRun(src, tgt, primaryKey)
      == Findings(ShapeString(|src.rows|, |src.columns|), ShapeString(|tgt.rows|, |tgt.columns|), pk, u1, u2, shared);
    FindingsCounts(ShapeString(|src.rows|, |src.columns|), ShapeString(|tgt.rows|, |tgt.columns|), pk, u1, u2, shared);
  }

  /** The counts and the status of a successful run of the findings, in terms of key tuples. */
  lemma {:induction false} FindingsCounts(sourceShape: string, targetShape: string, pk: seq<string>,
                                          u1: Table, u2: Table, shared: (Table, Table))
    requires DistinctKeys(u1.rows, RowKey(u1.columns, pk)) && DistinctKeys(u2.rows, RowKey(u2.columns, pk))
    requires Findings(sourceShape, targetShape, pk, u1, u2, shared).Ok?
    ensures var r := Findings(sourceShape, targetShape, pk, u1, u2, shared).value;
      && r.overview.productTested == ProductTested
      && r.overview.sourceShape == sourceShape && r.overview.targetShape == targetShape
      && r.overview.extraRowsInSource == |KeyTuples(u1, pk) - KeyTuples(u2, pk)|
      && r.overview.extraRowsInTarget == |KeyTuples(u2, pk) - KeyTuples(u1, pk)|
      && shared.0.columns == shared.1.columns && Labels(shared.0) == Labels(shared.1)
      && r.overview.mismatchedRecords == |LabelledDifferences(shared.0, shared.1)|
      && (r.overview.status == "Passed" <==>
            KeyTuples(u1, pk) == KeyTuples(u2, pk) && LabelledDifferences(shared.0, shared.1) == [])
  {
    var es, et := ExtraRows(u1, u2, pk).value, ExtraRows(u2, u1, pk).value;
    var ds := LabelledDifferences(shared.0, shared.1);
    assert Findings(sourceShape, targetShape, pk, u1, u2, shared) == Ok(Summary(sourceShape, targetShape, pk, es, et, ds));
    SummarySpec(sourceShape, targetShape, pk, es, et, ds);
    ExtraRowsCount(u1, u2, pk);
    ExtraRowsCount(u2, u1, pk);
    SetDifferencesEmpty(KeyTuples(u1, pk), KeyTuples(u2, pk));
  }

  /**
   * The run raises `NotIdenticallyLabelled` exactly when preparation succeeds
   * and the two sorted sets of shared rows differ in header or in labels;
   * preparation itself never raises it.
   */
  lemma {:induction false} DatabricksRunLabelError(src: Table, tgt: Table, primaryKey: seq<string>)
    ensures var pk := LowerKeys(primaryKey);
      DatabricksRun(src, tgt, primaryKey) == Err(NotIdenticallyLabelled) <==>
        && DbPrepared(src, tgt, pk).Ok?
        && var (u1, u2) := DbPrepared(src, tgt, pk).value;
        && var (s1, s2) := (SharedRows(u1, u2, pk), SharedRows(u2, u1, pk));
        && (s1.columns != s2.columns || Labels(s1) != Labels(s2))
  {
    var pk := LowerKeys(primaryKey);
    if DbPrepared(src, tgt, pk).Ok? {
      DbPreparedHasKeys(src, tgt, pk);
      var (u1, u2) := DbPrepared(src, tgt, pk).value;
      ExtraRowsSpec(u1, u2, pk);
      ExtraRowsSpec(u2, u1, pk);
    } else {
      DbPreparedErrors(src, tgt, pk);
    }
  }

  // ------------------------------------------------------------------
  // Shared rows compared by position
  // ------------------------------------------------------------------

  /** Both sorted sets of shared rows, relabelled 0..n-1 as `find_common_rows` of the library does. */
  function AlignedShared(u1: Table, u2: Table, pk: seq<string>): (Table, Table) {
    (WithIndexReset(SharedRows(u1, u2, pk)), WithIndexReset(SharedRows(u2, u1, pk)))
  }

  /** The notebook with `reset_index(drop=True)` on the shared rows before `compare`. */
  function DatabricksRunAligned(src: Table, tgt: Table, primaryKey: seq<string>): Result<DbReport> {
    var sourceShape := ShapeString(|src.rows|, |src.columns|);
    var targetShape := ShapeString(|tgt.rows|, |tgt.columns|);
    var pk := LowerKeys(primaryKey);
    var u :- DbPrepared(src, tgt, pk);
    Findings(sourceShape, targetShape, pk, u.0, u.1, AlignedShared(u.0, u.1, pk))
  }

  /** The shared rows of a well-formed table are well formed. */
  lemma {:induction false} SharedRowsWellFormed(t: Table, other: Table, pk: seq<string>)
    requires WellFormed(t)
    ensures WellFormed(SharedRows(t, other, pk)) && SharedRows(t, other, pk).columns == t.columns
  {
    var f := Filter(t.rows, KeyedIn(t.columns, pk, KeyTuples(other, pk)));
    var s := SharedRows(t, other, pk);
    KeptRowsWellFormed(t, f);
    forall i | 0 <= i < |s.rows| ensures |s.rows[i].cells| == |t.columns| {
      assert s.rows[i] in multiset(f);
    }
  }

  /**
   * The rows of `t` split into the extra rows, whose key tuple `other` lacks,
   * and the shared rows, whose key tuple it has: together they are exactly
   * the rows of `t`, and no key tuple falls on both sides.
   */
  lemma {:induction false} ExtraSharedPartition(t: Table, other: Table, pk: seq<string>)
    requires ExtraRows(t, other, pk).Ok?
    ensures multiset(ExtraRows(t, other, pk).value.rows) + multiset(SharedRows(t, other, pk).rows) == multiset(t.rows)
    ensures KeyTuples(ExtraRows(t, other, pk).value, pk) !! KeyTuples(SharedRows(t, other, pk), pk)
    ensures KeyTuples(ExtraRows(t, other, pk).value, pk) + KeyTuples(SharedRows(t, other, pk), pk) == KeyTuples(t, pk)
  {
    var keys := KeyTuples(other, pk);
    var key := RowKey(t.columns, pk);
    var kept := Filter(t.rows, KeyedIn(t.columns, pk, keys));
    FilterPartition(t.rows, NotKeyedIn(t.columns, pk, keys), KeyedIn(t.columns, pk, keys));
    PermutationKeySet(SharedRows(t, other, pk).rows, kept, key);
    ExtraRowsKeys(t, other, pk);
    SharedKeys(t, kept, key, keys, pk);
  }

  /** The rows of `t` kept because their key tuple is in `keys` carry exactly the key tuples of `t` in `keys`. */
  lemma {:induction false} SharedKeys(t: Table, kept: seq<Row>, key: Row -> seq<string>, keys: set<seq<string>>, pk: seq<string>)
    requires key == RowKey(t.columns, pk) && kept == Filter(t.rows, KeyedIn(t.columns, pk, keys))
    ensures KeySet(kept, key) == KeyTuples(t, pk) * keys
  {
    forall k | k in KeyTuples(t, pk) * keys ensures k in KeySet(kept, key) {
      var x :| x in t.rows && key(x) == k;
      var i :| 0 <= i < |t.rows| && t.rows[i] == x;
      assert x in kept;
    }
  }

  /**
   * On one header and distinct key tuples per side, the two sorted sets of
   * shared rows list the same key tuples in the same order.
   */
  lemma {:induction false} SharedRowsMatch(u1: Table, u2: Table, pk: seq<string>)
    requires u1.columns == u2.columns
    requires DistinctKeys(u1.rows, RowKey(u1.columns, pk)) && DistinctKeys(u2.rows, RowKey(u2.columns, pk))
    ensures KeySeq(SharedRows(u1, u2, pk).rows, RowKey(u1.columns, pk))
         == KeySeq(SharedRows(u2, u1, pk).rows, RowKey(u1.columns, pk))
    ensures |SharedRows(u1, u2, pk).rows| == |SharedRows(u2, u1, pk).rows|
  {
    var key := RowKey(u1.columns, pk);
    SortedFilteredKeys(u1, KeyTuples(u2, pk), pk);
    SortedFilteredKeys(u2, KeyTuples(u1, pk), pk);
    TupleLtIsStrictTotalOrder();
    IncreasingUnique(KeySeq(SharedRows(u1, u2, pk).rows, key), KeySeq(SharedRows(u2, u1, pk).rows, key), TupleLt);
  }

  /**
   * With the shared rows relabelled, the run fails only where preparation
   * fails or the canonical headers differ (then with `NotIdenticallyLabelled`);
   * it reports the same counts as the notebook, its mismatches are the
   * library's aligned comparison, and it passes exactly when both sides have
   * the same key tuples and their shared rows agree cell for cell.
   */
  lemma {:induction false} DatabricksRunAlignedSpec(src: Table, tgt: Table, primaryKey: seq<string>)
    requires WellFormed(src) && WellFormed(tgt)
    ensures var pk := LowerKeys(primaryKey);
      DatabricksRunAligned(src, tgt, primaryKey).Ok? <==>
        DbPrepared(src, tgt, pk).Ok? && DbPrepared(src, tgt, pk).value.0.columns == DbPrepared(src, tgt, pk).value.1.columns
    ensures var pk := LowerKeys(primaryKey);
      DbPrepared(src, tgt, pk).Ok? && DatabricksRunAligned(src, tgt, primaryKey).Err? ==>
        DatabricksRunAligned(src, tgt, primaryKey).error == NotIdenticallyLabelled
    ensures var pk := LowerKeys(primaryKey);
      DatabricksRunAligned(src, tgt, primaryKey).Ok? ==>
        && var (u1, u2) := DbPrepared(src, tgt, pk).value;
        && var (a, b) := AlignedShared(u1, u2, pk);
        && var r := DatabricksRunAligned(src, tgt, primaryKey).value;
        && a.columns == b.columns && HasRangeIndex(a) && HasRangeIndex(b)
        && r.overview.extraRowsInSource == |KeyTuples(u1, pk) - KeyTuples(u2, pk)|
        && r.overview.extraRowsInTarget == |KeyTuples(u2, pk) - KeyTuples(u1, pk)|
        && r.overview.mismatchedRecords == |CompareCommonRows(a, b)|
        && (r.overview.status == "Passed" <==>
              KeyTuples(u1, pk) == KeyTuples(u2, pk) && (|a.columns| == 0 || a.rows == b.rows))
  {
    var pk := LowerKeys(primaryKey);
    DbPreparedSpec(src, tgt, pk);
    if DbPrepared(src, tgt, pk).Ok? {
      var (u1, u2) := DbPrepared(src, tgt, pk).value;
      var ss, ts := ShapeString(|src.rows|, |src.columns|), ShapeString(|tgt.rows|, |tgt.columns|);
      var (a, b) := AlignedShared(u1, u2, pk);
      assert DatabricksRunAligned(src, tgt, primaryKey) == Findings(ss, ts, pk, u1, u2, (a, b));
      DbPreparedHasKeys(src, tgt, pk);
      ExtraRowsSpec(u1, u2, pk);
      ExtraRowsSpec(u2, u1, pk);
      SharedRowsWellFormed(u1, u2, pk);
      SharedRowsWellFormed(u2, u1, pk);
      if u1.columns == u2.columns {
        SharedRowsMatch(u1, u2, pk);
        assert Labels(a) == Labels(b);
        AlignedFindings(ss, ts, pk, u1, u2);
      }
    }
  }

  /** The findings on relabelled shared rows, for two prepared sides with one header. */
  lemma {:induction false} AlignedFindings(sourceShape: string, targetShape: string, pk: seq<string>, u1: Table, u2: Table)
    requires WellFormed(u1) && WellFormed(u2) && u1.columns == u2.columns
    requires DistinctKeys(u1.rows, RowKey(u1.columns, pk)) && DistinctKeys(u2.rows, RowKey(u2.columns, pk))
    requires Findings(sourceShape, targetShape, pk, u1, u2, AlignedShared(u1, u2, pk)).Ok?
    ensures var (a, b) := AlignedShared(u1, u2, pk);
      && var r := Findings(sourceShape, targetShape, pk, u1, u2, (a, b)).value;
      && a.columns == b.columns && HasRangeIndex(a) && HasRangeIndex(b)
      && r.overview.extraRowsInSource == |KeyTuples(u1, pk) - KeyTuples(u2, pk)|
      && r.overview.extraRowsInTarget == |KeyTuples(u2, pk) - KeyTuples(u1, pk)|
      && r.overview.mismatchedRecords == |CompareCommonRows(a, b)|
      && (r.overview.status == "Passed" <==>
            KeyTuples(u1, pk) == KeyTuples(u2, pk) && (|a.columns| == 0 || a.rows == b.rows))
  {
    var (a, b) := AlignedShared(u1, u2, pk);
    FindingsCounts(sourceShape, targetShape, pk, u1, u2, (a, b));
    AlignedSharedFacts(u1, u2, pk);
    LabelledDifferencesOfRangeIndex(a, b);
    CompareEmptyIff(a, b);
  }

  /** The relabelled shared rows are well formed, with one header, labels 0..n-1 and as many rows on each side. */
  lemma {:induction false} AlignedSharedFacts(u1: Table, u2: Table, pk: seq<string>)
    requires WellFormed(u1) && WellFormed(u2) && u1.columns == u2.columns
    requires DistinctKeys(u1.rows, RowKey(u1.columns, pk)) && DistinctKeys(u2.rows, RowKey(u2.columns, pk))
    ensures var (a, b) := AlignedShared(u1, u2, pk);
      && WellFormed(a) && WellFormed(b) && a.columns == b.columns
      && HasRangeIndex(a) && HasRangeIndex(b) && |a.rows| == |b.rows|
  {
    SharedRowsWellFormed(u1, u2, pk);
    SharedRowsWellFormed(u2, u1, pk);
    SharedRowsMatch(u1, u2, pk);
  }

  // ------------------------------------------------------------------
  // A run the notebook cannot complete
  // ------------------------------------------------------------------

  /**
   * One clean header `c`; the source holds the value `v1` only, the target
   * `v0` and then `v1` (for instance `id`, with `1` against `0` and `1`).
   */
  predicate ShiftedExample(src: Table, tgt: Table, c: string, v0: string, v1: string) {
    && CleanLabel(c) && Trimmed(v0) && Trimmed(v1) && v0 != v1
    && src == Table([c], [Row(0, [v1])])
    && tgt == Table([c], [Row(0, [v0]), Row(1, [v1])])
  }

  /** A label that stripping and lower-casing leave as it is. */
  predicate CleanLabel(c: string) {
    Trimmed(c) && forall i :: 0 <= i < |c| ==> !IsUpper(c[i])
  }

  lemma {:induction false} CleanLabelNormalised(c: string)
    requires CleanLabel(c)
    ensures NormaliseName(c) == c && Lower(c) == c
  {
    StripOfTrimmed(c);
    LowerOfNoUpper(c);
  }

  /** The example with header `id` and values `0` and `1`. */
  lemma ShiftedIdExample()
    ensures ShiftedExample(Table(["id"], [Row(0, ["1"])]), Table(["id"], [Row(0, ["0"]), Row(1, ["1"])]), "id", "0", "1")
  {
  }

  /** Both example tables are already clean, so preparation returns them unchanged. */
  lemma {:induction false} ShiftedExamplePrepared(src: Table, tgt: Table, c: string, v0: string, v1: string)
    requires ShiftedExample(src, tgt, c, v0, v1)
    ensures LowerKeys([c]) == [c]
    ensures DbPrepared(src, tgt, [c]) == Ok((src, tgt))
    ensures KeyTuples(src, [c]) == {[v1]} && KeyTuples(tgt, [c]) == {[v0], [v1]}
  {
    CleanLabelNormalised(c);
    assert LowerKeys([c]) == [c];
    ShiftedTablesClean(src, tgt, c, v0, v1);
    CleanPairPrepared(src, tgt, c);
    ShiftedKeyTuples(src, tgt, c, v0, v1);
  }

  lemma {:induction false} ShiftedTablesClean(src: Table, tgt: Table, c: string, v0: string, v1: string)
    requires ShiftedExample(src, tgt, c, v0, v1)
    ensures CleanOneColumnTable(src, c) && CleanOneColumnTable(tgt, c)
  {
  }

  lemma {:induction false} ShiftedKeyTuples(src: Table, tgt: Table, c: string, v0: string, v1: string)
    requires ShiftedExample(src, tgt, c, v0, v1)
    ensures KeyTuples(src, [c]) == {[v1]} && KeyTuples(tgt, [c]) == {[v0], [v1]}
  {
    OneColumnKeyTuples(src, c);
    OneColumnKeyTuples(tgt, c);
    var one := set i | 0 <= i < |src.rows| :: [src.rows[i].cells[0]];
    assert [src.rows[0].cells[0]] in one;
    assert one == {[v1]};
    var both := set i | 0 <= i < |tgt.rows| :: [tgt.rows[i].cells[0]];
    assert [tgt.rows[0].cells[0]] in both && [tgt.rows[1].cells[0]] in both;
    assert both == {[v0], [v1]};
  }

  /**
   * A one-column table under a clean header, labelled 0..n-1, with distinct
   * trimmed values.
   */
  predicate CleanOneColumnTable(t: Table, c: string) {
    && t.columns == [c] && CleanLabel(c) && WellFormed(t) && HasRangeIndex(t)
    && (forall i :: 0 <= i < |t.rows| ==> Trimmed(t.rows[i].cells[0]))
    && (forall i, j :: 0 <= i < j < |t.rows| ==> t.rows[i].cells[0] != t.rows[j].cells[0])
  }

  /** Two such tables under the same header come through preparation as they are. */
  lemma {:induction false} CleanPairPrepared(t1: Table, t2: Table, c: string)
    requires CleanOneColumnTable(t1, c) && CleanOneColumnTable(t2, c)
    ensures DbPrepared(t1, t2, [c]) == Ok((t1, t2))
  {
    CleanOneColumn(t1, c);
    CleanOneColumn(t2, c);
    assert FirstMissingFromEither([c], [c], [c]) == None;
    assert StripKeysBoth(t1, t2, [c]) == Ok((t1, t2));
  }

  /**
   * A one-column table under a clean header, labelled 0..n-1, with distinct
   * trimmed values, comes through preparation as it is.
   */
  lemma {:induction false} CleanOneColumn(t: Table, c: string)
    requires t.columns == [c] && CleanLabel(c) && WellFormed(t) && HasRangeIndex(t)
    requires forall i :: 0 <= i < |t.rows| ==> Trimmed(t.rows[i].cells[0])
    requires forall i, j :: 0 <= i < j < |t.rows| ==> t.rows[i].cells[0] != t.rows[j].cells[0]
    ensures Standardize(WithIndexReset(t)) == Ok(t)
    ensures WithColumnsStripped(t, [c]) == t
    ensures DeduplicatedOn(t, [c]) == t
  {
    OneColumnStandard(t, c);
    OneColumnStripped(t, c);
    OneColumnDeduplicated(t, c);
  }

  lemma {:induction false} OneColumnStandard(t: Table, c: string)
    requires t.columns == [c] && CleanLabel(c) && WellFormed(t) && HasRangeIndex(t)
    requires forall i, j :: 0 <= i < j < |t.rows| ==> t.rows[i].cells[0] != t.rows[j].cells[0]
    ensures Standardize(WithIndexReset(t)) == Ok(t)
  {
    CleanLabelNormalised(c);
    assert WithIndexReset(t).rows == t.rows;
    forall i, j | 0 <= i < j < |t.rows| ensures Cells(t.rows[i]) != Cells(t.rows[j]) {
      assert Cells(t.rows[i])[0] != Cells(t.rows[j])[0];
    }
    StandardizeCanonical(t);
  }

  lemma {:induction false} OneColumnStripped(t: Table, c: string)
    requires t.columns == [c] && WellFormed(t)
    requires forall i :: 0 <= i < |t.rows| ==> Trimmed(t.rows[i].cells[0])
    ensures WithColumnsStripped(t, [c]) == t
  {
    assert [c][1..] == [];
    assert WithColumnsStripped(t, [c]) == WithColumnStripped(t, c);
    assert ColumnIndex(t.columns, c) == 0;
    forall i | 0 <= i < |t.rows| ensures StripAt(t.rows[i].cells, 0) == t.rows[i].cells {
      StripOfTrimmed(t.rows[i].cells[0]);
    }
    assert WithColumnStripped(t, c).rows == t.rows;
  }

  lemma {:induction false} OneColumnDeduplicated(t: Table, c: string)
    requires t.columns == [c] && WellFormed(t)
    requires forall i, j :: 0 <= i < j < |t.rows| ==> t.rows[i].cells[0] != t.rows[j].cells[0]
    ensures DeduplicatedOn(t, [c]) == t
  {
    var key := RowKey([c], [c]);
    forall i, j | 0 <= i < j < |t.rows| ensures key(t.rows[i]) != key(t.rows[j]) {
      assert key(t.rows[i])[0] == t.rows[i].cells[0];
      assert key(t.rows[j])[0] == t.rows[j].cells[0];
    }
    DistinctByOfDistinct(t.rows, key);
  }

  /** Under one header `c`, a row's key tuple is its one value. */
  lemma {:induction false} OneColumnKeyTuples(t: Table, c: string)
    requires t.columns == [c] && WellFormed(t)
    ensures KeyTuples(t, [c]) == set i | 0 <= i < |t.rows| :: [t.rows[i].cells[0]]
  {
    var key := RowKey([c], [c]);
    forall x | x in t.rows ensures key(x) == [x.cells[0]] {
      assert key(x)[0] == x.cells[0];
    }
  }

  /**
   * On the example, both sides prepare with one header, yet after sorting the
   * shared row carries label 0 in the source and label 1 in the target, so
   * `compare` raises and the notebook writes no report.
   */
  lemma {:induction false} ShiftedLabelsRaise(src: Table, tgt: Table, c: string, v0: string, v1: string)
    requires ShiftedExample(src, tgt, c, v0, v1)
    ensures DbPrepared(src, tgt, [c]).Ok?
    ensures DbPrepared(src, tgt, [c]).value.0.columns == DbPrepared(src, tgt, [c]).value.1.columns
    ensures DatabricksRun(src, tgt, [c]) == Err(NotIdenticallyLabelled)
  {
    ShiftedExamplePrepared(src, tgt, c, v0, v1);
    ShiftedSharedRows(src, tgt, c, v0, v1);
    var s1, s2 := SharedRows(src, tgt, [c]), SharedRows(tgt, src, [c]);
    assert Labels(s1)[0] != Labels(s2)[0];
    DatabricksRunLabelError(src, tgt, [c]);
  }

  /** The sorted shared rows of the example: the source row labelled 0, the target row labelled 1. */
  lemma {:induction false} ShiftedSharedRows(src: Table, tgt: Table, c: string, v0: string, v1: string)
    requires ShiftedExample(src, tgt, c, v0, v1)
    ensures SharedRows(src, tgt, [c]).rows == [Row(0, [v1])]
    ensures SharedRows(tgt, src, [c]).rows == [Row(1, [v1])]
  {
    ShiftedKeyTuples(src, tgt, c, v0, v1);
    var p1 := KeyedIn([c], [c], {[v0], [v1]});
    var p2 := KeyedIn([c], [c], {[v1]});
    OneColumnKey(c, v0);
    OneColumnKey(c, v1);
    FilterOne(Row(0, [v1]), p1);
    FilterSecond(Row(0, [v0]), Row(1, [v1]), p2);
    SortOne([Row(0, [v1])], RowKey([c], [c]), TupleLt);
    SortOne([Row(1, [v1])], RowKey([c], [c]), TupleLt);
  }

  lemma {:induction false} OneColumnKey(c: string, v: string)
    ensures KeyOf([c], [v], [c]) == [v]
  {
    assert KeyOf([c], [v], [c])[0] == v;
  }

  lemma {:induction false} FilterOne<T>(x: T, p: T -> bool)
    requires p(x)
    ensures Filter([x], p) == [x]
  {
    assert [x][..0] == [];
  }

  lemma {:induction false} FilterSecond<T>(x: T, y: T, p: T -> bool)
    requires !p(x) && p(y)
    ensures Filter([x, y], p) == [y]
  {
    assert [x, y][..1] == [x] && [x][..0] == [];
  }

  lemma {:induction false} SortOne<T, K(!new)>(s: seq<T>, key: T -> K, lt: (K, K) -> bool)
    requires |s| == 1
    ensures SortBy(s, key, lt) == s
  {
    var r := SortBy(s, key, lt);
    assert r[0] in multiset(s);
  }

  /**
   * With the shared rows relabelled, the same input yields a report: it fails
   * on one extra row in the target and no other finding.
   */
  lemma {:induction false} ShiftedLabelsReported(src: Table, tgt: Table, c: string, v0: string, v1: string)
    requires ShiftedExample(src, tgt, c, v0, v1)
    ensures DatabricksRunAligned(src, tgt, [c]).Ok?
    ensures var o := DatabricksRunAligned(src, tgt, [c]).value.overview;
      o.status == "Failed" && o.extraRowsInSource == 0 && o.extraRowsInTarget == 1 && o.mismatchedRecords == 0
  {
    ShiftedTablesClean(src, tgt, c, v0, v1);
    ShiftedExamplePrepared(src, tgt, c, v0, v1);
    ShiftedAligned(src, tgt, c, v0, v1);
    AlignedReportOnEqualShared(src, tgt, [c]);
    ShiftedKeyDifferences(src, tgt, c, v0, v1);
  }

  lemma {:induction false} ShiftedKeyDifferences(src: Table, tgt: Table, c: string, v0: string, v1: string)
    requires ShiftedExample(src, tgt, c, v0, v1)
    ensures |KeyTuples(src, [c]) - KeyTuples(tgt, [c])| == 0
    ensures |KeyTuples(tgt, [c]) - KeyTuples(src, [c])| == 1
    ensures KeyTuples(src, [c]) != KeyTuples(tgt, [c])
  {
    ShiftedKeyTuples(src, tgt, c, v0, v1);
    assert KeyTuples(src, [c]) - KeyTuples(tgt, [c]) == {};
    assert KeyTuples(tgt, [c]) - KeyTuples(src, [c]) == {[v0]};
  }

  /**
   * When preparation succeeds with one header and the relabelled shared rows
   * coincide, the corrected run reports the key differences and nothing else.
   */
  lemma {:induction false} AlignedReportOnEqualShared(src: Table, tgt: Table, pk: seq<string>)
    requires WellFormed(src) && WellFormed(tgt) && LowerKeys(pk) == pk
    requires DbPrepared(src, tgt, pk).Ok?
    requires DbPrepared(src, tgt, pk).value.0.columns == DbPrepared(src, tgt, pk).value.1.columns
    requires var (u1, u2) := DbPrepared(src, tgt, pk).value;
      AlignedShared(u1, u2, pk).0 == AlignedShared(u1, u2, pk).1 && WellFormed(AlignedShared(u1, u2, pk).0)
    ensures DatabricksRunAligned(src, tgt, pk).Ok?
    ensures var (u1, u2) := DbPrepared(src, tgt, pk).value;
      var o := DatabricksRunAligned(src, tgt, pk).value.overview;
      && o.extraRowsInSource == |KeyTuples(u1, pk) - KeyTuples(u2, pk)|
      && o.extraRowsInTarget == |KeyTuples(u2, pk) - KeyTuples(u1, pk)|
      && o.mismatchedRecords == 0
      && (o.status == "Passed" <==> KeyTuples(u1, pk) == KeyTuples(u2, pk))
      && (o.status == "Failed" <==> KeyTuples(u1, pk) != KeyTuples(u2, pk))
  {
    DatabricksRunAlignedSpec(src, tgt, pk);
    var (u1, u2) := DbPrepared(src, tgt, pk).value;
    CompareSelfEmpty(AlignedShared(u1, u2, pk).0);
    var ss, ts := ShapeString(|src.rows|, |src.columns|), ShapeString(|tgt.rows|, |tgt.columns|);
    assert DatabricksRunAligned(src, tgt, pk) == Findings(ss, ts, pk, u1, u2, AlignedShared(u1, u2, pk));
    FindingsStatus(ss, ts, pk, u1, u2, AlignedShared(u1, u2, pk));
  }

  /** A report's status is one of the two words. */
  lemma {:induction false} FindingsStatus(sourceShape: string, targetShape: string, pk: seq<string>,
                                          u1: Table, u2: Table, shared: (Table, Table))
    ensures Findings(sourceShape, targetShape, pk, u1, u2, shared).Ok? ==>
      var status := Findings(sourceShape, targetShape, pk, u1, u2, shared).value.overview.status;
      status == "Passed" || status == "Failed"
  {
  }

  /** Relabelled, the two shared rows of the example are the same one-row table. */
  lemma {:induction false} ShiftedAligned(src: Table, tgt: Table, c: string, v0: string, v1: string)
    requires ShiftedExample(src, tgt, c, v0, v1)
    ensures AlignedShared(src, tgt, [c]).0 == AlignedShared(src, tgt, [c]).1
    ensures WellFormed(AlignedShared(src, tgt, [c]).0)
  {
    ShiftedSharedRows(src, tgt, c, v0, v1);
    assert AlignedShared(src, tgt, [c]).0 == Table([c], [Row(0, [v1])]);
    assert AlignedShared(src, tgt, [c]).1 == Table([c], [Row(0, [v1])]);
  }

  /** A table compared with itself has no differences. */
  lemma {:induction false} CompareSelfEmpty(a: Table)
    requires WellFormed(a) && HasRangeIndex(a)
    ensures CompareCommonRows(a, a) == []
  {
    CompareEmptyIff(a, a);
  }
}

=== FILE: employee_etl.dfy ===
/**
 * The per-row derivation rules of the employee ETL test
 * (Test/test_employee_etl_csv_sql.py): the department lookup, the current
 * employee flag, promotion eligibility, the digits of the salary, the salary
 * currency and the action items, and the frame the test builds by assigning
 * those columns one after another.
 *
 * A record holds the columns the rules read, as pandas holds them once the
 * dates are parsed: a missing value (`NaN`, `NaT`) is `None`, scores and
 * years are whole numbers and dates are day numbers.
 */
module EmployeeEtl {
  import opened Results
  import opened Order
  import opened Text

  datatype Employee = Employee(
    department: Option<string>,
    employmentStatus: Option<string>,
    performanceScore: Option<int>,
    experienceYears: Option<int>,
    salary: Option<string>,
    joinDate: Option<int>,
    leaveDate: Option<int>)

  /** The test's key column. */
  const PrimaryKey: seq<string> := ["employee_id"]

  // ------------------------------------------------------------------
  // Department: Series.map(dept_map)
  // ------------------------------------------------------------------

  /** The sixteen spellings the test recognises and the name each stands for. */
  const DeptMap: map<string, string> := map[
    "Market Dept" := "Marketing",
    "Marketing" := "Marketing",
    "MKT" := "Marketing",
    "Hr Dept" := "Human Resources",
    "HR" := "Human Resources",
    "Human Resources" := "Human Resources",
    "H.R." := "Human Resources",
    "IT" := "Information Technology",
    "I.T." := "Information Technology",
    "Information Technology" := "Information Technology",
    "OPR" := "Operations",
    "Ops" := "Operations",
    "Operations" := "Operations",
    "FIN" := "Finance",
    "Finance Dept" := "Finance",
    "Finance" := "Finance"]

  const CanonicalDepartments: set<string> :=
    {"Marketing", "Human Resources", "Information Technology", "Operations", "Finance"}

  /** `map` with a dict: a listed spelling becomes its name, anything else (and `NaN`) is missing. */
  function NormaliseDepartment(d: Option<string>): (r: Option<string>)
    ensures r.Some? ==> r.value in CanonicalDepartments
  {
    match d
    case None => None
    case Some(v) => if v in DeptMap then Some(DeptMap[v]) else None
  }

  /** The lookup table has sixteen keys and maps them onto exactly the five names. */
  lemma DeptMapShape()
    ensures |DeptMap| == 16
    ensures DeptMap.Values == CanonicalDepartments && |CanonicalDepartments| == 5
  {
    DeptMapSize();
    DeptMapValues();
  }

  /** The spellings the table maps onto `name`. */
  function Spellings(name: string): set<string> {
    set k | k in DeptMap && DeptMap[k] == name
  }

  /** Three spellings for marketing, four for human resources and three for each of the others. */
  lemma DeptMapSize()
    ensures |DeptMap| == 16
  {
    SpellingCounts();
    KeysBySpelling();
    var m, h, i, o, f := Spellings("Marketing"), Spellings("Human Resources"),
      Spellings("Information Technology"), Spellings("Operations"), Spellings("Finance");
    SpellingsDisjoint("Marketing", "Human Resources");
    SpellingsDisjoint("Marketing", "Information Technology");
    SpellingsDisjoint("Marketing", "Operations");
    SpellingsDisjoint("Marketing", "Finance");
    SpellingsDisjoint("Human Resources", "Information Technology");
    SpellingsDisjoint("Human Resources", "Operations");
    SpellingsDisjoint("Human Resources", "Finance");
    SpellingsDisjoint("Information Technology", "Operations");
    SpellingsDisjoint("Information Technology", "Finance");
    SpellingsDisjoint("Operations", "Finance");
    CardOfPartition(DeptMap, m, h, i, o, f);
  }

  lemma SpellingsDisjoint(a: string, b: string)
    requires a != b
    ensures Spellings(a) !! Spellings(b)
  {
  }

  lemma CardOfPartition(d: map<string, string>, a: set<string>, b: set<string>, c: set<string>,
                        e: set<string>, f: set<string>)
    requires d.Keys == a + b + c + e + f
    requires a !! b && a !! c && a !! e && a !! f && b !! c && b !! e && b !! f && c !! e && c !! f && e !! f
    ensures |d| == |a| + |b| + |c| + |e| + |f|
  {
    DisjointUnionCard(a, b);
    DisjointUnionCard(a + b, c);
    DisjointUnionCard(a + b + c, e);
    DisjointUnionCard(a + b + c + e, f);
  }

  /** Every key spells one of the five names. */
  lemma KeysBySpelling()
    ensures DeptMap.Keys == Spellings("Marketing") + Spellings("Human Resources")
      + Spellings("Information Technology") + Spellings("Operations") + Spellings("Finance")
  {
    forall k | k in DeptMap
      ensures k in Spellings(DeptMap[k]) && DeptMap[k] in CanonicalDepartments
    {
      assert NormaliseDepartment(Some(k)) == Some(DeptMap[k]);
    }
  }

  lemma SpellingCounts()
    ensures |Spellings("Marketing")| == 3 && |Spellings("Human Resources")| == 4
    ensures |Spellings("Information Technology")| == 3 && |Spellings("Operations")| == 3
    ensures |Spellings("Finance")| == 3
  {
    MarketingSpellings();
    HumanResourcesSpellings();
    InformationTechnologySpellings();
    OperationsSpellings();
    FinanceSpellings();
  }

  lemma DisjointUnionCard(a: set<string>, b: set<string>)
    requires a !! b
    ensures |a + b| == |a| + |b|
  {
    assert a * b == {};
  }

  lemma MarketingSpellings()
    ensures Spellings("Marketing") == {"Market Dept", "Marketing", "MKT"}
    ensures |Spellings("Marketing")| == 3
  {
  }

  lemma HumanResourcesSpellings()
    ensures Spellings("Human Resources") == {"Hr Dept", "HR", "Human Resources", "H.R."}
    ensures |Spellings("Human Resources")| == 4
  {
  }

  lemma InformationTechnologySpellings()
    ensures Spellings("Information Technology") == {"IT", "I.T.", "Information Technology"}
    ensures |Spellings("Information Technology")| == 3
  {
  }

  lemma OperationsSpellings()
    ensures Spellings("Operations") == {"OPR", "Ops", "Operations"}
    ensures |Spellings("Operations")| == 3
  {
  }

  lemma FinanceSpellings()
    ensures Spellings("Finance") == {"FIN", "Finance Dept", "Finance"}
    ensures |Spellings("Finance")| == 3
  {
  }

  lemma DeptMapValues()
    ensures DeptMap.Values == CanonicalDepartments && |CanonicalDepartments| == 5
  {
    assert DeptMap["Marketing"] == "Marketing" && DeptMap["HR"] == "Human Resources";
    assert DeptMap["IT"] == "Information Technology" && DeptMap["Ops"] == "Operations";
    assert DeptMap["FIN"] == "Finance";
  }

  /**
   * A value is recognised only when it is one of the listed spellings, letter
   * for letter: nothing is trimmed or case-folded, and anything else is lost.
   */
  lemma {:induction false} NormaliseDepartmentExact(v: string)
    ensures NormaliseDepartment(Some(v)).Some? <==> v in DeptMap.Keys
    ensures NormaliseDepartment(None) == None
    ensures NormaliseDepartment(Some("hr")) == None && NormaliseDepartment(Some("Finance ")) == None
  {
    assert "hr" !in DeptMap.Keys by {
      assert "hr" != "HR" && "hr" != "H.R." && "hr" != "Hr Dept";
    }
    assert "Finance " !in DeptMap.Keys;
  }

  /** Each canonical name is listed and maps onto itself, so the lookup is idempotent. */
  lemma {:induction false} NormaliseDepartmentIdempotent(d: Option<string>)
    ensures NormaliseDepartment(NormaliseDepartment(d)) == NormaliseDepartment(d)
    ensures forall v :: v in CanonicalDepartments ==> NormaliseDepartment(Some(v)) == Some(v)
  {
    CanonicalFixed();
  }

  lemma CanonicalFixed()
    ensures forall v :: v in CanonicalDepartments ==> v in DeptMap && DeptMap[v] == v
  {
  }

  // ------------------------------------------------------------------
  // Current_Employee_Flag and Promotion_Eligibility
  // ------------------------------------------------------------------

  /** `Employment_Status == 'Active'`; a missing status is not active. */
  predicate IsActive(status: Option<string>) {
    status == Some("Active")
  }

  function CurrentEmployeeFlag(status: Option<string>): (r: string)
    ensures r == "1" || r == "0"
  {
    if IsActive(status) then "1" else "0"
  }

  /** A comparison with a missing number is false, as with `NaN` in pandas. */
  predicate AtLeast(x: Option<int>, bound: int) {
    x.Some? && x.value >= bound
  }

  function PromotionEligibility(e: Employee): (r: string)
    ensures r == "Eligible" || r == "Not Eligible"
  {
    if IsActive(e.employmentStatus) && AtLeast(e.performanceScore, 80) && AtLeast(e.experienceYears, 3)
    then "Eligible" else "Not Eligible"
  }

  /**
   * Eligibility needs an active status, a score of at least 80 and at least
   * three years; an eligible employee carries the flag `1`, and raising the
   * score or the years keeps an employee eligible.
   */
  lemma {:induction false} PromotionEligibilitySpec(e: Employee, score: int, years: int)
    ensures PromotionEligibility(e) == "Eligible" <==>
      e.employmentStatus == Some("Active") && e.performanceScore.Some? && e.performanceScore.value >= 80
      && e.experienceYears.Some? && e.experienceYears.value >= 3
    ensures PromotionEligibility(e) == "Eligible" ==> CurrentEmployeeFlag(e.employmentStatus) == "1"
    ensures PromotionEligibility(e) == "Eligible" && e.performanceScore.value <= score && e.experienceYears.value <= years ==>
      PromotionEligibility(e.(performanceScore := Some(score), experienceYears := Some(years))) == "Eligible"
    ensures e.performanceScore.None? || e.experienceYears.None? ==> PromotionEligibility(e) == "Not Eligible"
  {
  }

  // ------------------------------------------------------------------
  // Salary_Numeric: astype(str).str.replace(r'\D', '', regex=True)
  // ------------------------------------------------------------------

  /** `astype(str)` of the salary; a missing salary reads `nan`. */
  function SalaryText(salary: Option<string>): string {
    match salary
    case None => "nan"
    case Some(s) => s
  }

  /** Every character that is not a digit removed; the digits stay in their order. */
  function DigitsOnly(s: string): (r: string)
    ensures forall i :: 0 <= i < |r| ==> IsDigit(r[i])
    ensures forall i :: 0 <= i < |s| && IsDigit(s[i]) ==> s[i] in r
    ensures IsSubsequence(r, s)
  {
    Filter(s, IsDigit)
  }

  function SalaryNumeric(salary: Option<string>): string {
    DigitsOnly(SalaryText(salary))
  }

  /** The digits of a concatenation are the digits of each part, in order. */
  lemma {:induction false} DigitsOnlyAppend(a: string, b: string)
    ensures DigitsOnly(a + b) == DigitsOnly(a) + DigitsOnly(b)
    decreases |b|
  {
    if b == [] {
      assert a + b == a;
    } else {
      var init, x := b[..|b| - 1], b[|b| - 1];
      assert (a + b)[..|a + b| - 1] == a + init;
      assert (a + b)[|a + b| - 1] == x;
      DigitsOnlyAppend(a, init);
    }
  }

  /** A string of digits is left as it is. */
  lemma {:induction false} DigitsOnlyOfDigits(s: string)
    requires forall i :: 0 <= i < |s| ==> IsDigit(s[i])
    ensures DigitsOnly(s) == s
    decreases |s|
  {
    if s != [] {
      var init := s[..|s| - 1];
      DigitsOnlyOfDigits(init);
      assert s == init + [s[|s| - 1]];
    }
  }

  /**
   * The salary digits hold only digits, no more characters than the salary
   * text, each digit of it as often as it occurs there, and extracting them
   * again changes nothing. A missing salary has no digits.
   */
  lemma {:induction false} SalaryNumericSpec(salary: Option<string>)
    ensures var r, s := SalaryNumeric(salary), SalaryText(salary);
      && (forall i :: 0 <= i < |r| ==> IsDigit(r[i]))
      && |r| <= |s|
      && (forall c :: IsDigit(c) ==> multiset(r)[c] == multiset(s)[c])
      && DigitsOnly(r) == r
    ensures SalaryNumeric(None) == ""
  {
    var s := SalaryText(salary);
    var r := DigitsOnly(s);
    SubsequenceMembers(r, s);
    DigitCounts(s);
    DigitsOnlyOfDigits(r);
    MissingSalaryDigits();
  }

  lemma MissingSalaryDigits()
    ensures SalaryNumeric(None) == ""
  {
    DigitsOnlyAppend("na", "n");
    DigitsOnlyAppend("n", "a");
    assert "na" == "n" + "a" && "nan" == "na" + "n";
    assert DigitsOnly("n") == [] by {
      assert "n"[..0] == [];
    }
    assert DigitsOnly("a") == [] by {
      assert "a"[..0] == [];
    }
  }

  /** Each digit occurs in `DigitsOnly(s)` as often as in `s`; nothing else occurs. */
  lemma {:induction false} DigitCounts(s: string)
    ensures forall c :: multiset(DigitsOnly(s))[c] == if IsDigit(c) then multiset(s)[c] else 0
    decreases |s|
  {
    if s != [] {
      var init, x := s[..|s| - 1], s[|s| - 1];
      DigitCounts(init);
      assert s == init + [x];
      DigitsOnlyAppend(init, [x]);
      assert [x] == [] + [x];
      assert DigitsOnly([x]) == if IsDigit(x) then [x] else [];
    }
  }

  // ------------------------------------------------------------------
  // Salary_Currency: str.contains with case=False, na=False
  // ------------------------------------------------------------------

  /**
   * The letter a character stands for when a pattern is matched with
   * IGNORECASE: its lower-case form, with long s counted as `s` and both
   * dotted capital I and dotless i counted as `i`.
   */
  function FoldChar(c: char): char {
    if c == 'ſ' then 's'
    else if c == 'İ' || c == 'ı' then 'i'
    else LowerChar(c)
  }

  /** `pat` occurs at position `i` of `s`, letter case aside. */
  predicate MatchesAt(s: string, pat: string, i: nat)
    requires i + |pat| <= |s|
  {
    forall k :: 0 <= k < |pat| ==> FoldChar(s[i + k]) == FoldChar(pat[k])
  }

  predicate ContainsIgnoreCase(s: string, pat: string) {
    exists i: nat :: i + |pat| <= |s| && MatchesAt(s, pat, i)
  }

  /** A regular-expression alternation searches for any of its alternatives. */
  predicate ContainsAny(s: string, pats: seq<string>) {
    exists j :: 0 <= j < |pats| && ContainsIgnoreCase(s, pats[j])
  }

  /** `\$|USD` */
  const UsdMarkers: seq<string> := ["$", "USD"]

  /** `₹|â‚¹|INR`: the rupee sign, the rupee sign's UTF-8 bytes read as Windows-1252, and `INR`. */
  const InrMarkers: seq<string> := ["₹", "â‚¹", "INR"]

  /** `na=False`: a missing salary contains nothing. */
  predicate SalaryMentions(salary: Option<string>, pats: seq<string>) {
    salary.Some? && ContainsAny(salary.value, pats)
  }

  function SalaryCurrency(salary: Option<string>): (r: string)
    ensures r == "USD" || r == "INR" || r == "UNKNOWN"
  {
    if SalaryMentions(salary, UsdMarkers) then "USD"
    else if SalaryMentions(salary, InrMarkers) then "INR"
    else "UNKNOWN"
  }

  /** Every character of `s` with its letter case folded away. */
  function Folded(s: string): (r: string)
    ensures |r| == |s| && forall i :: 0 <= i < |s| ==> r[i] == FoldChar(s[i])
  {
    seq(|s|, i requires 0 <= i < |s| => FoldChar(s[i]))
  }

  /** `p` occurs in `s` as a contiguous piece starting at index `i`. */
  predicate PieceAt(s: string, p: string, i: int) {
    0 <= i && i + |p| <= |s| && s[i..i + |p|] == p
  }

  /** `p` occurs in `s` as a contiguous piece. */
  predicate HasPiece(s: string, p: string) {
    exists i :: 0 <= i <= |s| && PieceAt(s, p, i)
  }

  /**
   * A dollar sign, or `usd` in any letter case, gives `USD`; otherwise a
   * rupee sign, its mis-decoded form `â‚¹`, or `inr` in any letter case,
   * gives `INR`; a salary with none of these, or no salary at all, is
   * `UNKNOWN`.
   */
  lemma {:induction false} SalaryCurrencySpec(s: string)
    ensures SalaryCurrency(Some(s)) == "USD" <==> '$' in s || HasPiece(Folded(s), "usd")
    ensures SalaryCurrency(Some(s)) == "INR" <==>
      && !('$' in s || HasPiece(Folded(s), "usd"))
      && ('₹' in s || HasPiece(Folded(s), "â‚¹") || HasPiece(Folded(s), "inr"))
    ensures SalaryCurrency(Some(s)) == "UNKNOWN" <==>
      && !('$' in s || HasPiece(Folded(s), "usd"))
      && !('₹' in s || HasPiece(Folded(s), "â‚¹") || HasPiece(Folded(s), "inr"))
    ensures SalaryCurrency(None) == "UNKNOWN"
  {
    var f := Folded(s);
    assert Folded("$") == "$" && Folded("USD") == "usd";
    assert Folded("₹") == "₹" && Folded("â‚¹") == "â‚¹" && Folded("INR") == "inr";
    ContainsAsPiece(s, "$");
    ContainsAsPiece(s, "USD");
    ContainsAsPiece(s, "₹");
    ContainsAsPiece(s, "â‚¹");
    ContainsAsPiece(s, "INR");
    SignAsPiece(s, '$');
    SignAsPiece(s, '₹');
    assert ContainsAny(s, UsdMarkers) <==> ContainsIgnoreCase(s, "$") || ContainsIgnoreCase(s, "USD") by {
      if ContainsAny(s, UsdMarkers) {
        var j :| 0 <= j < |UsdMarkers| && ContainsIgnoreCase(s, UsdMarkers[j]);
      }
      if ContainsIgnoreCase(s, "$") { assert ContainsIgnoreCase(s, UsdMarkers[0]); }
      if ContainsIgnoreCase(s, "USD") { assert ContainsIgnoreCase(s, UsdMarkers[1]); }
    }
    assert ContainsAny(s, InrMarkers) <==>
      ContainsIgnoreCase(s, "₹") || ContainsIgnoreCase(s, "â‚¹") || ContainsIgnoreCase(s, "INR") by {
      if ContainsAny(s, InrMarkers) {
        var j :| 0 <= j < |InrMarkers| && ContainsIgnoreCase(s, InrMarkers[j]);
      }
      if ContainsIgnoreCase(s, "₹") { assert ContainsIgnoreCase(s, InrMarkers[0]); }
      if ContainsIgnoreCase(s, "â‚¹") { assert ContainsIgnoreCase(s, InrMarkers[1]); }
      if ContainsIgnoreCase(s, "INR") { assert ContainsIgnoreCase(s, InrMarkers[2]); }
    }
  }

  /** A case-insensitive match is a piece of the folded text equal to the folded pattern. */
  lemma {:induction false} ContainsAsPiece(s: string, pat: string)
    ensures ContainsIgnoreCase(s, pat) <==> HasPiece(Folded(s), Folded(pat))
  {
    var f, g := Folded(s), Folded(pat);
    if ContainsIgnoreCase(s, pat) {
      var i: nat :| i + |pat| <= |s| && MatchesAt(s, pat, i);
      assert f[i..i + |g|] == g;
      assert PieceAt(f, g, i);
    }
    if HasPiece(f, g) {
      var i :| 0 <= i <= |f| && PieceAt(f, g, i);
      forall k | 0 <= k < |pat| ensures FoldChar(s[i + k]) == FoldChar(pat[k]) {
        assert f[i..i + |g|][k] == g[k];
      }
      assert MatchesAt(s, pat, i);
    }
  }

  /** A sign that no other character folds to occurs in the folded text iff it occurs in the text. */
  lemma {:induction false} SignAsPiece(s: string, c: char)
    requires c == '$' || c == '₹'
    ensures HasPiece(Folded(s), [c]) <==> c in s
  {
    var f := Folded(s);
    if HasPiece(f, [c]) {
      var i :| 0 <= i <= |f| && PieceAt(f, [c], i);
      assert f[i..i + 1][0] == f[i] == c;
      assert s[i] == c;
    }
    if c in s {
      var i :| 0 <= i < |s| && s[i] == c;
      assert f[i..i + 1] == [c];
      assert PieceAt(f, [c], i);
    }
  }

  /** Folding a lower-cased character gives the same letter as folding the character. */
  lemma FoldLowerChar(c: char)
    ensures FoldChar(LowerChar(c)) == FoldChar(c)
  {
  }

  /** The currency does not depend on letter case: lower-casing the salary keeps it. */
  lemma {:induction false} SalaryCurrencyOfLower(s: string)
    ensures SalaryCurrency(Some(Lower(s))) == SalaryCurrency(Some(s))
  {
    forall j | 0 <= j < |s| ensures FoldChar(Lower(s)[j]) == FoldChar(s[j]) {
      FoldLowerChar(s[j]);
    }
    forall pat: string, i: nat | i + |pat| <= |s| ensures MatchesAt(Lower(s), pat, i) <==> MatchesAt(s, pat, i) {
    }
    forall pat: string ensures ContainsIgnoreCase(Lower(s), pat) <==> ContainsIgnoreCase(s, pat) {
    }
  }

  /** Three salaries: `usd 5000`, the rupee sign before `50000`, and `50000` alone. */
  lemma SalaryCurrencyExamples()
    ensures SalaryCurrency(Some("usd 5000")) == "USD"
    ensures SalaryCurrency(Some("₹50000")) == "INR"
    ensures SalaryCurrency(Some("50000")) == "UNKNOWN"
  {
    assert MatchesAt("usd 5000", "USD", 0);
    assert ContainsIgnoreCase("usd 5000", UsdMarkers[1]);
    assert MatchesAt("₹50000", "₹", 0);
    assert ContainsIgnoreCase("₹50000", InrMarkers[0]);
    NoMarkerInDigits("₹50000", UsdMarkers);
    NoMarkerInDigits("50000", UsdMarkers);
    NoMarkerInDigits("50000", InrMarkers);
  }

  /**
   * None of the currency markers occurs in a string whose characters are
   * digits, apart from a leading rupee sign.
   */
  lemma {:induction false} NoMarkerInDigits(s: string, pats: seq<string>)
    requires pats == UsdMarkers || pats == InrMarkers
    requires pats == InrMarkers ==> forall i :: 0 <= i < |s| ==> IsDigit(s[i])
    requires forall i :: 0 < i < |s| ==> IsDigit(s[i])
    requires |s| > 0 ==> IsDigit(s[0]) || s[0] == '₹'
    ensures !ContainsAny(s, pats)
  {
    forall j, i: nat | 0 <= j < |pats| && i + |pats[j]| <= |s| ensures !MatchesAt(s, pats[j], i) {
      assert FoldChar(s[i]) != FoldChar(pats[j][0]);
    }
  }

  // ------------------------------------------------------------------
  // Action_Items: nested np.where, the first matching case wins
  // ------------------------------------------------------------------

  const LeftButActive: string := "Employee Left but Status Active, Fix Required"
  const InactiveWithoutLeave: string := "Employee is Active but leave_date mentioned, Fix Required"
  const WrongEntry: string := "Wrong Entry Flag"

  function ActionItems(e: Employee): (r: Option<string>)
    ensures r.Some? ==> r.value in {LeftButActive, InactiveWithoutLeave, WrongEntry}
  {
    if e.leaveDate.Some? && IsActive(e.employmentStatus) then Some(LeftButActive)
    else if e.leaveDate.None? && !IsActive(e.employmentStatus) then Some(InactiveWithoutLeave)
    else if e.leaveDate.Some? && e.joinDate.Some? && e.leaveDate.value > e.joinDate.value then Some(WrongEntry)
    else None
  }

  /**
   * The three cases are tried in order. The first two flag a leave date
   * that disagrees with the status, whatever the dates; the third can only
   * be reached by an employee who is not active and has a leave date after
   * the join date; an active employee without a leave date has no action.
   */
  lemma {:induction false} ActionItemsSpec(e: Employee)
    ensures ActionItems(e) == Some(LeftButActive) <==> e.leaveDate.Some? && IsActive(e.employmentStatus)
    ensures ActionItems(e) == Some(InactiveWithoutLeave) <==> e.leaveDate.None? && !IsActive(e.employmentStatus)
    ensures ActionItems(e) == Some(WrongEntry) <==>
      && !IsActive(e.employmentStatus) && e.leaveDate.Some? && e.joinDate.Some?
      && e.leaveDate.value > e.joinDate.value
    ensures ActionItems(e) == Some(LeftButActive) ==> CurrentEmployeeFlag(e.employmentStatus) == "1"
    ensures ActionItems(e) == Some(InactiveWithoutLeave) || ActionItems(e) == Some(WrongEntry) ==>
      CurrentEmployeeFlag(e.employmentStatus) == "0"
    ensures IsActive(e.employmentStatus) && e.leaveDate.None? ==> ActionItems(e) == None
  {
  }

  /**
   * The flag agrees with the Action_Items column and the leave date: it is
   * `1` exactly for the rows marked "left but active" and the unmarked rows
   * without a leave date, and `0` exactly for the rows marked "active but no
   * leave date" and the other rows with a leave date.
   */
  lemma {:induction false} CurrentEmployeeFlagSpec(e: Employee)
    ensures CurrentEmployeeFlag(e.employmentStatus) == "1" <==>
      ActionItems(e) == Some(LeftButActive) || (ActionItems(e) == None && e.leaveDate.None?)
    ensures CurrentEmployeeFlag(e.employmentStatus) == "0" <==>
      ActionItems(e) == Some(InactiveWithoutLeave) || (ActionItems(e) != Some(LeftButActive) && e.leaveDate.Some?)
  {
  }

  // ------------------------------------------------------------------
  // The frame the test builds
  // ------------------------------------------------------------------

  /** `src_df` after loading: the records and the columns the test adds to it. */
  class EmployeeFrame {
    var records: seq<Employee>
    var currentEmployeeFlag: seq<string>
    var promotionEligibility: seq<string>
    var salaryNumeric: seq<string>
    var salaryCurrency: seq<string>
    var actionItems: seq<Option<string>>

    constructor (records: seq<Employee>)
      ensures this.records == records
      ensures currentEmployeeFlag == [] && promotionEligibility == [] && salaryNumeric == []
      ensures salaryCurrency == [] && actionItems == []
    {
      this.records := records;
      currentEmployeeFlag, promotionEligibility, salaryNumeric := [], [], [];
      salaryCurrency, actionItems := [], [];
    }

    /** `src_df['Department'] = src_df['Department'].map(dept_map)` */
    method MapDepartment()
      modifies this
      ensures |records| == |old(records)|
      ensures forall i :: 0 <= i < |records| ==>
        records[i] == old(records[i]).(department := NormaliseDepartment(old(records[i]).department))
      ensures currentEmployeeFlag == old(currentEmployeeFlag) && promotionEligibility == old(promotionEligibility)
      ensures salaryNumeric == old(salaryNumeric) && salaryCurrency == old(salaryCurrency)
      ensures actionItems == old(actionItems)
    {
      records := seq(|records|, i requires 0 <= i < |records| reads this =>
        records[i].(department := NormaliseDepartment(records[i].department)));
    }

    /** `src_df['Current_Employee_Flag'] = np.where(...)` */
    method AssignCurrentEmployeeFlag()
      modifies this
      ensures |currentEmployeeFlag| == |records|
      ensures forall i :: 0 <= i < |records| ==> currentEmployeeFlag[i] == CurrentEmployeeFlag(records[i].employmentStatus)
      ensures records == old(records) && promotionEligibility == old(promotionEligibility)
      ensures salaryNumeric == old(salaryNumeric) && salaryCurrency == old(salaryCurrency)
      ensures actionItems == old(actionItems)
    {
      currentEmployeeFlag := seq(|records|, i requires 0 <= i < |records| reads this =>
        CurrentEmployeeFlag(records[i].employmentStatus));
    }

    /** `src_df['Promotion_Eligibility'] = np.where(...)` */
    method AssignPromotionEligibility()
      modifies this
      ensures |promotionEligibility| == |records|
      ensures forall i :: 0 <= i < |records| ==> promotionEligibility[i] == PromotionEligibility(records[i])
      ensures records == old(records) && currentEmployeeFlag == old(currentEmployeeFlag)
      ensures salaryNumeric == old(salaryNumeric) && salaryCurrency == old(salaryCurrency)
      ensures actionItems == old(actionItems)
    {
      promotionEligibility := seq(|records|, i requires 0 <= i < |records| reads this =>
        PromotionEligibility(records[i]));
    }

    /** `src_df['Salary_Numeric'] = ...str.replace(r'\D', '', regex=True)` */
    method AssignSalaryNumeric()
      modifies this
      ensures |salaryNumeric| == |records|
      ensures forall i :: 0 <= i < |records| ==> salaryNumeric[i] == SalaryNumeric(records[i].salary)
      ensures records == old(records) && currentEmployeeFlag == old(currentEmployeeFlag)
      ensures promotionEligibility == old(promotionEligibility) && salaryCurrency == old(salaryCurrency)
      ensures actionItems == old(actionItems)
    {
      salaryNumeric := seq(|records|, i requires 0 <= i < |records| reads this =>
        SalaryNumeric(records[i].salary));
    }

    /** `src_df['Salary_Currency'] = np.where(...)` */
    method AssignSalaryCurrency()
      modifies this
      ensures |salaryCurrency| == |records|
      ensures forall i :: 0 <= i < |records| ==> salaryCurrency[i] == SalaryCurrency(records[i].salary)
      ensures records == old(records) && currentEmployeeFlag == old(currentEmployeeFlag)
      ensures promotionEligibility == old(promotionEligibility) && salaryNumeric == old(salaryNumeric)
      ensures actionItems == old(actionItems)
    {
      salaryCurrency := seq(|records|, i requires 0 <= i < |records| reads this =>
        SalaryCurrency(records[i].salary));
    }

    /** `src_df['Action_Items'] = np.where(...)` */
    method AssignActionItems()
      modifies this
      ensures |actionItems| == |records|
      ensures forall i :: 0 <= i < |records| ==> actionItems[i] == ActionItems(records[i])
      ensures records == old(records) && currentEmployeeFlag == old(currentEmployeeFlag)
      ensures promotionEligibility == old(promotionEligibility) && salaryNumeric == old(salaryNumeric)
      ensures salaryCurrency == old(salaryCurrency)
    {
      actionItems := seq(|records|, i requires 0 <= i < |records| reads this => ActionItems(records[i]));
    }
  }

  /**
   * `test_employee_etl` without the loading: the department lookup, then the
   * derived columns in the order the test assigns them. Every row's columns
   * agree with one another: an eligible employee is flagged current, a wrong
   * entry is flagged not current, and the salary digits are digits.
   */
  method TestEmployeeEtl(source: seq<Employee>) returns (df: EmployeeFrame, primaryKey: seq<string>)
    ensures fresh(df) && primaryKey == PrimaryKey
    ensures |df.records| == |source| && |df.currentEmployeeFlag| == |source| && |df.promotionEligibility| == |source|
    ensures |df.salaryNumeric| == |source| && |df.salaryCurrency| == |source| && |df.actionItems| == |source|
    ensures forall i :: 0 <= i < |source| ==>
      && df.records[i] == source[i].(department := NormaliseDepartment(source[i].department))
      && df.currentEmployeeFlag[i] == CurrentEmployeeFlag(source[i].employmentStatus)
      && df.promotionEligibility[i] == PromotionEligibility(source[i])
      && df.salaryNumeric[i] == SalaryNumeric(source[i].salary)
      && df.salaryCurrency[i] == SalaryCurrency(source[i].salary)
      && df.actionItems[i] == ActionItems(source[i])
    ensures forall i :: 0 <= i < |source| && df.promotionEligibility[i] == "Eligible" ==> df.currentEmployeeFlag[i] == "1"
    ensures forall i :: 0 <= i < |source| && df.actionItems[i] == Some(WrongEntry) ==> df.currentEmployeeFlag[i] == "0"
  {
    df := new EmployeeFrame(source);
    df.MapDepartment();
    df.AssignCurrentEmployeeFlag();
    df.AssignPromotionEligibility();
    df.AssignSalaryNumeric();
    df.AssignSalaryCurrency();
    df.AssignActionItems();
    primaryKey := PrimaryKey;
    forall i | 0 <= i < |source| ensures df.promotionEligibility[i] == "Eligible" ==> df.currentEmployeeFlag[i] == "1" {
      PromotionEligibilitySpec(df.records[i], 0, 0);
    }
    forall i | 0 <= i < |source| ensures df.actionItems[i] == Some(WrongEntry) ==> df.currentEmployeeFlag[i] == "0" {
      ActionItemsSpec(df.records[i]);
    }
  }
}

=== FILE: frames.dfy ===
/**
 * The part of pandas the comparator uses, over frames whose cells are
 * already rendered as strings: column lookup, row keys, `reindex`,
 * `drop_duplicates`, `reset_index`, `sort_values` and column assignment.
 * The operations are functions on `Table` values; `Frame` is the mutable
 * DataFrame on which the in-place calls (`inplace=True`, `df[key] = ...`,
 * `df.columns = ...`) act.
 */
module Frames {
  import opened Results
  import opened Order
  import opened Text

  /**
   * How `astype(str)` renders a missing number (NaN). A missing object
   * renders `None` and a missing date `NaT`; the model takes every one of
   * them as ordinary cell text and uses this marker only for a column a row
   * does not have.
   */
  const NullMarker: string := "nan"

  /** One DataFrame row: its index label and its rendered cells, one per column. */
  datatype Row = Row(index: nat, cells: seq<string>)

  /** A DataFrame: ordered column labels and rows. */
  datatype Table = Table(columns: seq<string>, rows: seq<Row>)

  predicate Distinct<T(==)>(s: seq<T>) {
    forall i, j :: 0 <= i < j < |s| ==> s[i] != s[j]
  }

  /** Every row has one cell per column. */
  predicate WellFormed(t: Table) {
    forall i :: 0 <= i < |t.rows| ==> |t.rows[i].cells| == |t.columns|
  }

  function Labels(t: Table): (r: seq<nat>)
    ensures |r| == |t.rows| && forall i :: 0 <= i < |t.rows| ==> r[i] == t.rows[i].index
  {
    seq(|t.rows|, i requires 0 <= i < |t.rows| => t.rows[i].index)
  }

  /** Position of the first column labelled `c`, or `|columns|` when there is none. */
  function ColumnIndex(columns: seq<string>, c: string): (i: nat)
    ensures i <= |columns|
    ensures i < |columns| ==> columns[i] == c
    ensures forall k :: 0 <= k < i ==> columns[k] != c
  {
    if columns == [] then 0
    else if columns[0] == c then 0
    else 1 + ColumnIndex(columns[1..], c)
  }

  /** The cell of column `c` in a row; the null marker when there is no such column. */
  function Cell(columns: seq<string>, cells: seq<string>, c: string): string {
    var i := ColumnIndex(columns, c);
    if i < |cells| then cells[i] else NullMarker
  }

  /** `tuple(row[key])`: the row's values in the key columns, in key order. */
  function KeyOf(columns: seq<string>, cells: seq<string>, key: seq<string>): (k: seq<string>)
    ensures |k| == |key| && forall i :: 0 <= i < |key| ==> k[i] == Cell(columns, cells, key[i])
  {
    seq(|key|, i requires 0 <= i < |key| => Cell(columns, cells, key[i]))
  }

  function RowKey(columns: seq<string>, key: seq<string>): Row -> seq<string> {
    (r: Row) => KeyOf(columns, r.cells, key)
  }

  function Cells(r: Row): seq<string> {
    r.cells
  }

  /** The set of key tuples of a table: `set(df[key].apply(tuple, axis=1))`. */
  function KeyTuples(t: Table, key: seq<string>): set<seq<string>> {
    KeySet(t.rows, RowKey(t.columns, key))
  }

  /** The first of `names` that is not a column label, if any (the one pandas' KeyError names). */
  function FirstMissing(columns: seq<string>, names: seq<string>): (m: Option<string>)
    ensures m.None? <==> forall i :: 0 <= i < |names| ==> names[i] in columns
    ensures m.Some? ==> m.value in names && m.value !in columns
    ensures m.Some? ==>
      exists i :: 0 <= i < |names| && names[i] == m.value && forall j :: 0 <= j < i ==> names[j] in columns
  {
    if names == [] then None
    else if names[0] !in columns then Some(names[0])
    else FirstMissing(columns, names[1..])
  }

  // ------------------------------------------------------------------
  // DataFrame operations as functions on values
  // ------------------------------------------------------------------

  /** `df.reindex(columns=cols)` / `df[cols]` for labels that all exist. */
  function Reindexed(t: Table, cols: seq<string>): (r: Table)
    ensures WellFormed(r) && r.columns == cols && |r.rows| == |t.rows|
    ensures forall i :: 0 <= i < |t.rows| ==> r.rows[i].index == t.rows[i].index
    ensures forall i, k :: 0 <= i < |t.rows| && 0 <= k < |cols| ==>
      r.rows[i].cells[k] == Cell(t.columns, t.rows[i].cells, cols[k])
  {
    Table(cols, seq(|t.rows|, i requires 0 <= i < |t.rows| =>
      Row(t.rows[i].index, KeyOf(t.columns, t.rows[i].cells, cols))))
  }

  /** `DataFrame.empty`: the frame has no rows or no columns. */
  predicate IsEmpty(t: Table) {
    |t.rows| == 0 || |t.columns| == 0
  }

  /**
   * `df.drop_duplicates()`: an empty frame comes back as it is; otherwise the
   * first of each group of identical rows survives.
   */
  function Deduplicated(t: Table): Table {
    if IsEmpty(t) then t else Table(t.columns, DistinctBy(t.rows, Cells))
  }

  /** The first row of each key tuple survives. */
  function DeduplicatedOn(t: Table, key: seq<string>): Table {
    Table(t.columns, DistinctBy(t.rows, RowKey(t.columns, key)))
  }

  /**
   * `df.drop_duplicates(subset=key)`: a frame without rows comes back as it
   * is; otherwise a missing key column raises `KeyError`, an empty key raises
   * `ValueError`, and the first row of each key tuple survives.
   */
  function KeyDeduplication(t: Table, key: seq<string>): Result<Table> {
    if |t.rows| == 0 then Ok(t)
    else
      match FirstMissing(t.columns, key)
      case Some(c) => Err(MissingKeyColumn(c))
      case None => if key == [] then Err(EmptyKey) else Ok(DeduplicatedOn(t, key))
  }

  /** A successful key deduplication keeps the first row of each key tuple. */
  lemma {:induction false} KeyDeduplicationKeepsFirst(t: Table, key: seq<string>)
    requires KeyDeduplication(t, key).Ok?
    ensures KeyDeduplication(t, key).value == DeduplicatedOn(t, key)
  {
    if |t.rows| == 0 {
      assert DistinctBy(t.rows, RowKey(t.columns, key)) == [];
    }
  }

  /**
   * Key deduplication fails exactly on a frame with rows whose key names an
   * absent column (`KeyError`, checked first) or is empty (`ValueError`).
   * Otherwise it keeps the header, leaves one row per key tuple and loses no
   * key tuple, taking its rows in their input order.
   */
  lemma {:induction false} KeyDeduplicationSpec(t: Table, key: seq<string>)
    requires WellFormed(t)
    ensures KeyDeduplication(t, key).Err? <==>
      |t.rows| > 0 && (key == [] || exists i :: 0 <= i < |key| && key[i] !in t.columns)
    ensures KeyDeduplication(t, key).Err? ==>
      KeyDeduplication(t, key).error ==
        if FirstMissing(t.columns, key).Some? then MissingKeyColumn(FirstMissing(t.columns, key).value) else EmptyKey
    ensures KeyDeduplication(t, key).Ok? ==>
      var u := KeyDeduplication(t, key).value;
      && WellFormed(u) && u.columns == t.columns && IsSubsequence(u.rows, t.rows)
      && DistinctKeys(u.rows, RowKey(u.columns, key))
      && KeyTuples(u, key) == KeyTuples(t, key)
  {
    if KeyDeduplication(t, key).Ok? {
      KeyDeduplicationKeepsFirst(t, key);
      KeptRowsWellFormed(t, DeduplicatedOn(t, key).rows);
    }
  }

  /** `df.reset_index(drop=True)`: the labels become 0..n-1. */
  function WithIndexReset(t: Table): (r: Table)
    ensures r.columns == t.columns && |r.rows| == |t.rows|
    ensures forall i :: 0 <= i < |t.rows| ==> r.rows[i] == Row(i, t.rows[i].cells)
  {
    Table(t.columns, seq(|t.rows|, i requires 0 <= i < |t.rows| => Row(i, t.rows[i].cells)))
  }

  /** The labels are 0..n-1, as after `reset_index`. */
  predicate HasRangeIndex(t: Table) {
    forall i :: 0 <= i < |t.rows| ==> t.rows[i].index == i
  }

  /** `df.sort_values(by=key)`. */
  function SortedOn(t: Table, key: seq<string>): Table {
    Table(t.columns, SortBy(t.rows, RowKey(t.columns, key), TupleLt))
  }

  function StripAt(cells: seq<string>, j: nat): (r: seq<string>)
    ensures |r| == |cells|
    ensures forall k :: 0 <= k < |cells| ==> r[k] == if k == j then Strip(cells[k]) else cells[k]
  {
    seq(|cells|, k requires 0 <= k < |cells| => if k == j then Strip(cells[k]) else cells[k])
  }

  /** `df[c] = df[c].astype(str).str.strip()`. */
  function WithColumnStripped(t: Table, c: string): (r: Table)
    ensures r.columns == t.columns && |r.rows| == |t.rows|
    ensures forall i :: 0 <= i < |t.rows| ==>
      r.rows[i] == Row(t.rows[i].index, StripAt(t.rows[i].cells, ColumnIndex(t.columns, c)))
    ensures WellFormed(t) ==> WellFormed(r)
  {
    Table(t.columns, seq(|t.rows|, i requires 0 <= i < |t.rows| =>
      Row(t.rows[i].index, StripAt(t.rows[i].cells, ColumnIndex(t.columns, c)))))
  }

  /** The stripping assignments for each of `cs` in turn. */
  function WithColumnsStripped(t: Table, cs: seq<string>): (r: Table)
    ensures r.columns == t.columns && |r.rows| == |t.rows|
    decreases |cs|
  {
    if cs == [] then t else WithColumnsStripped(WithColumnStripped(t, cs[0]), cs[1..])
  }

  lemma {:induction false} WithColumnsStrippedSnoc(t: Table, cs: seq<string>, c: string)
    ensures WithColumnsStripped(t, cs + [c]) == WithColumnStripped(WithColumnsStripped(t, cs), c)
    decreases |cs|
  {
    if cs != [] {
      assert (cs + [c])[1..] == cs[1..] + [c];
      WithColumnsStrippedSnoc(WithColumnStripped(t, cs[0]), cs[1..], c);
    } else {
      assert [c][1..] == [];
    }
  }

  /**
   * `r` is `t` with the cells of the columns named in `cs` trimmed and every
   * label, header and other cell as it was.
   */
  ghost predicate StrippedColumns(t: Table, r: Table, cs: seq<string>) {
    && r.columns == t.columns && |r.rows| == |t.rows|
    && (forall i :: 0 <= i < |t.rows| ==>
          r.rows[i].index == t.rows[i].index && |r.rows[i].cells| == |t.rows[i].cells|)
    && (forall i, k :: 0 <= i < |t.rows| && 0 <= k < |t.rows[i].cells| && k < |t.columns| ==>
          r.rows[i].cells[k] ==
            if t.columns[k] in cs then Strip(t.rows[i].cells[k]) else t.rows[i].cells[k])
  }

  /**
   * Stripping the columns `cs` one after another trims exactly the cells of
   * the columns named in `cs` (once, however often a name repeats).
   */
  lemma {:induction false} WithColumnsStrippedCells(t: Table, cs: seq<string>)
    requires Distinct(t.columns)
    ensures StrippedColumns(t, WithColumnsStripped(t, cs), cs)
    decreases |cs|
  {
    if cs != [] {
      var t1 := WithColumnStripped(t, cs[0]);
      var j := ColumnIndex(t.columns, cs[0]);
      WithColumnsStrippedCells(t1, cs[1..]);
      var r := WithColumnsStripped(t1, cs[1..]);
      assert r == WithColumnsStripped(t, cs);
      forall i, k | 0 <= i < |t.rows| && 0 <= k < |t.rows[i].cells| && k < |t.columns|
        ensures r.rows[i].cells[k] ==
          if t.columns[k] in cs then Strip(t.rows[i].cells[k]) else t.rows[i].cells[k]
      {
        var x := t.rows[i].cells[k];
        assert t1.rows[i].cells[k] == if k == j then Strip(x) else x;
        assert k == j <==> t.columns[k] == cs[0];
        assert t.columns[k] in cs <==> t.columns[k] == cs[0] || t.columns[k] in cs[1..];
        StripTwice(x, k == j, t.columns[k] in cs[1..]);
      }
    }
  }

  /** Trimming a cell once or twice gives the same text. */
  lemma StripTwice(x: string, first: bool, rest: bool)
    ensures (var y := if first then Strip(x) else x;
             if rest then Strip(y) else y) == if first || rest then Strip(x) else x
  {
    StripIdempotent(x);
  }

  /** Trimming the same columns a second time changes nothing. */
  lemma {:induction false} StrippedColumnsTwice(t: Table, r: Table, r2: Table, cs: seq<string>)
    requires WellFormed(t) && StrippedColumns(t, r, cs) && StrippedColumns(r, r2, cs)
    ensures r2 == r
  {
    forall i | 0 <= i < |r.rows| ensures r2.rows[i] == r.rows[i] {
      StrippedRowTwice(t, r, r2, cs, i);
    }
    assert r2.rows == r.rows;
  }

  lemma {:induction false} StrippedRowTwice(t: Table, r: Table, r2: Table, cs: seq<string>, i: nat)
    requires WellFormed(t) && StrippedColumns(t, r, cs) && StrippedColumns(r, r2, cs)
    requires i < |r.rows|
    ensures r2.rows[i] == r.rows[i]
  {
    var n := |t.columns|;
    assert |t.rows[i].cells| == n;
    forall k | 0 <= k < n ensures r2.rows[i].cells[k] == r.rows[i].cells[k] {
      var x := t.rows[i].cells[k];
      assert r.rows[i].cells[k] == if t.columns[k] in cs then Strip(x) else x;
      StripTwice(x, t.columns[k] in cs, t.columns[k] in cs);
    }
  }

  /** Rows taken in order from a well-formed table fit its header. */
  lemma KeptRowsWellFormed(t: Table, kept: seq<Row>)
    requires WellFormed(t) && IsSubsequence(kept, t.rows)
    ensures WellFormed(Table(t.columns, kept))
  {
    SubsequenceMembers(kept, t.rows);
    forall i | 0 <= i < |kept| ensures |kept[i].cells| == |t.columns| {
      assert kept[i] in t.rows;
    }
  }

  /** Selecting columns that include the key columns keeps every row's key tuple. */
  lemma {:induction false} ReindexedKey(columns: seq<string>, cells: seq<string>, cols: seq<string>, key: seq<string>)
    requires forall m :: 0 <= m < |key| ==> key[m] in cols
    ensures KeyOf(cols, KeyOf(columns, cells, cols), key) == KeyOf(columns, cells, key)
  {
    var v := KeyOf(columns, cells, cols);
    forall m | 0 <= m < |key|
      ensures Cell(cols, v, key[m]) == Cell(columns, cells, key[m])
    {
      var p := ColumnIndex(cols, key[m]);
      assert p < |cols| && cols[p] == key[m];
    }
  }

  /** Reindexing onto a header holding the key columns keeps the key sequence. */
  lemma {:induction false} ReindexedKeySeq(t: Table, cols: seq<string>, key: seq<string>)
    requires forall m :: 0 <= m < |key| ==> key[m] in cols
    ensures KeySeq(Reindexed(t, cols).rows, RowKey(cols, key)) == KeySeq(t.rows, RowKey(t.columns, key))
  {
    var r := Reindexed(t, cols);
    forall i | 0 <= i < |t.rows|
      ensures RowKey(cols, key)(r.rows[i]) == RowKey(t.columns, key)(t.rows[i])
    {
      assert r.rows[i].cells == KeyOf(t.columns, t.rows[i].cells, cols);
      ReindexedKey(t.columns, t.rows[i].cells, cols, key);
    }
  }

  /** Relabelling rows keeps their cells, hence every key built from them, in order. */
  lemma {:induction false} ResetKeepsCells(t: Table, key: seq<string>)
    ensures KeySeq(WithIndexReset(t).rows, Cells) == KeySeq(t.rows, Cells)
    ensures KeySeq(WithIndexReset(t).rows, RowKey(t.columns, key)) == KeySeq(t.rows, RowKey(t.columns, key))
    ensures KeyTuples(WithIndexReset(t), key) == KeyTuples(t, key)
  {
    var r := WithIndexReset(t);
    var rk := RowKey(t.columns, key);
    forall k | k in KeyTuples(r, key) ensures k in KeyTuples(t, key) {
      var x :| x in r.rows && rk(x) == k;
      var i :| 0 <= i < |r.rows| && r.rows[i] == x;
      assert t.rows[i] in t.rows;
    }
    forall k | k in KeyTuples(t, key) ensures k in KeyTuples(r, key) {
      var x :| x in t.rows && rk(x) == k;
      var i :| 0 <= i < |t.rows| && t.rows[i] == x;
      assert r.rows[i] in r.rows;
    }
  }

  // ------------------------------------------------------------------
  // The mutable DataFrame
  // ------------------------------------------------------------------

  /**
   * The scan behind `drop_duplicates(keep='first')`: a row is kept when no
   * earlier row had its key.
   */
  method KeepFirstPerKey<K(==)>(all: seq<Row>, rowKey: Row -> K) returns (kept: seq<Row>)
    ensures kept == DistinctBy(all, rowKey)
  {
    kept := [];
    var seen: set<K> := {};
    var i := 0;
    while i < |all|
      invariant 0 <= i <= |all|
      invariant kept == DistinctBy(all[..i], rowKey)
      invariant seen == KeySet(all[..i], rowKey)
    {
      KeepFirstStep(all, rowKey, i, kept, seen);
      var k := rowKey(all[i]);
      if k !in seen {
        kept := kept + [all[i]];
        seen := seen + {k};
      }
      i := i + 1;
    }
    assert all[..i] == all;
  }

  /** One step of the scan: the next row is kept exactly when its key is unseen. */
  lemma KeepFirstStep<K>(all: seq<Row>, rowKey: Row -> K, i: nat, kept: seq<Row>, seen: set<K>)
    requires i < |all| && kept == DistinctBy(all[..i], rowKey) && seen == KeySet(all[..i], rowKey)
    ensures rowKey(all[i]) in seen ==>
      DistinctBy(all[..i + 1], rowKey) == kept && KeySet(all[..i + 1], rowKey) == seen
    ensures rowKey(all[i]) !in seen ==>
      DistinctBy(all[..i + 1], rowKey) == kept + [all[i]]
      && KeySet(all[..i + 1], rowKey) == seen + {rowKey(all[i])}
  {
    assert all[..i + 1] == all[..i] + [all[i]];
    DistinctBySnoc(all[..i], all[i], rowKey);
  }

  /** A pandas DataFrame that the pipeline updates in place. */
  class Frame {
    var columns: seq<string>
    var rows: seq<Row>

    /** Every row is as wide as the header. */
    ghost predicate Valid()
      reads this
    {
      WellFormed(Value())
    }

    function Value(): Table
      reads this
    {
      Table(columns, rows)
    }

    constructor (t: Table)
      requires WellFormed(t)
      ensures Valid() && Value() == t
    {
      columns := t.columns;
      rows := t.rows;
    }

    /** `df.drop_duplicates(inplace=True)`. */
    method DropDuplicates()
      requires Valid()
      modifies this
      ensures Valid() && Value() == Deduplicated(old(Value()))
    {
      if |rows| == 0 || |columns| == 0 {
        return;
      }
      var t := Value();
      var kept := KeepFirstPerKey(t.rows, Cells);
      KeptRowsWellFormed(t, kept);
      rows := kept;
    }

    /**
     * `df.drop_duplicates(subset=key, inplace=True)`; on a frame with rows, a
     * missing key column or an empty key raises and leaves the frame as it was.
     */
    method DropDuplicatesOn(key: seq<string>) returns (r: Result<()>)
      requires Valid()
      modifies this
      ensures Valid()
      ensures r.Err? ==> KeyDeduplication(old(Value()), key) == Err(r.error) && Value() == old(Value())
      ensures r.Ok? ==> KeyDeduplication(old(Value()), key) == Ok(Value())
    {
      if |rows| == 0 {
        return Ok(());
      }
      var missing := FirstMissing(columns, key);
      if missing.Some? {
        return Err(MissingKeyColumn(missing.value));
      }
      if key == [] {
        return Err(EmptyKey);
      }
      var t := Value();
      var kept := KeepFirstPerKey(t.rows, RowKey(columns, key));
      KeptRowsWellFormed(t, kept);
      rows := kept;
      return Ok(());
    }

    /** `df[c] = df[c].astype(str).str.strip()`; a missing column raises. */
    method StripColumn(c: string) returns (r: Result<()>)
      requires Valid()
      modifies this
      ensures Valid()
      ensures r.Err? <==> c !in old(columns)
      ensures r.Err? ==> r.error == MissingKeyColumn(c) && Value() == old(Value())
      ensures r.Ok? ==> Value() == WithColumnStripped(old(Value()), c)
    {
      if c !in columns {
        return Err(MissingKeyColumn(c));
      }
      rows := WithColumnStripped(Value(), c).rows;
      return Ok(());
    }

    /** `df.columns = names`: relabels the columns in place. */
    method SetColumns(names: seq<string>)
      requires Valid() && |names| == |columns|
      modifies this
      ensures Valid() && Value() == Table(names, old(rows))
    {
      columns := names;
    }
  }
}

=== FILE: order.dfy ===
/**
 * Generic sequence operations the comparator relies on: filtering that keeps
 * order, first-occurrence deduplication (pandas `drop_duplicates(keep='first')`)
 * and sorting by a key under a strict total order (pandas `sort_values`,
 * Python `sorted`).
 */
module Order {

  ghost predicate StrictTotalOrder<K(!new)>(lt: (K, K) -> bool) {
    && (forall a :: !lt(a, a))
    && (forall a, b, c :: lt(a, b) && lt(b, c) ==> lt(a, c))
    && (forall a, b :: a != b ==> lt(a, b) || lt(b, a))
  }

  /** No element's key is smaller than the key of an element before it. */
  ghost predicate SortedBy<T, K>(s: seq<T>, key: T -> K, lt: (K, K) -> bool) {
    forall i, j :: 0 <= i < j < |s| ==> !lt(key(s[j]), key(s[i]))
  }

  ghost predicate Increasing<K>(s: seq<K>, lt: (K, K) -> bool) {
    forall i, j :: 0 <= i < j < |s| ==> lt(s[i], s[j])
  }

  ghost predicate DistinctKeys<T, K>(s: seq<T>, key: T -> K) {
    forall i, j :: 0 <= i < j < |s| ==> key(s[i]) != key(s[j])
  }

  function KeySeq<T, K>(s: seq<T>, key: T -> K): (r: seq<K>)
    ensures |r| == |s| && forall i :: 0 <= i < |s| ==> r[i] == key(s[i])
  {
    seq(|s|, i requires 0 <= i < |s| => key(s[i]))
  }

  function KeySet<T(==), K(==)>(s: seq<T>, key: T -> K): set<K> {
    set x | x in s :: key(x)
  }

  /** The key set of a sequence holds exactly the entries of its key sequence. */
  lemma {:induction false} KeySetOfKeySeq<T, K>(s: seq<T>, key: T -> K)
    ensures forall k :: k in KeySet(s, key) <==> k in KeySeq(s, key)
  {
    forall k ensures k in KeySet(s, key) <==> k in KeySeq(s, key) {
      if k in KeySet(s, key) {
        var x :| x in s && key(x) == k;
        var i :| 0 <= i < |s| && s[i] == x;
        assert KeySeq(s, key)[i] == k;
      }
      if k in KeySeq(s, key) {
        var i :| 0 <= i < |s| && KeySeq(s, key)[i] == k;
        assert s[i] in s;
      }
    }
  }

  /** `r` is `s` with some elements left out and the rest in their original order. */
  predicate IsSubsequence<T(==)>(r: seq<T>, s: seq<T>)
    decreases |r| + |s|
  {
    if r == [] then true
    else if s == [] then false
    else if r[|r| - 1] == s[|s| - 1] then IsSubsequence(r[..|r| - 1], s[..|s| - 1])
    else IsSubsequence(r, s[..|s| - 1])
  }

  lemma {:induction false} SubsequenceOfLonger<T>(r: seq<T>, s: seq<T>, x: T)
    requires IsSubsequence(r, s)
    ensures IsSubsequence(r, s + [x])
    decreases |r| + |s|, 1
  {
    assert (s + [x])[..|s|] == s;
    if r != [] && r[|r| - 1] == x {
      SubsequenceDropLast(r, s);
    }
  }

  lemma {:induction false} SubsequenceDropLast<T>(r: seq<T>, s: seq<T>)
    requires r != [] && IsSubsequence(r, s)
    ensures IsSubsequence(r[..|r| - 1], s)
    decreases |r| + |s|, 0
  {
    assert s[..|s| - 1] + [s[|s| - 1]] == s;
    if r[|r| - 1] != s[|s| - 1] {
      SubsequenceDropLast(r, s[..|s| - 1]);
    }
    SubsequenceOfLonger(r[..|r| - 1], s[..|s| - 1], s[|s| - 1]);
  }

  lemma {:induction false} SubsequenceOfItself<T>(s: seq<T>)
    ensures IsSubsequence(s, s)
  {
    if s != [] {
      SubsequenceOfItself(s[..|s| - 1]);
    }
  }

  lemma {:induction false} SubsequenceMembers<T>(r: seq<T>, s: seq<T>)
    requires IsSubsequence(r, s)
    ensures |r| <= |s| && forall x :: x in r ==> x in s
    decreases |r| + |s|
  {
    if r == [] {
    } else if r[|r| - 1] == s[|s| - 1] {
      SubsequenceMembers(r[..|r| - 1], s[..|s| - 1]);
      assert r == r[..|r| - 1] + [r[|r| - 1]];
      assert s == s[..|s| - 1] + [s[|s| - 1]];
    } else {
      SubsequenceMembers(r, s[..|s| - 1]);
      assert s == s[..|s| - 1] + [s[|s| - 1]];
    }
  }

  /** Keys taken along a subsequence form a subsequence of the keys. */
  lemma {:induction false} SubsequenceKeys<T, K>(r: seq<T>, s: seq<T>, key: T -> K)
    requires IsSubsequence(r, s)
    ensures IsSubsequence(KeySeq(r, key), KeySeq(s, key))
    decreases |r| + |s|
  {
    if r != [] {
      var s' := s[..|s| - 1];
      assert KeySeq(s, key) == KeySeq(s', key) + [key(s[|s| - 1])];
      if r[|r| - 1] == s[|s| - 1] {
        var r' := r[..|r| - 1];
        SubsequenceKeys(r', s', key);
        assert KeySeq(r, key) == KeySeq(r', key) + [key(r[|r| - 1])];
        assert KeySeq(r, key)[..|r| - 1] == KeySeq(r', key);
        assert KeySeq(s, key)[..|s| - 1] == KeySeq(s', key);
      } else {
        SubsequenceKeys(r, s', key);
        SubsequenceOfLonger(KeySeq(r, key), KeySeq(s', key), key(s[|s| - 1]));
      }
    }
  }

  // ------------------------------------------------------------------
  // Filtering (boolean-mask row selection)
  // ------------------------------------------------------------------

  /** The elements of `s` that satisfy `p`, in their original order. */
  function Filter<T(==)>(s: seq<T>, p: T -> bool): (r: seq<T>)
    ensures forall i :: 0 <= i < |r| ==> p(r[i]) && r[i] in s
    ensures forall i :: 0 <= i < |s| && p(s[i]) ==> s[i] in r
    ensures IsSubsequence(r, s)
  {
    if s == [] then []
    else
      var init, x := s[..|s| - 1], s[|s| - 1];
      assert s == init + [x];
      var r := Filter(init, p);
      SubsequenceOfLonger(r, init, x);
      assert (r + [x])[..|r|] == r;
      if p(x) then r + [x] else r
  }

  /** The rows a mask keeps and the rows it drops partition the input. */
  lemma {:induction false} FilterPartition<T>(s: seq<T>, p: T -> bool, q: T -> bool)
    requires forall i :: 0 <= i < |s| ==> q(s[i]) == !p(s[i])
    ensures multiset(Filter(s, p)) + multiset(Filter(s, q)) == multiset(s)
    ensures |Filter(s, p)| + |Filter(s, q)| == |s|
  {
    if s != [] {
      var init, x := s[..|s| - 1], s[|s| - 1];
      assert s == init + [x];
      FilterPartition(init, p, q);
    }
  }

  /** Two masks that agree on every element select the same elements. */
  lemma {:induction false} FilterCongruent<T>(s: seq<T>, p: T -> bool, q: T -> bool)
    requires forall i :: 0 <= i < |s| ==> p(s[i]) == q(s[i])
    ensures Filter(s, p) == Filter(s, q)
  {
    if s != [] {
      var init, x := s[..|s| - 1], s[|s| - 1];
      assert s == init + [x];
      FilterCongruent(init, p, q);
    }
  }

  /** Leaving elements out keeps keys distinct. */
  lemma {:induction false} FilterDistinctKeys<T, K>(s: seq<T>, p: T -> bool, key: T -> K)
    requires DistinctKeys(s, key)
    ensures DistinctKeys(Filter(s, p), key)
  {
    if s != [] {
      var init, x := s[..|s| - 1], s[|s| - 1];
      assert s == init + [x];
      FilterDistinctKeys(init, p, key);
      var r := Filter(init, p);
      if p(x) {
        forall i, j | 0 <= i < j < |r + [x]|
          ensures key((r + [x])[i]) != key((r + [x])[j])
        {
          if j == |r| {
            assert (r + [x])[i] in init;
          }
        }
      }
    }
  }

  /** Filtering keeps the relative order of a sorted sequence. */
  lemma {:induction false} FilterSorted<T, K>(s: seq<T>, p: T -> bool, key: T -> K, lt: (K, K) -> bool)
    requires SortedBy(s, key, lt)
    ensures SortedBy(Filter(s, p), key, lt)
  {
    if s != [] {
      var init, x := s[..|s| - 1], s[|s| - 1];
      assert s == init + [x];
      FilterSorted(init, p, key, lt);
      var r := Filter(init, p);
      if p(x) {
        forall i, j | 0 <= i < j < |r + [x]|
          ensures !lt(key((r + [x])[j]), key((r + [x])[i]))
        {
          if j == |r| {
            assert (r + [x])[i] in init;
          }
        }
      }
    }
  }

  /** Removing one element of a sequence with distinct keys. */
  lemma RemoveAt<T, K>(s: seq<T>, m: nat, key: T -> K)
    requires m < |s| && DistinctKeys(s, key)
    ensures multiset(s[..m] + s[m + 1..]) == multiset(s) - multiset{s[m]}
    ensures DistinctKeys(s[..m] + s[m + 1..], key)
    ensures forall y :: y in s[..m] + s[m + 1..] ==> key(y) != key(s[m])
  {
    assert s == s[..m] + [s[m]] + s[m + 1..];
    RemoveAtKeys(s, m, key);
    RemoveAtOthers(s, m, key);
  }

  lemma RemoveAtKeys<T, K>(s: seq<T>, m: nat, key: T -> K)
    requires m < |s| && DistinctKeys(s, key)
    ensures DistinctKeys(s[..m] + s[m + 1..], key)
  {
    var rest := s[..m] + s[m + 1..];
    forall a, b | 0 <= a < b < |rest| ensures key(rest[a]) != key(rest[b]) {
      var a' := if a < m then a else a + 1;
      var b' := if b < m then b else b + 1;
      assert rest[a] == s[a'] && rest[b] == s[b'];
    }
  }

  lemma RemoveAtOthers<T, K>(s: seq<T>, m: nat, key: T -> K)
    requires m < |s| && DistinctKeys(s, key)
    ensures forall y :: y in s[..m] + s[m + 1..] ==> key(y) != key(s[m])
  {
    var rest := s[..m] + s[m + 1..];
    forall y | y in rest ensures key(y) != key(s[m]) {
      var l :| 0 <= l < |rest| && rest[l] == y;
      var l' := if l < m then l else l + 1;
      assert rest[l] == s[l'] && l' != m;
    }
  }

  /** A rearrangement of a sequence whose keys are distinct has distinct keys. */
  lemma {:induction false} DistinctKeysPermutation<T, K>(r: seq<T>, s: seq<T>, key: T -> K)
    requires multiset(r) == multiset(s) && DistinctKeys(s, key)
    ensures DistinctKeys(r, key)
    decreases |r|
  {
    if r != [] {
      var init, x := r[..|r| - 1], r[|r| - 1];
      assert r == init + [x];
      assert x in multiset(s);
      var m :| 0 <= m < |s| && s[m] == x;
      var rest := s[..m] + s[m + 1..];
      RemoveAt(s, m, key);
      assert multiset(init) == multiset(rest) by {
        assert multiset(r) == multiset(init) + multiset{x};
      }
      DistinctKeysPermutation(init, rest, key);
      forall i | 0 <= i < |init| ensures key(init[i]) != key(x) {
        assert init[i] in multiset(rest);
      }
      DistinctKeysSnoc(init, x, key);
    }
  }

  /** Appending an element whose key is new keeps the keys distinct. */
  lemma DistinctKeysSnoc<T, K>(s: seq<T>, x: T, key: T -> K)
    requires DistinctKeys(s, key) && forall i :: 0 <= i < |s| ==> key(s[i]) != key(x)
    ensures DistinctKeys(s + [x], key)
  {
  }

  /** Keeping the elements whose key lies outside `out` removes exactly those keys. */
  lemma {:induction false} FilterOutKeys<T, K>(s: seq<T>, p: T -> bool, key: T -> K, out: set<K>)
    requires forall x :: p(x) <==> key(x) !in out
    ensures KeySet(Filter(s, p), key) == KeySet(s, key) - out
  {
    var r := Filter(s, p);
    forall k | k in KeySet(r, key) ensures k in KeySet(s, key) - out {
      var x :| x in r && key(x) == k;
      var j :| 0 <= j < |r| && r[j] == x;
      assert p(r[j]) && r[j] in s;
    }
    forall k | k in KeySet(s, key) - out ensures k in KeySet(r, key) {
      var x :| x in s && key(x) == k;
      var i :| 0 <= i < |s| && s[i] == x;
      assert p(s[i]);
    }
  }

  /** A rearrangement has the same set of keys. */
  lemma PermutationKeySet<T, K>(r: seq<T>, s: seq<T>, key: T -> K)
    requires multiset(r) == multiset(s)
    ensures KeySet(r, key) == KeySet(s, key)
  {
    assert forall x :: x in r <==> x in multiset(s);
  }

  // ------------------------------------------------------------------
  // First-occurrence deduplication
  // ------------------------------------------------------------------

  /**
   * Keeps the first element seen for each key and drops the later ones,
   * preserving order: `drop_duplicates(subset=..., keep='first')`.
   */
  function DistinctBy<T(==), K(==)>(s: seq<T>, key: T -> K): (r: seq<T>)
    ensures KeySet(r, key) == KeySet(s, key)
    ensures DistinctKeys(r, key)
    ensures IsSubsequence(r, s)
  {
    if s == [] then []
    else
      var init, x := s[..|s| - 1], s[|s| - 1];
      assert s == init + [x];
      var r := DistinctBy(init, key);
      SubsequenceOfLonger(r, init, x);
      assert (r + [x])[..|r|] == r;
      assert KeySet(init + [x], key) == KeySet(init, key) + {key(x)};
      if key(x) in KeySet(init, key) then r
      else
        assert KeySet(r + [x], key) == KeySet(r, key) + {key(x)};
        r + [x]
  }

  /** One step of `DistinctBy`, in the order a left-to-right loop takes it. */
  lemma DistinctBySnoc<T, K>(s: seq<T>, x: T, key: T -> K)
    ensures KeySet(s + [x], key) == KeySet(s, key) + {key(x)}
    ensures DistinctBy(s + [x], key) ==
      if key(x) in KeySet(s, key) then DistinctBy(s, key) else DistinctBy(s, key) + [x]
  {
    assert (s + [x])[..|s|] == s;
  }

  /** Index of the first element of `s` whose key is `k`. */
  function FirstIndexOfKey<T(==), K(==)>(s: seq<T>, key: T -> K, k: K): (i: nat)
    requires k in KeySet(s, key)
    ensures i < |s| && key(s[i]) == k
    ensures forall j :: 0 <= j < i ==> key(s[j]) != k
  {
    if key(s[0]) == k then 0
    else
      assert k in KeySet(s[1..], key) by {
        var x :| x in s && key(x) == k;
        assert x != s[0];
        assert x in s[1..] by { assert s == [s[0]] + s[1..]; }
      }
      1 + FirstIndexOfKey(s[1..], key, k)
  }

  /** Every element `DistinctBy` keeps is the earliest one carrying its key. */
  lemma {:induction false} DistinctByKeepsFirst<T, K>(s: seq<T>, key: T -> K)
    ensures forall i :: 0 <= i < |DistinctBy(s, key)| ==>
      DistinctBy(s, key)[i] == s[FirstIndexOfKey(s, key, key(DistinctBy(s, key)[i]))]
  {
    var r := DistinctBy(s, key);
    if s != [] {
      var init, x := s[..|s| - 1], s[|s| - 1];
      assert s == init + [x];
      var p := DistinctBy(init, key);
      DistinctByKeepsFirst(init, key);
      forall i | 0 <= i < |r|
        ensures r[i] == s[FirstIndexOfKey(s, key, key(r[i]))]
      {
        var k := key(r[i]);
        assert k in KeySet(r, key);
        var f := FirstIndexOfKey(s, key, k);
        if i < |p| {
          assert r[i] == p[i];
          assert k in KeySet(p, key);
          var g := FirstIndexOfKey(init, key, k);
          assert forall j :: 0 <= j < |init| ==> s[j] == init[j];
          assert f == g;
        } else {
          assert r[i] == x && k !in KeySet(init, key);
          forall j | 0 <= j < |init|
            ensures key(s[j]) != k
          {
            assert s[j] == init[j] && init[j] in init;
          }
        }
      }
    }
  }

  /** A sequence whose keys are already distinct is left unchanged. */
  lemma {:induction false} DistinctByOfDistinct<T, K>(s: seq<T>, key: T -> K)
    requires DistinctKeys(s, key)
    ensures DistinctBy(s, key) == s
  {
    if s != [] {
      var init, x := s[..|s| - 1], s[|s| - 1];
      assert s == init + [x];
      DistinctByOfDistinct(init, key);
      forall y | y in init
        ensures key(y) != key(x)
      {
        var j :| 0 <= j < |init| && init[j] == y;
        assert s[j] == y;
      }
    }
  }

  /** Deduplicating twice is the same as deduplicating once. */
  lemma DistinctByIdempotent<T, K>(s: seq<T>, key: T -> K)
    ensures DistinctBy(DistinctBy(s, key), key) == DistinctBy(s, key)
  {
    DistinctByOfDistinct(DistinctBy(s, key), key);
  }

  // ------------------------------------------------------------------
  // Sorting by key
  // ------------------------------------------------------------------

  function Insert<T, K>(x: T, s: seq<T>, key: T -> K, lt: (K, K) -> bool): (r: seq<T>)
    ensures multiset(r) == multiset(s) + multiset{x}
  {
    if s == [] then [x]
    else if lt(key(x), key(s[0])) then [x] + s
    else
      assert s == [s[0]] + s[1..];
      [s[0]] + Insert(x, s[1..], key, lt)
  }

  lemma {:induction false} InsertSorted<T, K(!new)>(x: T, s: seq<T>, key: T -> K, lt: (K, K) -> bool)
    ensures StrictTotalOrder(lt) && SortedBy(s, key, lt) ==> SortedBy(Insert(x, s, key, lt), key, lt)
  {
    if StrictTotalOrder(lt) && SortedBy(s, key, lt) && s != [] && !lt(key(x), key(s[0])) {
      var tail := Insert(x, s[1..], key, lt);
      InsertSorted(x, s[1..], key, lt);
      var r := [s[0]] + tail;
      forall j | 0 < j < |r|
        ensures !lt(key(r[j]), key(s[0]))
      {
        var y := r[j];
        assert y in multiset(tail);
        assert y in multiset(s[1..]) || y == x;
        if y != x {
          var m :| 0 <= m < |s[1..]| && s[1..][m] == y;
          assert s[m + 1] == y;
        }
      }
    } else if StrictTotalOrder(lt) && SortedBy(s, key, lt) && s != [] {
      var r := [x] + s;
      forall i, j | 0 <= i < j < |r|
        ensures !lt(key(r[j]), key(r[i]))
      {
        if i == 0 {
          assert r[j] == s[j - 1];
          if j - 1 > 0 {
            assert !lt(key(s[j - 1]), key(s[0]));
          }
        }
      }
    }
  }

  /** Stable insertion sort: a permutation of `s`, sorted by `key` under `lt`. */
  function SortBy<T, K(==,!new)>(s: seq<T>, key: T -> K, lt: (K, K) -> bool): (r: seq<T>)
    ensures multiset(r) == multiset(s)
    ensures |r| == |s|
    ensures StrictTotalOrder(lt) ==> SortedBy(r, key, lt)
  {
    if s == [] then []
    else
      var init, x := s[..|s| - 1], s[|s| - 1];
      assert s == init + [x];
      var sortedInit := SortBy(init, key, lt);
      InsertSorted(x, sortedInit, key, lt);
      var r := Insert(x, sortedInit, key, lt);
      assert |r| == |multiset(r)|;
      r
  }

  /** Sorting a sequence with distinct keys makes its key sequence strictly increasing. */
  lemma SortedDistinctIncreasing<T, K(!new)>(s: seq<T>, key: T -> K, lt: (K, K) -> bool)
    requires StrictTotalOrder(lt) && SortedBy(s, key, lt) && DistinctKeys(s, key)
    ensures Increasing(KeySeq(s, key), lt)
  {
  }

  /** Two strictly increasing sequences with the same elements are equal. */
  lemma {:induction false} IncreasingUnique<K(!new)>(a: seq<K>, b: seq<K>, lt: (K, K) -> bool)
    requires StrictTotalOrder(lt) && Increasing(a, lt) && Increasing(b, lt)
    requires forall x :: x in a <==> x in b
    ensures a == b
  {
    if a != [] {
      assert a[0] in a;
    }
    if b != [] {
      assert b[0] in b;
    }
    if a != [] && b != [] {
      var i :| 0 <= i < |b| && b[i] == a[0];
      var j :| 0 <= j < |a| && a[j] == b[0];
      assert a[0] == b[0];
      forall x
        ensures x in a[1..] <==> x in b[1..]
      {
        if x in a[1..] {
          var k :| 1 <= k < |a| && a[k] == x;
          assert lt(a[0], x);
          assert x in b;
        }
        if x in b[1..] {
          var k :| 1 <= k < |b| && b[k] == x;
          assert lt(b[0], x);
          assert x in a;
        }
      }
      IncreasingUnique(a[1..], b[1..], lt);
      assert a == [a[0]] + a[1..] && b == [b[0]] + b[1..];
    }
  }

  /** Leaving elements out of a strictly increasing sequence keeps it strictly increasing. */
  lemma {:induction false} IncreasingSubsequence<K>(r: seq<K>, s: seq<K>, lt: (K, K) -> bool)
    requires IsSubsequence(r, s) && Increasing(s, lt)
    ensures Increasing(r, lt)
    decreases |r| + |s|
  {
    if r != [] && s != [] {
      var s' := s[..|s| - 1];
      assert Increasing(s', lt);
      if r[|r| - 1] == s[|s| - 1] {
        var r' := r[..|r| - 1];
        IncreasingSubsequence(r', s', lt);
        SubsequenceMembers(r', s');
        forall p | 0 <= p < |r'| ensures lt(r[p], r[|r| - 1]) {
          assert r[p] == r'[p] && r'[p] in s';
          var m :| 0 <= m < |s'| && s'[m] == r'[p];
        }
      } else {
        IncreasingSubsequence(r, s', lt);
      }
    }
  }

  /** Elements with distinct keys have as many keys as there are elements. */
  lemma {:induction false} DistinctKeysCount<T, K>(s: seq<T>, key: T -> K)
    requires DistinctKeys(s, key)
    ensures |KeySet(s, key)| == |s|
  {
    if s != [] {
      var init, x := s[..|s| - 1], s[|s| - 1];
      assert s == init + [x];
      DistinctKeysCount(init, key);
      DistinctBySnoc(init, x, key);
    }
  }

  /** The first `n` elements, or all of them when there are fewer (pandas `head(n)`). */
  function Take<T>(s: seq<T>, n: nat): (r: seq<T>)
    ensures |r| == if |s| < n then |s| else n
    ensures forall i :: 0 <= i < |r| ==> r[i] == s[i]
  {
    if |s| <= n then s else s[..n]
  }
}

=== FILE: results.dfy ===
/** Failure-carrying values shared by the comparator's stages. */
module Results {

  datatype Option<T> = None | Some(value: T)

  /** The conditions under which pandas raises inside the comparison pipeline. */
  datatype Error =
    | DuplicateColumns               // two columns carry the same label
    | MissingKeyColumn(name: string) // a primary-key column is absent (pandas KeyError)
    | EmptyKey                       // duplicates sought on an empty key subset (pandas ValueError)
    | NotIdenticallyLabelled         // DataFrame.compare on frames with different labels

  datatype Result<T> = Ok(value: T) | Err(error: Error) {
    predicate IsFailure() {
      Err?
    }

    function PropagateFailure<U>(): Result<U>
      requires Err?
    {
      Err(error)
    }

    function Extract(): T
      requires Ok?
    {
      value
    }
  }
}

=== FILE: text.dfy ===
/**
 * The Python string behaviour the comparator depends on: `str.strip()`,
 * `str.lower()`, code-point ordering of strings and of tuples of strings,
 * `f"{n}"` for a non-negative integer and `", ".join(...)`.
 */
module Text {
  import opened Order

  // ------------------------------------------------------------------
  // Whitespace and str.strip()
  // ------------------------------------------------------------------

  /** Python's `str.isspace()` for a single character. */
  predicate IsSpace(c: char) {
    var n := c as int;
    n == 0x20 || 0x09 <= n <= 0x0D || 0x1C <= n <= 0x1F || n == 0x85 || n == 0xA0
    || n == 0x1680 || 0x2000 <= n <= 0x200A || n == 0x2028 || n == 0x2029
    || n == 0x202F || n == 0x205F || n == 0x3000
  }

  /** Number of whitespace characters at the start of `s`. */
  function LeadingSpaces(s: string): (n: nat)
    ensures n <= |s|
    ensures forall k :: 0 <= k < n ==> IsSpace(s[k])
    ensures n == |s| || !IsSpace(s[n])
  {
    if s != [] && IsSpace(s[0]) then 1 + LeadingSpaces(s[1..]) else 0
  }

  /** Number of whitespace characters at the end of `s`. */
  function TrailingSpaces(s: string): (n: nat)
    ensures n <= |s|
    ensures forall k :: |s| - n <= k < |s| ==> IsSpace(s[k])
    ensures n == |s| || !IsSpace(s[|s| - n - 1])
  {
    if s != [] && IsSpace(s[|s| - 1]) then 1 + TrailingSpaces(s[..|s| - 1]) else 0
  }

  /**
   * Python's `str.strip()`: the slice of `s` from its first to its last
   * non-whitespace character (empty when `s` is all whitespace).
   */
  function Strip(s: string): (r: string)
    ensures r == [] || (!IsSpace(r[0]) && !IsSpace(r[|r| - 1]))
    ensures LeadingSpaces(s) + |r| <= |s|
    ensures r == s[LeadingSpaces(s)..LeadingSpaces(s) + |r|]
    ensures forall k :: LeadingSpaces(s) + |r| <= k < |s| ==> IsSpace(s[k])
  {
    var rest := s[LeadingSpaces(s)..];
    rest[..|rest| - TrailingSpaces(rest)]
  }

  /** Stripping an already stripped string changes nothing. */
  lemma StripIdempotent(s: string)
    ensures Strip(Strip(s)) == Strip(s)
  {
    var r := Strip(s);
    assert LeadingSpaces(r) == 0;
    assert TrailingSpaces(r) == 0;
  }

  /** No whitespace at either end: `str.strip()` has nothing to remove. */
  predicate Trimmed(s: string) {
    s == [] || (!IsSpace(s[0]) && !IsSpace(s[|s| - 1]))
  }

  lemma {:induction false} StripOfTrimmed(s: string)
    requires Trimmed(s)
    ensures Strip(s) == s
  {
    var r := Strip(s);
    assert LeadingSpaces(s) == 0;
  }

  // ------------------------------------------------------------------
  // str.lower()
  // ------------------------------------------------------------------

  /** Upper-case letters of Basic Latin and Latin-1 (`A`-`Z`, U+00C0-U+00DE except U+00D7). */
  predicate IsUpper(c: char) {
    'A' <= c <= 'Z' || ('\U{C0}' <= c <= '\U{DE}' && c != '\U{D7}')
  }

  /** Python's `str.lower()` on one character of Basic Latin or Latin-1. */
  function LowerChar(c: char): (d: char)
    ensures !IsUpper(d)
    ensures IsUpper(c) ==> d as int == c as int + 32
    ensures !IsUpper(c) ==> d == c
  {
    if IsUpper(c) then (c as int + 32) as char else c
  }

  function Lower(s: string): (r: string)
    ensures |r| == |s|
    ensures forall i :: 0 <= i < |s| ==> r[i] == LowerChar(s[i])
  {
    seq(|s|, i requires 0 <= i < |s| => LowerChar(s[i]))
  }

  /** A string without upper-case letters is its own lower-case form. */
  lemma LowerOfNoUpper(s: string)
    requires forall i :: 0 <= i < |s| ==> !IsUpper(s[i])
    ensures Lower(s) == s
  {
  }

  /** Lower-casing is idempotent. */
  lemma LowerIdempotent(s: string)
    ensures Lower(Lower(s)) == Lower(s)
  {
  }

  /** Lower-casing never turns a character into whitespace or whitespace into something else. */
  lemma LowerCharSpace(c: char)
    ensures IsSpace(LowerChar(c)) == IsSpace(c)
  {
    if IsUpper(c) {
      assert LowerChar(c) as int == c as int + 32;
    }
  }

  /** Lower-casing a stripped string leaves nothing to strip. */
  lemma LowerOfStripped(s: string)
    ensures Strip(Lower(Strip(s))) == Lower(Strip(s))
  {
    var l := Lower(Strip(s));
    if l != [] {
      LowerCharSpace(Strip(s)[0]);
      LowerCharSpace(Strip(s)[|l| - 1]);
      assert LeadingSpaces(l) == 0;
      assert TrailingSpaces(l) == 0;
    }
  }

  // ------------------------------------------------------------------
  // Ordering: strings and tuples of strings by code point
  // ------------------------------------------------------------------

  /** Python's `<` on strings: lexicographic by code point, a proper prefix first. */
  predicate StrLt(a: string, b: string) {
    if b == [] then false
    else if a == [] then true
    else if a[0] != b[0] then a[0] < b[0]
    else StrLt(a[1..], b[1..])
  }

  lemma {:induction false} StrLtIrreflexive(a: string)
    ensures !StrLt(a, a)
  {
    if a != [] {
      StrLtIrreflexive(a[1..]);
    }
  }

  lemma {:induction false} StrLtTransitive(a: string, b: string, c: string)
    requires StrLt(a, b) && StrLt(b, c)
    ensures StrLt(a, c)
  {
    if a != [] && a[0] == b[0] && b[0] == c[0] {
      StrLtTransitive(a[1..], b[1..], c[1..]);
    }
  }

  lemma {:induction false} StrLtConnected(a: string, b: string)
    ensures a == b || StrLt(a, b) || StrLt(b, a)
  {
    if a != [] && b != [] && a[0] == b[0] {
      StrLtConnected(a[1..], b[1..]);
      if a[1..] == b[1..] {
        assert a == [a[0]] + a[1..] && b == [b[0]] + b[1..];
      }
    }
  }

  /** Code-point string order is a strict total order, so sorting by it is deterministic. */
  lemma StrLtIsStrictTotalOrder()
    ensures StrictTotalOrder(StrLt)
  {
    forall a ensures !StrLt(a, a) {
      StrLtIrreflexive(a);
    }
    forall a, b, c | StrLt(a, b) && StrLt(b, c) ensures StrLt(a, c) {
      StrLtTransitive(a, b, c);
    }
    forall a, b | a != b ensures StrLt(a, b) || StrLt(b, a) {
      StrLtConnected(a, b);
    }
  }

  /** Python's `<` on tuples of strings: element-wise by `StrLt`, a proper prefix first. */
  predicate TupleLt(a: seq<string>, b: seq<string>) {
    if b == [] then false
    else if a == [] then true
    else if a[0] != b[0] then StrLt(a[0], b[0])
    else TupleLt(a[1..], b[1..])
  }

  lemma {:induction false} TupleLtIrreflexive(a: seq<string>)
    ensures !TupleLt(a, a)
  {
    if a != [] {
      TupleLtIrreflexive(a[1..]);
    }
  }

  lemma {:induction false} TupleLtTransitive(a: seq<string>, b: seq<string>, c: seq<string>)
    requires TupleLt(a, b) && TupleLt(b, c)
    ensures TupleLt(a, c)
  {
    if a != [] && b != [] && c != [] {
      if a[0] == b[0] && b[0] == c[0] {
        TupleLtTransitive(a[1..], b[1..], c[1..]);
      } else if a[0] != b[0] && b[0] != c[0] {
        StrLtTransitive(a[0], b[0], c[0]);
        if a[0] == c[0] {
          StrLtIrreflexive(a[0]);
        }
      }
    }
  }

  lemma {:induction false} TupleLtConnected(a: seq<string>, b: seq<string>)
    ensures a == b || TupleLt(a, b) || TupleLt(b, a)
  {
    if a != [] && b != [] {
      if a[0] == b[0] {
        TupleLtConnected(a[1..], b[1..]);
        if a[1..] == b[1..] {
          assert a == [a[0]] + a[1..] && b == [b[0]] + b[1..];
        }
      } else {
        StrLtConnected(a[0], b[0]);
      }
    }
  }

  /** Key tuples are totally ordered, so sorting rows by key is deterministic. */
  lemma TupleLtIsStrictTotalOrder()
    ensures StrictTotalOrder(TupleLt)
  {
    forall a ensures !TupleLt(a, a) {
      TupleLtIrreflexive(a);
    }
    forall a, b, c | TupleLt(a, b) && TupleLt(b, c) ensures TupleLt(a, c) {
      TupleLtTransitive(a, b, c);
    }
    forall a, b | a != b ensures TupleLt(a, b) || TupleLt(b, a) {
      TupleLtConnected(a, b);
    }
  }

  // ------------------------------------------------------------------
  // Decimal rendering of a count: f"{n}"
  // ------------------------------------------------------------------

  predicate IsDigit(c: char) {
    '0' <= c <= '9'
  }

  function DigitValue(c: char): nat {
    if IsDigit(c) then c as int - '0' as int else 0
  }

  /** The shortest decimal numeral of `n`, as Python's `str(n)` writes it. */
  function NatToString(n: nat): (s: string)
    ensures |s| > 0 && forall i :: 0 <= i < |s| ==> IsDigit(s[i])
  {
    if n < 10 then [('0' as int + n) as char]
    else NatToString(n / 10) + [('0' as int + n % 10) as char]
  }

  /** The number a string of decimal digits denotes. */
  function DecimalValue(s: string): nat {
    if s == [] then 0 else 10 * DecimalValue(s[..|s| - 1]) + DigitValue(s[|s| - 1])
  }

  /** Rendering a count and reading it back gives the count. */
  lemma {:induction false} DecimalRoundTrip(n: nat)
    ensures DecimalValue(NatToString(n)) == n
  {
    if n >= 10 {
      DecimalRoundTrip(n / 10);
      var s := NatToString(n);
      assert s[..|s| - 1] == NatToString(n / 10);
    }
  }

  lemma NatToStringInjective(m: nat, n: nat)
    requires NatToString(m) == NatToString(n)
    ensures m == n
  {
    DecimalRoundTrip(m);
    DecimalRoundTrip(n);
  }

  /**
   * When two digit strings are each followed by the same text starting with
   * a non-digit, equal concatenations mean equal digit strings.
   */
  lemma {:induction false} DigitPrefixDetermined(a: string, b: string, x: string, y: string)
    requires forall i :: 0 <= i < |a| ==> IsDigit(a[i])
    requires forall i :: 0 <= i < |b| ==> IsDigit(b[i])
    requires x != [] && y != [] && !IsDigit(x[0]) && !IsDigit(y[0])
    requires a + x == b + y
    ensures a == b && x == y
  {
    var s := a + x;
    assert s[|a|] == x[0] && !IsDigit(s[|a|]);
    assert s[|b|] == (b + y)[|b|] == y[0] && !IsDigit(s[|b|]);
    assert forall k :: 0 <= k < |a| ==> IsDigit(s[k]);
    assert forall k :: 0 <= k < |b| ==> s[k] == (b + y)[k] && IsDigit(s[k]);
    assert |a| == |b|;
    assert a == s[..|a|] && b == (b + y)[..|b|];
    assert x == s[|a|..] && y == (b + y)[|b|..];
  }

  // ------------------------------------------------------------------
  // ", ".join(...)
  // ------------------------------------------------------------------

  /** Python's `sep.join(xs)`. */
  function Join(xs: seq<string>, sep: string): string {
    if |xs| == 0 then ""
    else if |xs| == 1 then xs[0]
    else xs[0] + sep + Join(xs[1..], sep)
  }

  /** Index of the first comma in `s`, or `|s|` when there is none. */
  function FirstComma(s: string): (i: nat)
    ensures i <= |s|
    ensures i < |s| ==> s[i] == ','
    ensures forall k :: 0 <= k < i ==> s[k] != ','
  {
    if s == [] then 0 else if s[0] == ',' then 0 else 1 + FirstComma(s[1..])
  }

  /** Splits a list written as `a, b, c` back into its items. */
  function SplitList(s: string): seq<string>
    decreases |s|
  {
    var i := FirstComma(s);
    if i == |s| then [s]
    else [s[..i]] + SplitList(s[if i + 2 <= |s| then i + 2 else |s|..])
  }

  /** Splitting `x, rest` with a comma-free `x` yields `x` followed by the split of `rest`. */
  lemma {:induction false} SplitListHead(x: string, rest: string)
    requires ',' !in x
    ensures SplitList(x + ", " + rest) == [x] + SplitList(rest)
  {
    var s := x + ", " + rest;
    assert s[|x|] == ',';
    assert forall k :: 0 <= k < |x| ==> s[k] == x[k];
    var i := FirstComma(s);
    assert i == |x|;
    assert s[..i] == x;
    assert s[i + 2..] == rest;
  }

  /** A non-empty list of comma-free names survives joining with ", " and splitting again. */
  lemma {:induction false} JoinSplitRoundTrip(xs: seq<string>)
    requires |xs| > 0
    requires forall i :: 0 <= i < |xs| ==> ',' !in xs[i]
    ensures SplitList(Join(xs, ", ")) == xs
  {
    if |xs| == 1 {
      assert FirstComma(xs[0]) == |xs[0]|;
    } else {
      SplitListHead(xs[0], Join(xs[1..], ", "));
      JoinSplitRoundTrip(xs[1..]);
      assert xs == [xs[0]] + xs[1..];
    }
  }
}
